=== FILE: README.md ===
# fiiCrawler core in Dafny

fiiCrawler is a small web service. It answers `GET /fii/<ticker>` with facts about a
Brazilian real-estate fund (FII): name, price, liquidity, dividend yield, vacancy and
so on. It collects these from three public sites: fundamentus, fundsexplorer and
investidor10. Each page is cut into fields by an anchor-based text extractor. Each
field is normalised by a locale-aware number reader. The three records are merged key
by key. The answer is kept for a day in a line-oriented cache file.

This project models that core of `index.py` as pure Dafny functions and proves
properties about it. There is one module per part of the program:

| file | module | models |
|---|---|---|
| `base.dfy` | `Base` | `Option` and `Result` |
| `pystr.dfy` | `PyStr` | the Python string operations the program relies on: `find`, slicing with negative indices, `replace` of a literal, `strip`, `split`, `lower` |
| `values.dfy` | `Values` | the 28 record keys, JSON-like values, Python truthiness |
| `numbers.dfy` | `Numbers` | `text_to_number` and the part of `float()` it needs |
| `extract.dfy` | `Extract` | `get_substring` |
| `investidor10.dfy` | `Investidor10` | `multiply_by_unit`, `count_repetitions` (defined but never called in the program), `count_pattern_on_text` |
| `providers.dfy` | `Providers` | the three `convert_*_data` converters and the adapters around them |
| `merge.dfy` | `Merge` | `get_data_from_all_by` |
| `cache.dfy` | `Cache` | `delete_cache`, `clear_cache`, `read_cache`, `write_to_cache` |
| `handler.dfy` | `Handler` | `request_shares_by` and the flag logic of `get_fii_data_by` |

Modelling choices:
- The cache file is a value: `Absent`, or `Present` with its lines.
- Every side effect becomes part of a returned value: the file left behind, or a
  `Failure` that stands for an exception.
- Inputs from outside are parameters:
  - the HTTP answers, as one `Option<string>` page per provider;
  - the clock, as whole seconds;
  - `str(data)`, as an `encode` function;
  - `json.loads`, as a `decode` function that gives `None` where it raises.
- `read_cache` calls `clear_cache` for its clear flag and for a stale entry
  (index.py:101-103, 124-125); the model's read does the same through
  `Cache.ClearCache`, on a file it has just seen, so that call never raises there.

Behaviours of the code worth knowing:
- `get_substring` returns `None` only when the raw capture is empty. A capture that
  cleanup empties comes back as `''` (`Extract.CaptureBetweenAnchors`).
- The merge does not short-circuit. All three providers are always fetched.
  - A falsy fundamentus record is replaced by the fundsexplorer record whole, `None`
    included.
  - A falsy fundsexplorer record is replaced by the investidor10 record whole.
  - Otherwise each falsy key is filled from fundsexplorer, then from investidor10.
  - A key that neither can fill is dropped from the result, not set to `None`.
  - If investidor10 answered `None`, such a key makes `key in None` raise.
- The cache looks tickers up by line prefix, so an entry for `HGLG11B` answers a
  request for `HGLG11` (`Cache.PrefixCollision`).

## Model

| member | source | states |
|---|---|---|
| PyStr.Find | index.py:34 | `str.find`: the result is -1 or the first index at or after `start` where the needle occurs; no match lies before it |
| PyStr.Remove | index.py:44-50 | `str.replace(pat, '')`: the result is no longer and holds only characters of the input; a one-character pattern is gone entirely |
| PyStr.RemoveAbsent | index.py:50 | deleting a pattern that does not occur changes nothing |
| PyStr.RemoveAfterPrefix | index.py:50 | text before the pattern's first character is kept as it is, and deletion goes on after it |
| PyStr.RemoveJoinsSplit | index.py:44-50 | `s.replace(pat, '')` is `''.join(s.split(pat))`: every occurrence found left to right is deleted and the text between occurrences is kept in order |
| PyStr.Trim | index.py:52 | what `strip` keeps: the result is the input with a run of dropped characters cut from each end; neither end of the result is dropped; it is empty exactly when every character is dropped |
| PyStr.TrimUnique | index.py:52 | any slice that cuts only dropped characters from both ends and ends on kept ones is the result of `strip` |
| PyStr.Words | index.py:311 | `str.split()`: every word is non-empty and holds no whitespace |
| PyStr.WordsLeadingSpace | index.py:311 | whitespace in front of the text yields no word |
| PyStr.WordsSingle | index.py:311 | a text without whitespace is one word, or none when empty |
| PyStr.WordsAfterWord | index.py:311 | a word ended by whitespace is the first word, and the split goes on after it |
| PyStr.Lower | index.py:311 | `str.lower()` on ASCII: the length is kept, capitals become their small letters, every other character stays, and no capital is left |
| PyStr.SplitOn | index.py:113 | `str.split(sep)`: at least one part; joining the parts with the separator gives back the input; no part contains the separator, and every cut is at the leftmost occurrence |
| PyStr.SplitOverlapping | index.py:113 | overlapping separators are cut at the leftmost one: `'#@#@#'.split('#@#')` is `['', '@#']` |
| PyStr.FirstCutIsLeftmost | index.py:113 | the text before the first occurrence of the separator holds no occurrence, not even one overlapping the cut |
| PyStr.Slice | index.py:38 | `s[a:b]` with Python's index rules: non-negative bounds slice directly, a negative bound counts from the end, crossed bounds give the empty text |
| PyStr.SliceCases | index.py:38 | the remaining bound combinations of `s[a:b]`: both bounds counted from the end, a stop past the end, a start before the text, a start past the end, and bounds that cross once normalised |
| PyStr.SliceFrom | index.py:35 | `s[a:]`: a non-negative start slices directly, a negative one counts from the end, one before the start gives the whole text, one past the end gives nothing |
| Extract.StripTags | index.py:46 | `re.sub(r'<[^>]*>', '', ...)`: adds no characters, leaves tag-free text alone, and no `<` is followed by a `>` afterwards |
| Extract.StripTagsPlainPrefix | index.py:46 | text before the first `<` is kept and the rest is stripped on its own |
| Extract.StripTagsDropsTag | index.py:46 | a span from `<` through the first `>` is deleted whole |
| Extract.StripTagsKeepsUnclosed | index.py:46 | a `<` never closed by `>` is kept, with everything after it |
| Extract.GetSubstring | index.py:33-52 | a capture holds no newline or tab, only characters of the text, and starts and ends on non-whitespace |
| Extract.CaptureBetweenAnchors | index.py:33-52 | the value is the cleaned text strictly between the first start anchor and the first end anchor after it; it is `None` exactly when that raw text is empty |
| Extract.AbsentStartGivesNone | index.py:34-42 | a missing start anchor gives `None`, whatever the end anchor |
| Extract.MissingEndGivesNone | index.py:37-42 | a missing end anchor gives `None`, because the end index becomes the start of the capture |
| Extract.EmptyStartWithoutEndDropsLastChar | index.py:34-38 | an empty start anchor with a missing end anchor captures the whole text but its last character |
| Numbers.ParseFloat | index.py:71-76 | `float` accepts only a non-empty text of sign, digit and point characters |
| Numbers.ParseFloatAccepts | index.py:71-76 | `float` accepts a text exactly when, after at most one leading sign, it is digits, a point followed by digits, or digits followed by a point and possibly more digits |
| Numbers.ParseFloatWhole | index.py:76 | `float` of a run of digits is the number they write, leading zeros included |
| Numbers.ParseFloatFraction | index.py:76 | `float` of a point followed by digits is that fraction |
| Numbers.ParseFloatPoint | index.py:76 | `float` of digits, a point and more digits, with an optional `-`, is the number written |
| Numbers.ParseFloatSigned | index.py:76 | a leading `-` negates the reading of the rest, a leading `+` changes nothing, and a second sign is rejected |
| Numbers.TextToNumber | index.py:54-78 | a falsy input gives 0; a truthy non-string comes back unchanged; every string gives a number; a blank string gives 0 |
| Numbers.CommaDecimalReads | index.py:54-78 | a Brazilian numeral with a decimal comma, such as `'-12,5'`, reads as the number it writes |
| Numbers.DigitsRead | index.py:54-78 | a run of digits reads as the whole number it writes |
| Numbers.ParseNatText | index.py:117 | reading the decimal digits written for a number gives that number back |
| Numbers.ParseFloatNatText | index.py:76 | `float` of a number's decimal digits is that number |
| Numbers.PercentFlagScales | index.py:70-71 | with a `%` in the text, the fraction flag divides the reading by exactly 100; without one the flag changes nothing |
| Numbers.ForeignCharReadsZero | index.py:62-78 | a character outside digits, sign, point, space, `,`, `%`, `R` and `$` makes the reading 0 |
| Numbers.CurrencyPercentReadsZero | index.py:70-74 | a text holding both `%` and `R` reads as 0, because the percent branch returns before `R$` is removed |
| Numbers.ThousandsExample | index.py:67-68 | `'1.234,56'` reads as 1234.56 |
| Numbers.PercentExample | index.py:70-71 | `'12,5%'` with the fraction flag reads as 0.125 |
| Numbers.AbsentReadsAsZero | index.py:56-57 | `None` reads as 0 |
| Investidor10.MultiplyByUnit | index.py:277-288 | the unit reader as written: `None` exactly for a missing or empty text, a number otherwise |
| Investidor10.AsWrittenZeroesUnitAmounts | index.py:281 | as written, an amount followed by any unit reads as 0, since the unit is never removed |
| Investidor10.UnitAmountReadsZero | index.py:281-288 | as written, any text with a unit letter and without the literal pattern reads as 0 |
| Investidor10.MilhoesScaledByThousand | index.py:283-284 | as written, a text containing `Milhões` is scaled by 1000, since it contains `Mil` |
| Investidor10.MultiplyByUnitWith | index.py:277-288 | the corrected unit reader, for any number reader: `None` exactly for a missing or empty text, a number otherwise |
| Investidor10.MultiplyByUnitIntended | index.py:277-288 | the corrected unit reader used by the investidor10 converter: `None` exactly for a missing or empty text |
| Investidor10.IntendedScalesByUnit | index.py:281-288 | corrected: the amount before a unit is read and scaled by that unit |
| Investidor10.IntendedScalesMillions | index.py:285-286 | corrected: `m`, `M` and `Milhões` multiply the amount by 1,000,000 |
| Investidor10.IntendedScalesThousands | index.py:283-284 | corrected: `k`, `K` and `Mil` multiply the amount by 1000 |
| Investidor10.UnitsContainment | index.py:283-286 | which unit words the three containment tests accept |
| Investidor10.CountRepetitions | index.py:290-305 | `None` for a missing or empty text; otherwise the number of positions where the pattern starts, overlapping ones included |
| Investidor10.OverlapsCounted | index.py:298 | the search restarts one past the last match, so `'aa'` occurs twice in `'aaa'` |
| Investidor10.CountPatternOnText | index.py:307-311 | `None` exactly when the text or the pattern is missing or empty; what is counted is fixed by the three lemmas below |
| Investidor10.CountSingleWord | index.py:311 | a one-word text counts 1 when the word equals the pattern up to case, else 0 |
| Investidor10.CountLeadingSpace | index.py:311 | whitespace in front of the text does not change the count |
| Investidor10.CountAfterWord | index.py:311 | a word followed by whitespace adds 1 to the count of the rest exactly when it equals the pattern up to case |
| Investidor10.CountIgnoresCase | index.py:311 | lower-casing the pattern or the text does not change the count |
| Investidor10.SpacedPatternCountsZero | index.py:311 | a pattern holding whitespace never equals a word, so the count is 0 |
| Providers.ConvertFundamentus | index.py:135-186 | the converter raises exactly when the vacancy label is missing; otherwise every key is present with a value of the kind that key can hold |
| Providers.FundamentusLabelledAt | index.py:157-186 | with a key's label first found at `i` and the next `</span>` at `j`, a figure is the number read from the cleaned text between them and a text key holds that text |
| Providers.FundamentusCashAt | index.py:180 | the cash value is the text between the first `Caixa'` and the next `]`, without the chart's `, data : [` |
| Providers.FundamentusTextAt | index.py:157-186 | a text key holds its capture, or `None` when there is none |
| Providers.FundamentusValueFits | index.py:157-186 | a key's value is `None` for the keys never filled, text or `None` for the text keys, a number for the number keys, a non-empty link for `link` |
| Providers.VacancyNullIffDashes | index.py:151-153 | the vacancy is `None` exactly when its text is only dashes and whitespace |
| Providers.MissingVacancyAnchorFails | index.py:151-152 | without the vacancy label, `.replace` is called on `None` and the converter raises |
| Providers.MissingCnpjStillLinks | index.py:155-162 | without a CNPJ the link is still built, ending in `None` |
| Providers.ConvertFundsexplorer | index.py:209-239 | the converter succeeds exactly when every meta key it reads is present; each key then holds its meta value, and the three unfilled keys hold `None` |
| Providers.FundsexplorerKeysDistinct | index.py:210-239 | no two keys are copied from the same meta key |
| Providers.ExtraMetaIgnored | index.py:209-239 | a meta entry no key reads does not change the record |
| Providers.FundsexplorerAdapter | index.py:241-264 | no page, no data layer or a layer `json.loads` rejects gives `None`; a decoded meta object gives the converter's answer for it; a record returned is complete |
| Providers.FundsexplorerLayerAt | index.py:255-257 | the text decoded is the cleaned text between the first `var dataLayer_content` and the next `dataLayer.push`, trimmed of `;`, `=` and spaces |
| Providers.MissingLayerGivesNone | index.py:255-264 | a page without `var dataLayer_content` gives `None`, whatever the decoder |
| Providers.ConvertInvestidor10 | index.py:266-342 | the converter raises exactly when the six-month yield block is missing; otherwise every key is present with a value of the kind that key can hold |
| Providers.Investidor10ValueFits | index.py:313-342 | a key's value is `None` for the keys never filled, text or `None` for the text keys, a number for the dividend sum, a number or `None` for the unit and count keys |
| Providers.Investidor10LabelledAt | index.py:313-342 | with a key's label first found at `i` and its end (`</span>` for the header figures, the next table cell for the rest) first found after it at `j`, a text key holds the cleaned text between them, a figure the number read from it, and the two amounts with a unit that amount scaled by the corrected unit reader (see Findings) |
| Providers.Investidor10LatestsAt | index.py:330 | the latest dividends are the number read between the amount label and the next `</span>` inside the six-month yield block |
| Providers.Investidor10CountAt | index.py:334 | the property count is the number of lower-cased words of the property list equal to `card-propertie`, or `None` when the list cleans up to nothing |
| Providers.MissingListCountsNull | index.py:334 | a page without the property list has no property count |
| Providers.MissingYieldAnchorFails | index.py:330 | without the yield block, `get_substring` is called on `None` and the converter raises |
| Providers.FundamentusAdapter | index.py:188-207 | no page gives `None`; otherwise `None` exactly when the vacancy label is missing, else a complete record of fundamentus's kinds |
| Providers.Investidor10Adapter | index.py:344-361 | no page gives `None`; otherwise `None` exactly when the yield block is missing, else a complete record of investidor10's kinds |
| Providers.AdaptersAnswer | index.py:188-207 | a failed fetch makes every adapter answer `None`; an answer that is not `None` is a complete record |
| Merge.MergeFrom | index.py:376-389 | the loop over a key list: it fails exactly when a key must be looked up in a missing investidor10 record; otherwise each kept key holds fundamentus's truthy value, else fundsexplorer's, else investidor10's |
| Merge.GetDataFromAll | index.py:363-391 | a falsy fundamentus answer yields fundsexplorer's as it is; a falsy fundsexplorer answer yields investidor10's; otherwise the key-by-key merge, which fails only when investidor10 gave `None` |
| Merge.MergeRecords | index.py:374-391 | over all 28 keys, the merge follows the per-key rules and fails exactly when some key falls through to a missing investidor10 record |
| Merge.MergeFailsExactly | index.py:368-389 | with two truthy records, the whole merge fails exactly when investidor10 is `None` and some key falls through to it |
| Merge.MergeKeepsOnlyTruthy | index.py:376-389 | every value in a merged record is truthy |
| Merge.MergeRulesDetermine | index.py:376-389 | the per-key rules admit one result only |
| Merge.TruthyFundamentusWins | index.py:376-389 | a fundamentus record whose values are all truthy comes back unchanged |
| Merge.MissingInvestidor10Raises | index.py:379-382 | one key that is falsy in fundamentus and missing from fundsexplorer makes the merge raise when investidor10 gave `None` |
| Cache.DeleteCache | index.py:80-84 | after deletion the file holds no lines |
| Cache.ClearLines | index.py:86-95 | the rewrite keeps, in order, exactly the lines that do not start with the ticker |
| Cache.ClearCache | index.py:86-95 | clearing raises exactly when the file is missing; otherwise the file becomes exactly the kept lines, so no line starts with the ticker and every other line stays |
| Cache.ClearIdempotent | index.py:86-95 | clearing twice is clearing once |
| Cache.ClearDistributes | index.py:91-93 | clearing works line by line |
| Cache.ClearKeepsUnrelated | index.py:91-93 | a file with no line for the ticker is left as it is |
| Cache.FirstWithPrefix | index.py:108-111 | the first line that starts with the ticker, or none |
| Cache.CacheLine | index.py:132 | the written line starts with the ticker and ends in a newline |
| Cache.WriteToCache | index.py:129-133 | the file gains exactly one line at the end, starting with the ticker; the earlier lines are untouched |
| Cache.ReadEntry | index.py:113-126 | reading the first matching line: a hit is fresh, carries that line's timestamp and decoded payload, and leaves the file alone; a miss clears the ticker's lines; it raises a malformed-line error exactly when the line does not split into three fields |
| Cache.ReadCache | index.py:97-127 | a missing file misses; clearing always misses and removes the ticker's lines; a hit is fresh, leaves the file alone and carries the timestamp and decoded payload of the first line for the ticker; a miss leaves the file as it was or cleared |
| Cache.FreshFirstMatchHits | index.py:109-119 | a fresh, well-formed first match is a hit with that line's payload and timestamp, and the file is unchanged |
| Cache.MalformedFirstMatchRaises | index.py:113 | a first match that does not split into three fields makes the read raise |
| Cache.CacheLineFields | index.py:113-132 | a written line splits back into ticker, timestamp and payload |
| Cache.ReadAfterWrite | index.py:97-133 | reading right after a write: within a day the payload comes back with its timestamp, or the read raises if the payload does not parse; after a day it misses and the line is purged |
| Cache.StaleFirstMatchPurges | index.py:109-125 | a stale first match purges every line of the ticker, newer fresh ones included |
| Cache.DeleteThenReadMisses | index.py:80-84 | after deletion every read misses |
| Cache.PrefixCollision | index.py:109-119 | an entry for a ticker answers a read for any proper prefix of it |
| Handler.FlagOf | index.py:405-407 | a flag is set exactly when its argument, or the default, is a listed true word with any of its letters capitalised; so it is never set by an empty word or one longer than four characters |
| Handler.SourceOf | index.py:409 | no argument means all providers; a provider is picked only by a name of that provider's length |
| Handler.RequestShares | index.py:393-401 | a named provider always answers; only the merge can raise, and only when investidor10 gave `None`; a provider's answer is passed through as it is |
| Handler.ParseFlags | index.py:405-407 | with no arguments: do not delete, do not clear, use the cache |
| Handler.GetFiiData | index.py:403-430 | deleting leaves no file and fetches fresh; without the cache the file is untouched; a cached answer is only returned when the cache is used and the answer is truthy; a failure keeps what was done to the file before it, so the file is left as it was, deleted, or with the ticker's lines cleared; a fresh answer is exactly what `request_shares_by` returned, a failed merge is that merge's failure, and without the cache or with the clear flag the request succeeds exactly when `request_shares_by` does |
| Handler.DeleteThenFailingMerge | index.py:414-424 | when the merge raises after the file was deleted, the file stays deleted |
| Handler.ClearThenFailingMerge | index.py:417-424 | when the merge raises after the clear flag cleared the ticker's lines, they stay cleared |
| Handler.FalsyHitFetches | index.py:417-428 | a falsy cached answer is passed over: the data are fetched and appended |
| Handler.DispatchRules | index.py:393-409 | every argument that lower-cases to a provider's name gets that provider's answer alone; every other argument, or none, gets the merge, which passes fundsexplorer's answer through when fundamentus's is falsy |
| Handler.ClearFlagLeavesNoEntry | index.py:417-428 | with the clear flag, the answer is the data `request_shares_by` returned, marked fresh, and no line for the ticker is left |
| Handler.CachedAnswerReturned | index.py:417-422 | a truthy cached answer is returned without fetching |
| Handler.MissFetchesAndWrites | index.py:417-428 | a cache miss fetches and appends the answer |
| Handler.FirstRequestWrites | index.py:417-428 | the first request for a ticker fetches and appends |
| Handler.SecondRequestHitsCache | index.py:403-430 | a second request within a day returns what the first stored |
| Handler.FailedFetchPoisonsCache | index.py:424-428 | a failed fetch stores the text `None`; if that does not parse as JSON, every request for the ticker in the next day raises |
| Handler.LetterWordStorable | index.py:132 | a payload of ASCII letters, such as `None` or `null`, holds no `#@#` and no line break, so the line written for it reads back whole |
| Handler.FailedFetchRefetchesWithJson | index.py:119-132 | with a JSON encoder, a failed fetch is stored as `null`, read back as a falsy `None`, and the next request within the day fetches again |

## Left out

- Networking: the HTTP requests, headers, URLs and `raise_for_status` of the three
  `get_data_from_*_by` adapters (index.py:25-31) are not modelled. Each page is an
  `Option<string>` parameter, `None` when the fetch failed.
- Flask: routing, `jsonify`, status codes and the `strftime` of the response date are
  not modelled. The reply carries the fresh data or the cached value and its timestamp.
- The filesystem: the cache file is the value `Store`. Opening, appending and
  rewriting it are not modelled as effects. There is no concurrency between requests.
- Clock: the clock is a parameter counted in whole seconds. The cache timestamp is
  written as decimal seconds rather than `%Y-%m-%d %H:%M:%S`. The expiry is the same
  one day, inclusive.
- JSON: `json.loads` and `str(data)` are the `decode` and `encode` parameters. The
  model does not show that they are inverse. The handler is stated for any encoder,
  so the corrected cache write of the Findings table is `GetFiiData` with a JSON
  encoder rather than a separate definition.
- Numbers: `float` is modelled on exact reals over the grammar the pages use: an
  optional sign, digits, an optional point and fraction. Exponents, `inf`, `nan`,
  underscores and rounding are left out. The `return 0` of index.py:78 is an int in
  Python and `0.0` here. Python's `float` also reads decimal digits of other scripts
  (`float('١٢')` is 12.0); the model reads only the ASCII digits `0`-`9`, so such a
  text reads as 0 here.
- `lower` folds ASCII letters only.
- The `print` calls are left out.
- Key order: the order of keys in the returned dicts is not modelled. A record is a
  map over the 28 keys.
- The cache payload is assumed to fit on one line. `Storable` excludes the separator,
  line breaks and trailing whitespace, so a payload with those is not covered by the
  read-back lemmas.
- Providers.ConvertInvestidor10: it reads liquidity and net equity with the corrected
  unit reader `MultiplyByUnitIntended`, not with the code as written (see Findings).
- Providers.Investidor10LabelledAt: the two amounts with a unit are stated for the
  corrected unit reader `MultiplyByUnitIntended`, not the code as written (see Findings).
- The `__main__` block and `IS_DEBUG` are left out.

## Findings

| source | as written | input that shows it | evidently intended | confidence | as-written member | corrected member |
|---|---|---|---|---|---|---|
| index.py:281 | `data.replace('k\|K\|Mil\|m\|M\|Milhões', '')` removes that literal 13-character text, not a regular expression, so the unit stays in the amount and `float` fails | `'1,5 M'` reads as 0 instead of 1,500,000 | remove each unit, then scale the amount | high, not executed | Investidor10.AsWrittenZeroesUnitAmounts | Investidor10.IntendedScalesMillions |
| index.py:283-286 | latent: `'Mil' in data` is checked first and also holds for `Milhões`; today the index.py:281 defect already reads such an amount as 0, so this shows once that line is fixed | `'2 Milhões'`, with the unit removed before reading, is scaled by 1000 | `Milhões` scales by 1,000,000 | high, not executed | Investidor10.MilhoesScaledByThousand | Investidor10.IntendedScalesMillions |
| index.py:283-284 | the index.py:281 defect seen from the thousands branch: scaling by 1000 cannot help an amount that already read as 0 | `'3,2 K'` reads as 0 | `k`, `K` and `Mil` scale the amount by 1000 | high, not executed | Investidor10.UnitAmountReadsZero | Investidor10.IntendedScalesThousands |
| index.py:132 | `write_to_cache` writes `str(data)`, so a failed fetch is stored as the text `None`, which the `json.loads` of index.py:119 rejects | a request whose fetch fails (`data` is `None`), then a second request for the ticker within a day: the second raises instead of fetching again | store the answer as JSON, so a failed fetch is stored as `null`, read back as a falsy `None`, and fetched again | high, not executed | Handler.FailedFetchPoisonsCache | Handler.FailedFetchRefetchesWithJson |

=== FILE: base.dfy ===
/** Failure-carrying wrappers shared by every module of the model. */
module Base {

  /** An optional value; `None` stands for Python's `None` where a helper may return nothing. */
  datatype Option<+T> = None | Some(value: T)

  /** The outcome of an operation that may raise instead of returning. */
  datatype Result<+T, +E> = Success(value: T) | Failure(error: E)
}

=== FILE: cache.dfy ===
/** The line-oriented cache file (index.py:80-133). Each line is
    `ticker#@#timestamp#@#payload`; a line belongs to every ticker it starts with,
    lookups take the first such line, and entries live for one day, inclusive. The
    clock is a parameter, counted in whole seconds, and the timestamp is written as
    a decimal number of seconds instead of `%Y-%m-%d %H:%M:%S`. */
module Cache {
  import opened Base
  import opened PyStr
  import opened Values
  import opened Numbers

  /** The cache file: missing, or present with its lines (each ending in a newline). */
  datatype Store = Absent | Present(lines: seq<string>)

  const Separator: string := "#@#"

  /** `CACHE_EXPIRY = timedelta(days=1)`, in seconds. */
  const Expiry: int := 86400

  /** What makes `read_cache` or `clear_cache` raise: opening a missing file, a line
      that does not split into three fields, a timestamp `strptime` rejects, a payload
      `json.loads` rejects. */
  datatype CacheError = MissingFile | MalformedLine | BadTimestamp | BadPayload

  /** A fresh entry found: the decoded payload and its timestamp. */
  datatype Hit = Hit(data: Value, stamp: nat)

  /** The answer of `read_cache` together with the file it leaves behind. */
  datatype Lookup = Lookup(hit: Option<Hit>, store: Store)

  function LinesOf(store: Store): seq<string> {
    match store
    case Absent => []
    case Present(lines) => lines
  }

  /** Python's `line.startswith(prefix)`. */
  predicate StartsWith(line: string, prefix: string) {
    |prefix| <= |line| && line[..|prefix|] == prefix
  }

  /** `delete_cache()`: the file is removed, whether or not it existed. */
  function DeleteCache(store: Store): (r: Store)
    ensures LinesOf(r) == []
  {
    Absent
  }

  /** The lines `clear_cache(ticker)` writes back: those not starting with `ticker`,
      in their original order. */
  function ClearLines(lines: seq<string>, ticker: string): (r: seq<string>)
    ensures |r| <= |lines|
    ensures forall i :: 0 <= i < |r| ==> r[i] in lines && !StartsWith(r[i], ticker)
    ensures forall i :: 0 <= i < |lines| && !StartsWith(lines[i], ticker) ==> lines[i] in r
  {
    if lines == [] then []
    else (if StartsWith(lines[0], ticker) then [] else [lines[0]]) + ClearLines(lines[1..], ticker)
  }

  /** Clearing works line by line, so it keeps the relative order of what it keeps. */
  lemma {:induction false} ClearDistributes(a: seq<string>, b: seq<string>, ticker: string)
    ensures ClearLines(a + b, ticker) == ClearLines(a, ticker) + ClearLines(b, ticker)
    decreases |a|
  {
    if a == [] {
      assert a + b == b;
    } else {
      assert (a + b)[0] == a[0];
      assert (a + b)[1..] == a[1..] + b;
      ClearDistributes(a[1..], b, ticker);
    }
  }

  /** Clearing twice is clearing once. */
  lemma {:induction false} ClearIdempotent(lines: seq<string>, ticker: string)
    ensures ClearLines(ClearLines(lines, ticker), ticker) == ClearLines(lines, ticker)
    decreases |lines|
  {
    if lines != [] {
      var head := if StartsWith(lines[0], ticker) then [] else [lines[0]];
      ClearDistributes(head, ClearLines(lines[1..], ticker), ticker);
      ClearIdempotent(lines[1..], ticker);
      assert ClearLines(head, ticker) == head by {
        if head != [] {
          assert head[1..] == [];
        }
      }
    }
  }

  /** Lines without the prefix survive clearing unchanged. */
  lemma {:induction false} ClearKeepsUnrelated(lines: seq<string>, ticker: string)
    requires forall i :: 0 <= i < |lines| ==> !StartsWith(lines[i], ticker)
    ensures ClearLines(lines, ticker) == lines
    decreases |lines|
  {
    if lines != [] {
      ClearKeepsUnrelated(lines[1..], ticker);
    }
  }

  /** `clear_cache(ticker)`: opening a missing file raises; otherwise the file is
      rewritten with exactly the lines `ClearLines` keeps. */
  function ClearCache(store: Store, ticker: string): (r: Result<Store, CacheError>)
    ensures r.Failure? <==> store.Absent?
    ensures r.Success? ==> r.value.Present? && forall l :: l in r.value.lines ==> !StartsWith(l, ticker)
    ensures r.Success? ==> forall i :: 0 <= i < |store.lines| && !StartsWith(store.lines[i], ticker) ==> store.lines[i] in r.value.lines
    ensures r.Success? ==> r.value == Present(ClearLines(store.lines, ticker))
  {
    match store
    case Absent => Failure(MissingFile)
    case Present(lines) => Success(Present(ClearLines(lines, ticker)))
  }

  /** The index of the first line starting with `ticker`, if any. */
  function FirstWithPrefix(lines: seq<string>, ticker: string): (r: Option<nat>)
    ensures r.Some? ==> r.value < |lines| && StartsWith(lines[r.value], ticker)
    ensures r.Some? ==> forall i :: 0 <= i < r.value ==> !StartsWith(lines[i], ticker)
    ensures r.None? ==> forall i :: 0 <= i < |lines| ==> !StartsWith(lines[i], ticker)
  {
    if lines == [] then None
    else if StartsWith(lines[0], ticker) then Some(0)
    else match FirstWithPrefix(lines[1..], ticker)
      case None => None
      case Some(i) => Some(i + 1)
  }

  /** The line `write_to_cache` appends: it starts with the ticker and ends the line. */
  function CacheLine(ticker: string, now: nat, payload: string): (r: string)
    ensures StartsWith(r, ticker) && r != [] && r[|r| - 1] == '\n'
  {
    assert (ticker + Separator + NatText(now) + Separator + payload + "\n")[..|ticker|] == ticker;
    ticker + Separator + NatText(now) + Separator + payload + "\n"
  }

  /** `write_to_cache(ticker, data)`, with `payload` the text `str(data)`: the file
      is created if missing and gets exactly one more line at its end. */
  function WriteToCache(store: Store, ticker: string, now: nat, payload: string): (r: Store)
    ensures r.Present? && |r.lines| == |LinesOf(store)| + 1
    ensures r.lines[..|LinesOf(store)|] == LinesOf(store)
    ensures StartsWith(r.lines[|LinesOf(store)|], ticker)
  {
    var line := CacheLine(ticker, now, payload);
    assert line[..|ticker|] == ticker;
    Present(LinesOf(store) + [line])
  }

  /** Reading the first line that starts with `ticker`, once it is known to be there
      (index.py:113-126). */
  function ReadEntry(lines: seq<string>, ticker: string, line: string, now: int,
                     decode: string -> Option<Value>): (r: Result<Lookup, CacheError>)
    ensures r.Success? && r.value.hit.Some? ==>
              r.value.store == Present(lines) && HitFrom(line, r.value.hit.value, decode)
              && now - r.value.hit.value.stamp <= Expiry
    ensures r.Success? && r.value.hit.None? ==> r.value.store == Present(ClearLines(lines, ticker))
    ensures r == Failure(MalformedLine) <==> |SplitOn(Strip(line), Separator)| != 3
  {
    var parts := SplitOn(Strip(line), Separator);
    if |parts| != 3 then Failure(MalformedLine)
    else
      match ParseNat(parts[1])
      case None => Failure(BadTimestamp)
      case Some(t) =>
        if now - t <= Expiry then
          match decode(ReplaceChar(parts[2], '\'', '"'))
          case None => Failure(BadPayload)
          case Some(v) => Success(Lookup(Some(Hit(v, t)), Present(lines)))
        else Success(Lookup(None, ClearCache(Present(lines), ticker).value))
  }

  /** `hit` is what the cache line `line` holds: its timestamp field parses to the
      stamp and its payload, quotes swapped, decodes to the data. */
  predicate HitFrom(line: string, hit: Hit, decode: string -> Option<Value>) {
    var parts := SplitOn(Strip(line), Separator);
    && |parts| == 3
    && ParseNat(parts[1]) == Some(hit.stamp)
    && decode(ReplaceChar(parts[2], '\'', '"')) == Some(hit.data)
  }

  /** `read_cache(ticker, should_clear_cache)` at time `now`; `decode` stands for
      `json.loads` and is `None` where that raises. Nothing is found in a missing
      file; clearing always misses; otherwise only the first line starting with the
      ticker is consulted: fresh, it is a hit and the file is untouched; stale, every
      line with the prefix is purged, newer ones included. */
  function ReadCache(store: Store, ticker: string, clear: bool, now: int,
                     decode: string -> Option<Value>): (r: Result<Lookup, CacheError>)
    ensures store.Absent? ==> r == Success(Lookup(None, Absent))
    ensures store.Present? && clear ==> r == Success(Lookup(None, Present(ClearLines(store.lines, ticker))))
    ensures store.Present? && !clear && (forall i :: 0 <= i < |store.lines| ==> !StartsWith(store.lines[i], ticker))
            ==> r == Success(Lookup(None, store))
    ensures r.Success? && r.value.hit.Some? ==>
              r.value.store == store && now - r.value.hit.value.stamp <= Expiry
    ensures r.Success? && r.value.hit.Some? ==>
              && store.Present? && FirstWithPrefix(store.lines, ticker).Some?
              && HitFrom(store.lines[FirstWithPrefix(store.lines, ticker).value], r.value.hit.value, decode)
    ensures r.Success? && r.value.hit.None? ==>
              r.value.store == store || r.value.store == Present(ClearLines(store.lines, ticker))
  {
    match store
    case Absent => Success(Lookup(None, Absent))
    case Present(lines) =>
      if clear then Success(Lookup(None, ClearCache(store, ticker).value))
      else
        match FirstWithPrefix(lines, ticker)
        case None => Success(Lookup(None, store))
        case Some(i) => ReadEntry(lines, ticker, lines[i], now, decode)
  }

  /** What `WriteToCache` writes and `ReadCache` then splits off as the payload. */
  predicate Storable(payload: string) {
    && !Contains(payload, Separator) && '\n' !in payload && '\r' !in payload
    && (payload == [] || !IsSpace(payload[|payload| - 1]))
  }

  /** A ticker whose lines split back into their three fields. */
  predicate PlainTicker(ticker: string) {
    ticker != [] && !IsSpace(ticker[0]) && '#' !in ticker
  }

  /** The line without its newline. */
  function Entry(ticker: string, now: nat, payload: string): string {
    ticker + Separator + NatText(now) + Separator + payload
  }

  lemma {:induction false} StripCacheLine(ticker: string, now: nat, payload: string)
    requires PlainTicker(ticker) && Storable(payload)
    ensures Strip(CacheLine(ticker, now, payload)) == Entry(ticker, now, payload)
  {
    var core := Entry(ticker, now, payload);
    assert CacheLine(ticker, now, payload) == core + "\n";
    assert core[0] == ticker[0];
    if payload == [] {
      assert core[|core| - 1] == Separator[2];
    } else {
      assert core[|core| - 1] == payload[|payload| - 1];
    }
    StripLine(core);
  }

  lemma {:induction false} SplitEntry(ticker: string, now: nat, payload: string)
    requires PlainTicker(ticker) && Storable(payload)
    ensures SplitOn(Entry(ticker, now, payload), Separator) == [ticker, NatText(now), payload]
  {
    var stamp := NatText(now);
    assert '#' !in stamp by {
      assert forall i :: 0 <= i < |stamp| ==> IsDigit(stamp[i]);
    }
    assert Entry(ticker, now, payload) == ticker + Separator + (stamp + Separator + payload);
    SplitAfterPrefix(ticker, Separator, stamp + Separator + payload);
    SplitAfterPrefix(stamp, Separator, payload);
    SplitAbsent(payload, Separator);
  }

  /** A written line splits back into its ticker, timestamp and payload. */
  lemma CacheLineFields(ticker: string, now: nat, payload: string)
    requires PlainTicker(ticker) && Storable(payload)
    ensures SplitOn(Strip(CacheLine(ticker, now, payload)), Separator) == [ticker, NatText(now), payload]
  {
    StripCacheLine(ticker, now, payload);
    SplitEntry(ticker, now, payload);
  }

  /** Writing an entry and reading it back under the same ticker, or under any prefix
      of it, when no earlier line starts with that prefix: within a day (inclusive)
      it is a hit with the payload as written and its timestamp; later it is a miss
      and every line with the prefix is gone. */
  lemma {:induction false} ReadAfterWrite(store: Store, written: string, asked: string, stamp: nat,
                                          payload: string, now: int, decode: string -> Option<Value>)
    requires PlainTicker(written) && Storable(payload)
    requires StartsWith(written, asked)
    requires forall i :: 0 <= i < |LinesOf(store)| ==> !StartsWith(LinesOf(store)[i], asked)
    ensures var after := WriteToCache(store, written, stamp, payload);
            var r := ReadCache(after, asked, false, now, decode);
            && (now - stamp <= Expiry && decode(ReplaceChar(payload, '\'', '"')).Some? ==>
                  r == Success(Lookup(Some(Hit(decode(ReplaceChar(payload, '\'', '"')).value, stamp)), after)))
            && (now - stamp <= Expiry && decode(ReplaceChar(payload, '\'', '"')).None? ==>
                  r == Failure(BadPayload))
            && (now - stamp > Expiry ==> r == Success(Lookup(None, Present(LinesOf(store)))))
  {
    var lines := LinesOf(store);
    var line := CacheLine(written, stamp, payload);
    var after := WriteToCache(store, written, stamp, payload);
    assert after.lines == lines + [line];
    FirstAfterWrite(lines, line, written, asked);
    ClearAfterWrite(lines, line, written, asked);
    ReadWrittenLine(after.lines, asked, written, stamp, payload, now, decode);
  }

  lemma FirstAfterWrite(lines: seq<string>, line: string, written: string, asked: string)
    requires StartsWith(line, written) && StartsWith(written, asked)
    requires forall i :: 0 <= i < |lines| ==> !StartsWith(lines[i], asked)
    ensures FirstWithPrefix(lines + [line], asked) == Some(|lines|)
  {
    assert line[..|asked|] == written[..|asked|];
    var r := FirstWithPrefix(lines + [line], asked);
    assert (lines + [line])[|lines|] == line;
    assert r.Some?;
  }

  lemma ClearAfterWrite(lines: seq<string>, line: string, written: string, asked: string)
    requires StartsWith(line, written) && StartsWith(written, asked)
    requires forall i :: 0 <= i < |lines| ==> !StartsWith(lines[i], asked)
    ensures ClearLines(lines + [line], asked) == lines
  {
    assert line[..|asked|] == written[..|asked|];
    ClearDistributes(lines, [line], asked);
    ClearKeepsUnrelated(lines, asked);
    assert ClearLines([line], asked) == [];
  }

  lemma ReadWrittenLine(lines: seq<string>, asked: string, written: string, stamp: nat, payload: string,
                        now: int, decode: string -> Option<Value>)
    requires PlainTicker(written) && Storable(payload)
    ensures var r := ReadEntry(lines, asked, CacheLine(written, stamp, payload), now, decode);
            var d := decode(ReplaceChar(payload, '\'', '"'));
            && (now - stamp <= Expiry && d.Some? ==> r == Success(Lookup(Some(Hit(d.value, stamp)), Present(lines))))
            && (now - stamp <= Expiry && d.None? ==> r == Failure(BadPayload))
            && (now - stamp > Expiry ==> r == Success(Lookup(None, Present(ClearLines(lines, asked)))))
  {
    CacheLineFields(written, stamp, payload);
    ReadSplitLine(lines, asked, CacheLine(written, stamp, payload), stamp, payload, now, decode);
  }

  /** Reading a line whose fields are already known. */
  lemma ReadSplitLine(lines: seq<string>, asked: string, line: string, stamp: nat, payload: string,
                      now: int, decode: string -> Option<Value>)
    requires var parts := SplitOn(Strip(line), Separator);
             |parts| == 3 && parts[1] == NatText(stamp) && parts[2] == payload
    ensures var r := ReadEntry(lines, asked, line, now, decode);
            var d := decode(ReplaceChar(payload, '\'', '"'));
            && (now - stamp <= Expiry && d.Some? ==> r == Success(Lookup(Some(Hit(d.value, stamp)), Present(lines))))
            && (now - stamp <= Expiry && d.None? ==> r == Failure(BadPayload))
            && (now - stamp > Expiry ==> r == Success(Lookup(None, Present(ClearLines(lines, asked)))))
  {
    ParseNatText(stamp);
  }

  /** A stale first match purges the ticker's lines even when a later line for the
      same ticker is still fresh. */
  lemma {:induction false} StaleFirstMatchPurges(lines: seq<string>, ticker: string, i: nat, t: nat,
                                                 now: int, decode: string -> Option<Value>)
    requires FirstWithPrefix(lines, ticker) == Some(i)
    requires var parts := SplitOn(Strip(lines[i]), Separator);
             |parts| == 3 && ParseNat(parts[1]) == Some(t)
    requires now - t > Expiry
    ensures ReadCache(Present(lines), ticker, false, now, decode) == Success(Lookup(None, Present(ClearLines(lines, ticker))))
    ensures forall l :: l in LinesOf(ReadCache(Present(lines), ticker, false, now, decode).value.store) ==> !StartsWith(l, ticker)
  {
  }

  /** A fresh first match is a hit carrying that line's decoded payload and its
      timestamp, and the file is left as it was. */
  lemma FreshFirstMatchHits(lines: seq<string>, ticker: string, i: nat, stamp: nat, v: Value,
                            now: int, decode: string -> Option<Value>)
    requires FirstWithPrefix(lines, ticker) == Some(i)
    requires var parts := SplitOn(Strip(lines[i]), Separator);
             && |parts| == 3 && ParseNat(parts[1]) == Some(stamp)
             && decode(ReplaceChar(parts[2], '\'', '"')) == Some(v)
    requires now - stamp <= Expiry
    ensures ReadCache(Present(lines), ticker, false, now, decode) == Success(Lookup(Some(Hit(v, stamp)), Present(lines)))
  {
  }

  /** A first match that does not split into three fields makes the read raise,
      whatever later lines hold. */
  lemma MalformedFirstMatchRaises(lines: seq<string>, ticker: string, i: nat,
                                  now: int, decode: string -> Option<Value>)
    requires FirstWithPrefix(lines, ticker) == Some(i)
    requires |SplitOn(Strip(lines[i]), Separator)| != 3
    ensures ReadCache(Present(lines), ticker, false, now, decode) == Failure(MalformedLine)
  {
  }

  /** After `delete_cache` every lookup misses. */
  lemma DeleteThenReadMisses(store: Store, ticker: string, clear: bool, now: int, decode: string -> Option<Value>)
    ensures ReadCache(DeleteCache(store), ticker, clear, now, decode) == Success(Lookup(None, Absent))
  {
  }

  /** Tickers are matched by prefix: an entry written for `written` answers a lookup
      for any prefix `asked` of it, e.g. `HGLG11B` answers for `HGLG11`. */
  lemma PrefixCollision(written: string, asked: string, stamp: nat, payload: string, now: int,
                        decode: string -> Option<Value>)
    requires PlainTicker(written) && Storable(payload)
    requires StartsWith(written, asked) && asked != written
    requires now - stamp <= Expiry && decode(ReplaceChar(payload, '\'', '"')).Some?
    ensures ReadCache(WriteToCache(Absent, written, stamp, payload), asked, false, now, decode).Success?
    ensures ReadCache(WriteToCache(Absent, written, stamp, payload), asked, false, now, decode).value.hit.Some?
  {
    ReadAfterWrite(Absent, written, asked, stamp, payload, now, decode);
  }
}

=== FILE: extract.dfy ===
/** The anchor extractor `get_substring` (index.py:33-52): a value is whatever lies
    between a start anchor and the next end anchor, with newlines, tabs, optionally
    tag spans, and a list of literal patterns deleted, then surrounding whitespace
    stripped. */
module Extract {
  import opened Base
  import opened PyStr

  predicate NotClose(c: char) {
    c != '>'
  }

  /** `re.sub(r'<[^>]*>', '', s)`: deletes every span from a '<' through the first
      '>' after it; a '<' with no later '>' is kept, as are the characters after it. */
  function StripTags(s: string): (r: string)
    ensures forall c :: c in r ==> c in s
    ensures '<' !in s ==> r == s
    ensures forall i :: 0 <= i < |r| && r[i] == '<' ==> '>' !in r[i + 1..]
    decreases |s|
  {
    if s == [] then []
    else if s[0] == '<' then
      var m := LeadCount(s[1..], NotClose);
      if m == |s| - 1 then
        var rest := StripTags(s[1..]);
        assert '>' !in s[1..] by {
          assert forall k :: 0 <= k < |s| - 1 ==> NotClose(s[1..][k]);
        }
        assert forall i :: 1 <= i <= |rest| + 1 ==> ([s[0]] + rest)[i..] == rest[i - 1..];
        [s[0]] + rest
      else
        StripTags(s[m + 2..])
    else
      var rest := StripTags(s[1..]);
      assert forall i :: 1 <= i <= |rest| ==> ([s[0]] + rest)[i..] == rest[i - 1..];
      [s[0]] + rest
  }

  /** Text before the first `<` is kept as it is. */
  lemma {:induction false} StripTagsPlainPrefix(a: string, b: string)
    requires '<' !in a
    ensures StripTags(a + b) == a + StripTags(b)
    decreases |a|
  {
    if a != [] {
      assert a + b == [a[0]] + (a[1..] + b);
      StripTagsCons(a[0], a[1..] + b);
      StripTagsPlainPrefix(a[1..], b);
      assert a == [a[0]] + a[1..];
    } else {
      assert a + b == b;
    }
  }

  lemma StripTagsCons(c: char, s: string)
    requires c != '<'
    ensures StripTags([c] + s) == [c] + StripTags(s)
  {
    assert ([c] + s)[1..] == s;
  }

  /** A tag span, from `<` through the first `>`, is deleted. */
  lemma StripTagsDropsTag(t: string, b: string)
    requires '>' !in t
    ensures StripTags("<" + t + ">" + b) == StripTags(b)
  {
    var s := "<" + t + ">" + b;
    assert s[1..] == t + ">" + b;
    var m := LeadCount(s[1..], NotClose);
    assert m == |t| by {
      assert s[1..][|t|] == '>';
      assert forall i :: 0 <= i < |t| ==> s[1..][i] == t[i];
    }
    assert s[m + 2..] == b;
  }

  /** A `<` never closed by a `>` is kept, together with everything after it. */
  lemma {:induction false} StripTagsKeepsUnclosed(t: string)
    requires '>' !in t
    ensures StripTags(t) == t
    decreases |t|
  {
    if t != [] {
      var rest := t[1..];
      assert t == [t[0]] + rest;
      assert '>' !in rest;
      StripTagsKeepsUnclosed(rest);
      if t[0] == '<' {
        StripTagsUnclosedOpen(rest);
      } else {
        StripTagsCons(t[0], rest);
      }
    }
  }

  lemma StripTagsUnclosedOpen(s: string)
    requires '>' !in s
    ensures StripTags(['<'] + s) == ['<'] + StripTags(s)
  {
    var t := ['<'] + s;
    assert t[1..] == s;
    assert LeadCount(s, NotClose) == |s| by {
      assert forall k :: 0 <= k < |s| ==> NotClose(s[k]);
    }
  }

  /** Deletes each pattern in turn, as the loop at index.py:49-50 does. */
  function RemoveEach(s: string, patterns: seq<string>): (r: string)
    ensures forall c :: c in r ==> c in s
    decreases |patterns|
  {
    if patterns == [] then s else RemoveEach(Remove(s, patterns[0]), patterns[1..])
  }

  /** The post-processing of a non-empty capture (index.py:44-52). */
  function Cleanup(cut: string, patterns: seq<string>, removeTags: bool): (r: string)
    ensures '\n' !in r && '\t' !in r
    ensures forall c :: c in r ==> c in cut
    ensures r == [] || (!IsSpace(r[0]) && !IsSpace(r[|r| - 1]))
  {
    var clean := Remove(Remove(cut, "\n"), "\t");
    var noTags := if removeTags then StripTags(clean) else clean;
    Strip(RemoveEach(noTags, patterns))
  }

  /** `get_substring(text, start_text, end_text, replace_by_paterns, should_remove_tags)`,
      written with Python's slice semantics, negative indices included; `None`
      when the raw capture is empty. */
  function GetSubstring(text: string, startText: string, endText: string,
                        patterns: seq<string>, removeTags: bool): (r: Option<string>)
    ensures r.Some? ==> '\n' !in r.value && '\t' !in r.value
    ensures r.Some? ==> forall c :: c in r.value ==> c in text
    ensures r.Some? ==> r.value == [] || (!IsSpace(r.value[0]) && !IsSpace(r.value[|r.value| - 1]))
  {
    var cut := RawCut(text, startText, endText);
    RawCutChars(text, startText, endText);
    if cut == [] then None else Some(Cleanup(cut, patterns, removeTags))
  }

  /** The slice taken at index.py:34-38, before any cleanup. */
  function RawCut(text: string, startText: string, endText: string): string {
    CutAfter(SliceFrom(text, Find(text, startText, 0)), |startText|, endText)
  }

  /** `new_text[n:end_index]` with `end_index` found in `new_text[n:]` (index.py:37-38). */
  function CutAfter(newText: string, n: nat, endText: string): string {
    var endIndex := Find(SliceFrom(newText, n), endText, 0) + n;
    Slice(newText, n, endIndex)
  }

  /** The raw capture is a piece of the text. */
  lemma RawCutChars(text: string, startText: string, endText: string)
    ensures forall c :: c in RawCut(text, startText, endText) ==> c in text
  {
    var newText := SliceFrom(text, Find(text, startText, 0));
    var endIndex := Find(SliceFrom(newText, |startText|), endText, 0) + |startText|;
    SliceChars(newText, |startText|, endIndex);
    assert forall c :: c in newText ==> c in text;
  }

  /** `i` is the first index at or after `from` where `sub` occurs in `t`. */
  predicate FirstMatchFrom(t: string, sub: string, from: nat, i: int) {
    from <= i && MatchAt(t, sub, i) && forall k :: from <= k < i ==> !MatchAt(t, sub, k)
  }

  lemma FindIsFirstMatch(t: string, sub: string, from: nat, i: int)
    requires FirstMatchFrom(t, sub, from, i)
    ensures Find(t, sub, from) == i
  {
  }

  /** Searching a suffix is searching the whole text from the suffix's start. */
  lemma FindInSuffix(t: string, sub: string, k: nat)
    requires k <= |t|
    ensures Find(t[k..], sub, 0) == (if Find(t, sub, k) == -1 then -1 else Find(t, sub, k) - k)
  {
    var r := Find(t, sub, k);
    var q := Find(t[k..], sub, 0);
    if r == -1 {
      if q != -1 {
        MatchInSuffix(t, sub, k, q);
        assert false;
      }
    } else {
      MatchInSuffix(t, sub, k, r - k);
      forall m | 0 <= m < r - k
        ensures !MatchAt(t[k..], sub, m)
      {
        MatchInSuffix(t, sub, k, m);
      }
      FindIsFirstMatch(t[k..], sub, 0, r - k);
    }
  }

  /** With a non-empty start anchor that never occurs, there is no value. */
  lemma {:induction false} AbsentStartGivesNone(text: string, startText: string, endText: string,
                                                patterns: seq<string>, removeTags: bool)
    requires startText != []
    requires forall k :: !MatchAt(text, startText, k)
    ensures GetSubstring(text, startText, endText, patterns, removeTags) == None
  {
    var newText := SliceFrom(text, Find(text, startText, 0));
    assert |newText| <= 1;
    assert SliceFrom(newText, |startText|) == [];
    assert RawCut(text, startText, endText) == [];
  }

  /** When no end anchor begins after the first start anchor there is no value, even
      if the end anchor occurs earlier in the text. */
  lemma {:induction false} MissingEndGivesNone(text: string, startText: string, endText: string,
                                               patterns: seq<string>, removeTags: bool, i: int)
    requires startText != []
    requires FirstMatchFrom(text, startText, 0, i)
    requires forall k :: i + |startText| <= k ==> !MatchAt(text, endText, k)
    ensures GetSubstring(text, startText, endText, patterns, removeTags) == None
  {
    FindIsFirstMatch(text, startText, 0, i);
    var newText := text[i..];
    assert SliceFrom(newText, |startText|) == text[i + |startText|..];
    FindInSuffix(text, endText, i + |startText|);
    assert RawCut(text, startText, endText) == [];
  }

  /** Once both finds are known, the raw capture is the text between them. */
  lemma RawCutFromFinds(text: string, startText: string, endText: string, i: nat, j: int)
    requires i + |startText| <= |text|
    requires Find(text, startText, 0) == i
    requires Find(text, endText, i + |startText|) == j && j != -1
    ensures RawCut(text, startText, endText) == text[i + |startText|..j]
  {
    CutToMatch(text, i, |startText|, endText, j);
    SliceFromInside(text, i);
  }

  /** The cut after a prefix of length `n` of `text[i..]` ends at the first end anchor. */
  lemma CutToMatch(text: string, i: nat, n: nat, endText: string, j: int)
    requires i + n <= |text| && Find(text, endText, i + n) == j && j != -1
    ensures CutAfter(text[i..], n, endText) == text[i + n..j]
  {
    FoundInSuffix(text, endText, i + n, j);
    CutAfterFound(text, i, n, endText, j);
  }

  /** A match found from `k` on is found at the matching offset of the suffix. */
  lemma FoundInSuffix(t: string, sub: string, k: nat, j: int)
    requires k <= |t| && Find(t, sub, k) == j && j != -1
    ensures k <= j <= |t| && Find(t[k..], sub, 0) == j - k
  {
    FindInSuffix(t, sub, k);
  }

  /** Within bounds, `s[a:]` is the plain suffix. */
  lemma SliceFromInside(s: string, a: nat)
    requires a <= |s|
    ensures SliceFrom(s, a) == s[a..]
  {
  }

  /** Once the end anchor is known to start at `j`, the cut ends there. */
  lemma CutAfterFound(text: string, i: nat, n: nat, endText: string, j: int)
    requires i + n <= j <= |text|
    requires Find(text[i + n..], endText, 0) == j - (i + n)
    ensures CutAfter(text[i..], n, endText) == text[i + n..j]
  {
    assert SliceFrom(text[i..], n) == text[i + n..];
    assert text[i..][n..j - i] == text[i + n..j];
  }

  /** The raw capture runs from the end of the first start anchor to the first end
      anchor after it. */
  lemma {:induction false} RawCutBetween(text: string, startText: string, endText: string, i: int, j: int)
    requires FirstMatchFrom(text, startText, 0, i)
    requires FirstMatchFrom(text, endText, i + |startText|, j)
    ensures RawCut(text, startText, endText) == text[i + |startText|..j]
  {
    FindIsFirstMatch(text, startText, 0, i);
    FindIsFirstMatch(text, endText, i + |startText|, j);
    RawCutFromFinds(text, startText, endText, i, j);
  }

  /** The value is the cleaned-up text strictly between the first start anchor and the
      first end anchor that begins after it; it is `None` only when that raw text is
      empty, so a capture that cleanup empties comes back as `Some("")`. */
  lemma {:induction false} CaptureBetweenAnchors(text: string, startText: string, endText: string,
                                                 patterns: seq<string>, removeTags: bool, i: int, j: int)
    requires FirstMatchFrom(text, startText, 0, i)
    requires FirstMatchFrom(text, endText, i + |startText|, j)
    ensures GetSubstring(text, startText, endText, patterns, removeTags)
         == if j == i + |startText| then None
            else Some(Cleanup(text[i + |startText|..j], patterns, removeTags))
  {
    RawCutBetween(text, startText, endText, i, j);
  }

  /** An empty start anchor always matches at 0, and when the end anchor is then
      missing the end index is -1, so the capture is the whole text but its last
      character. */
  lemma {:induction false} EmptyStartWithoutEndDropsLastChar(text: string, endText: string,
                                                              patterns: seq<string>, removeTags: bool)
    requires |text| >= 2
    requires forall k :: !MatchAt(text, endText, k)
    ensures GetSubstring(text, "", endText, patterns, removeTags)
         == Some(Cleanup(text[..|text| - 1], patterns, removeTags))
  {
    assert MatchAt(text, "", 0);
    assert Find(text, endText, 0) == -1;
    assert SliceFrom(text, 0) == text;
    assert RawCut(text, "", endText) == text[..|text| - 1];
  }
}

=== FILE: handler.dfy ===
/** The request handler `get_fii_data_by` (index.py:403-430) and the dispatcher
    `request_shares_by` (index.py:393-401) as a step over the cache file. The
    provider answers, `str(data)` and `json.loads` are parameters. */
module Handler {
  import opened Base
  import opened PyStr
  import opened Values
  import opened Merge
  import opened Cache

  /** `TRUE_BOOL_VALUES` (index.py:16). */
  const TrueBoolValues: seq<string> := ["true", "1", "t", "y", "yes", "s", "sim"]

  /** The argument as given, or its default when absent. */
  function ArgOr(arg: Option<string>, default: string): string {
    match arg case None => default case Some(a) => a
  }

  /** `v` is the lower-case word `w` with any of its letters capitalised. */
  predicate CaseVariant(v: string, w: string) {
    && |v| == |w|
    && forall i :: 0 <= i < |v| ==> v[i] == w[i] || ('a' <= w[i] <= 'z' && v[i] as int == w[i] as int - 32)
  }

  /** `request.args.get(name, default).lower() in TRUE_BOOL_VALUES`: the flag is set
      exactly when the argument is one of the listed words with any of its letters
      capitalised, so nothing longer than four characters or empty is. */
  function FlagOf(arg: Option<string>, default: string): (r: bool)
    ensures r <==> exists w :: w in TrueBoolValues && CaseVariant(ArgOr(arg, default), w)
    ensures ArgOr(arg, default) in TrueBoolValues ==> r
    ensures r ==> 1 <= |ArgOr(arg, default)| <= 4
    ensures ArgOr(arg, default) in ["TRUE", "True", "YES", "Yes", "SIM", "Sim", "T", "Y", "S"] ==> r
  {
    var v := ArgOr(arg, default);
    LowerKeepsLowercase(v);
    CapitalisedTrueWords();
    TrueWordsByCase(v);
    Lower(v) in TrueBoolValues
  }

  /** Lower-casing gives a word without capitals exactly from that word's case
      variants. */
  lemma LowerMatches(v: string, w: string)
    requires forall i :: 0 <= i < |w| ==> !('A' <= w[i] <= 'Z')
    ensures Lower(v) == w <==> CaseVariant(v, w)
  {
    if CaseVariant(v, w) {
      assert forall i :: 0 <= i < |v| ==> Lower(v)[i] == w[i];
    }
  }

  lemma TrueWordsByCase(v: string)
    ensures Lower(v) in TrueBoolValues <==> exists w :: w in TrueBoolValues && CaseVariant(v, w)
  {
    forall w | w in TrueBoolValues
      ensures Lower(v) == w <==> CaseVariant(v, w)
    {
      LowerMatches(v, w);
    }
  }

  lemma CapitalisedTrueWords()
    ensures forall w :: w in ["TRUE", "True", "YES", "Yes", "SIM", "Sim", "T", "Y", "S"] ==> Lower(w) in TrueBoolValues
  {
    assert Lower("TRUE") == "true" && Lower("True") == "true";
    assert Lower("YES") == "yes" && Lower("Yes") == "yes";
    assert Lower("SIM") == "sim" && Lower("Sim") == "sim";
    assert Lower("T") == "t" && Lower("Y") == "y" && Lower("S") == "s";
  }

  /** Lower-casing leaves a string without capitals as it is. */
  lemma LowerKeepsLowercase(s: string)
    ensures (forall i :: 0 <= i < |s| ==> !('A' <= s[i] <= 'Z')) ==> Lower(s) == s
  {
  }

  datatype Flags = Flags(deleteCache: bool, clearCache: bool, useCache: bool)

  /** The three cache flags, defaulting to `'0'`, `'0'` and `'1'` (index.py:405-407). */
  function ParseFlags(delete: Option<string>, clear: Option<string>, use: Option<string>): (f: Flags)
    ensures delete.None? && clear.None? && use.None? ==> f == Flags(false, false, true)
  {
    assert Lower("0") == "0" && Lower("1") == "1";
    Flags(FlagOf(delete, "0"), FlagOf(clear, "0"), FlagOf(use, "1"))
  }

  datatype Source = FundamentusSource | FundsexplorerSource | Investidor10Source | AllSources

  /** The `source` argument, lower-cased; any unknown name, or none, means all
      providers. A named provider is only picked by a name of that provider's length. */
  function SourceOf(arg: Option<string>): (r: Source)
    ensures arg.None? ==> r == AllSources
    ensures r == FundamentusSource ==> arg.Some? && |arg.value| == |"fundamentus"|
    ensures r == FundsexplorerSource ==> arg.Some? && |arg.value| == |"fundsexplorer"|
    ensures r == Investidor10Source ==> arg.Some? && |arg.value| == |"investidor10"|
  {
    var s := Lower(match arg case None => "all" case Some(a) => a);
    if s == "fundamentus" then FundamentusSource
    else if s == "fundsexplorer" then FundsexplorerSource
    else if s == "investidor10" then Investidor10Source
    else AllSources
  }

  /** What each adapter answers for the ticker: a record, or `None` after a failure. */
  datatype Answers = Answers(fundamentus: Option<Record>, fundsexplorer: Option<Record>,
                             investidor10: Option<Record>)

  /** `request_shares_by(ticker, source)`: one provider's answer, or the merge. */
  function RequestShares(source: Source, answers: Answers): (r: Result<Option<Record>, MergeError>)
    ensures source != AllSources ==> r.Success?
    ensures r.Failure? ==> source == AllSources && answers.investidor10.None?
    ensures r.Success? && r.value.Some? ==>
              source == AllSources || r.value in {answers.fundamentus, answers.fundsexplorer, answers.investidor10}
  {
    match source
    case FundamentusSource => Success(answers.fundamentus)
    case FundsexplorerSource => Success(answers.fundsexplorer)
    case Investidor10Source => Success(answers.investidor10)
    case AllSources => GetDataFromAll(answers.fundamentus, answers.fundsexplorer, answers.investidor10)
  }

  /** The response body: the cached JSON and its timestamp, or the fresh data. */
  datatype Body = FromCache(cached: Value, stamp: nat) | Fresh(data: Option<Record>)

  /** The cause of an exception escaping the handler (an HTTP 500). */
  datatype HandlerError = CacheFailed(cacheError: CacheError) | MergeFailed(mergeError: MergeError)

  /** The handler's answer and the cache file it leaves behind. */
  datatype Reply = Reply(body: Body, store: Store)

  /** An escaping exception and the cache file as the handler left it: a deletion or
      clearing done before the exception stays done. */
  datatype Crash = Crash(error: HandlerError, store: Store)

  /** The cache file after a request, whether it succeeded or not. */
  function StoreAfter(r: Result<Reply, Crash>): Store {
    match r
    case Success(reply) => reply.store
    case Failure(crash) => crash.store
  }

  /** Whether the cache is read and written at all. */
  predicate UsesCache(flags: Flags) {
    flags.useCache && !flags.deleteCache
  }

  /** `get_fii_data_by(ticker)` at time `now`, with `encode` for `str(data)` and
      `decode` for `json.loads`: the cache file is deleted first when asked; it is read
      only when used and not deleted, and a truthy cached answer is returned as it
      is; otherwise the data are fetched and, unless the cache was deleted, cleared or
      not used, appended to the file. An exception keeps what was done to the file
      before it. */
  function GetFiiData(flags: Flags, source: Source, ticker: string, store: Store, now: nat,
                      answers: Answers, encode: Option<Record> -> string,
                      decode: string -> Option<Value>): (r: Result<Reply, Crash>)
    ensures flags.deleteCache ==> StoreAfter(r) == Absent && (r.Success? ==> r.value.body.Fresh?)
    ensures !flags.useCache && !flags.deleteCache ==> StoreAfter(r) == store && (r.Success? ==> r.value.body.Fresh?)
    ensures r.Success? && r.value.body.FromCache? ==> UsesCache(flags) && Truthy(r.value.body.cached)
    ensures r.Failure? && r.error.error.CacheFailed? ==> UsesCache(flags) && StoreAfter(r) == store
    ensures r.Failure? ==> StoreAfter(r) in {store, Absent, Present(ClearLines(LinesOf(store), ticker))}
    ensures r.Success? && r.value.body.Fresh? ==> RequestShares(source, answers) == Success(r.value.body.data)
    ensures r.Failure? && r.error.error.MergeFailed? ==> RequestShares(source, answers) == Failure(r.error.error.mergeError)
    ensures !UsesCache(flags) || flags.clearCache ==> (r.Success? <==> RequestShares(source, answers).Success?)
  {
    var afterDelete := if flags.deleteCache then DeleteCache(store) else store;
    if UsesCache(flags) then
      match ReadCache(afterDelete, ticker, flags.clearCache, now, decode)
      case Failure(e) => Failure(Crash(CacheFailed(e), afterDelete))
      case Success(lookup) =>
        if lookup.hit.Some? && Truthy(lookup.hit.value.data) then
          Success(Reply(FromCache(lookup.hit.value.data, lookup.hit.value.stamp), lookup.store))
        else
          match RequestShares(source, answers)
          case Failure(e) => Failure(Crash(MergeFailed(e), lookup.store))
          case Success(data) =>
            var written := if flags.clearCache then lookup.store
                           else WriteToCache(lookup.store, ticker, now, encode(data));
            Success(Reply(Fresh(data), written))
    else
      match RequestShares(source, answers)
      case Failure(e) => Failure(Crash(MergeFailed(e), afterDelete))
      case Success(data) => Success(Reply(Fresh(data), afterDelete))
  }

  /** Deleting the cache and then failing to merge still leaves the file deleted. */
  lemma DeleteThenFailingMerge(flags: Flags, source: Source, ticker: string, store: Store, now: nat,
                               answers: Answers, encode: Option<Record> -> string,
                               decode: string -> Option<Value>, e: MergeError)
    requires flags.deleteCache
    requires RequestShares(source, answers) == Failure(e)
    ensures GetFiiData(flags, source, ticker, store, now, answers, encode, decode)
            == Failure(Crash(MergeFailed(e), Absent))
  {
  }

  /** Clearing the ticker's lines and then failing to merge still leaves them cleared. */
  lemma ClearThenFailingMerge(source: Source, ticker: string, lines: seq<string>, now: nat,
                              answers: Answers, encode: Option<Record> -> string,
                              decode: string -> Option<Value>, e: MergeError)
    requires RequestShares(source, answers) == Failure(e)
    ensures GetFiiData(Flags(false, true, true), source, ticker, Present(lines), now, answers, encode, decode)
            == Failure(Crash(MergeFailed(e), Present(ClearLines(lines, ticker))))
  {
  }

  /** With the clear flag, the ticker's lines are gone afterwards and nothing new is
      written. */
  lemma ClearFlagLeavesNoEntry(source: Source, ticker: string, store: Store, now: nat,
                               answers: Answers, encode: Option<Record> -> string,
                               decode: string -> Option<Value>)
    requires RequestShares(source, answers).Success?
    ensures var r := GetFiiData(Flags(false, true, true), source, ticker, store, now, answers, encode, decode);
            r.Success? && r.value.body == Fresh(RequestShares(source, answers).value)
            && forall l :: l in LinesOf(r.value.store) ==> !StartsWith(l, ticker)
  {
    if store.Present? {
      var lookup := ReadCache(store, ticker, true, now, decode).value;
      assert lookup.store == Present(ClearLines(store.lines, ticker));
    }
  }

  /** A used cache that answers with truthy data is returned as it is, without
      fetching. */
  lemma CachedAnswerReturned(flags: Flags, source: Source, ticker: string, store: Store, now: nat,
                             answers: Answers, encode: Option<Record> -> string,
                             decode: string -> Option<Value>, hit: Hit, after: Store)
    requires UsesCache(flags)
    requires ReadCache(store, ticker, flags.clearCache, now, decode) == Success(Lookup(Some(hit), after))
    requires Truthy(hit.data)
    ensures GetFiiData(flags, source, ticker, store, now, answers, encode, decode)
            == Success(Reply(FromCache(hit.data, hit.stamp), after))
  {
  }

  /** A used cache that misses leads to a fetch whose result is appended, unless the
      clear flag is set. */
  lemma MissFetchesAndWrites(flags: Flags, source: Source, ticker: string, store: Store, now: nat,
                             answers: Answers, encode: Option<Record> -> string,
                             decode: string -> Option<Value>)
    requires UsesCache(flags) && !flags.clearCache
    requires ReadCache(store, ticker, false, now, decode) == Success(Lookup(None, store))
    requires RequestShares(source, answers).Success?
    ensures var data := RequestShares(source, answers).value;
            GetFiiData(flags, source, ticker, store, now, answers, encode, decode)
            == Success(Reply(Fresh(data), WriteToCache(store, ticker, now, encode(data))))
  {
  }

  /** A used cache whose hit is falsy is passed over: the data are fetched and
      appended, unless the clear flag is set. */
  lemma FalsyHitFetches(flags: Flags, source: Source, ticker: string, store: Store, now: nat,
                        answers: Answers, encode: Option<Record> -> string,
                        decode: string -> Option<Value>, hit: Hit, after: Store)
    requires UsesCache(flags) && !flags.clearCache
    requires ReadCache(store, ticker, false, now, decode) == Success(Lookup(Some(hit), after))
    requires !Truthy(hit.data)
    requires RequestShares(source, answers).Success?
    ensures var data := RequestShares(source, answers).value;
            GetFiiData(flags, source, ticker, store, now, answers, encode, decode)
            == Success(Reply(Fresh(data), WriteToCache(after, ticker, now, encode(data))))
  {
  }

  /** Without earlier lines for the ticker, the first request fetches and appends. */
  lemma {:induction false} FirstRequestWrites(source: Source, ticker: string, store: Store, now: nat,
                                              answers: Answers, encode: Option<Record> -> string,
                                              decode: string -> Option<Value>)
    requires forall i :: 0 <= i < |LinesOf(store)| ==> !StartsWith(LinesOf(store)[i], ticker)
    requires RequestShares(source, answers).Success?
    ensures var data := RequestShares(source, answers).value;
            GetFiiData(Flags(false, false, true), source, ticker, store, now, answers, encode, decode)
            == Success(Reply(Fresh(data), WriteToCache(store, ticker, now, encode(data))))
  {
    if store.Present? {
      assert LinesOf(store) == store.lines;
    }
    assert ReadCache(store, ticker, false, now, decode) == Success(Lookup(None, store));
    MissFetchesAndWrites(Flags(false, false, true), source, ticker, store, now, answers, encode, decode);
  }

  /** A second request within a day is answered from the cache with what the first
      stored, provided the stored text decodes to something truthy. */
  lemma {:induction false} SecondRequestHitsCache(source: Source, ticker: string, store: Store,
                                                  first: nat, second: nat, answers: Answers,
                                                  encode: Option<Record> -> string, decode: string -> Option<Value>)
    requires PlainTicker(ticker)
    requires forall i :: 0 <= i < |LinesOf(store)| ==> !StartsWith(LinesOf(store)[i], ticker)
    requires RequestShares(source, answers).Success?
    requires first <= second <= first + Expiry
    requires var payload := encode(RequestShares(source, answers).value);
             Storable(payload) && decode(ReplaceChar(payload, '\'', '"')).Some?
             && Truthy(decode(ReplaceChar(payload, '\'', '"')).value)
    ensures var flags := Flags(false, false, true);
            var r1 := GetFiiData(flags, source, ticker, store, first, answers, encode, decode);
            var payload := encode(RequestShares(source, answers).value);
            r1.Success? && r1.value.body.Fresh?
            && GetFiiData(flags, source, ticker, r1.value.store, second, answers, encode, decode)
               == Success(Reply(FromCache(decode(ReplaceChar(payload, '\'', '"')).value, first), r1.value.store))
  {
    var flags := Flags(false, false, true);
    var payload := encode(RequestShares(source, answers).value);
    FirstRequestWrites(source, ticker, store, first, answers, encode, decode);
    var after := WriteToCache(store, ticker, first, payload);
    ReadAfterWrite(store, ticker, ticker, first, payload, second, decode);
    var hit := Hit(decode(ReplaceChar(payload, '\'', '"')).value, first);
    CachedAnswerReturned(flags, source, ticker, after, second, answers, encode, decode, hit, after);
  }

  /** A word of ASCII letters, such as `None` or `null`, can be stored: it holds no
      separator and no line break, and ends in a letter. */
  lemma LetterWordStorable(w: string)
    requires w != [] && forall i :: 0 <= i < |w| ==> 'A' <= w[i] <= 'Z' || 'a' <= w[i] <= 'z'
    ensures Storable(w)
  {
    if Contains(w, Separator) {
      ContainsHead(w, Separator);
      assert false;
    }
  }

  /** A failed fetch is cached as the text `None`; if `json.loads` rejects that text,
      every request for the ticker in the next day fails instead of fetching again. */
  lemma {:induction false} FailedFetchPoisonsCache(source: Source, ticker: string, store: Store,
                                                   first: nat, second: nat, answers: Answers,
                                                   encode: Option<Record> -> string, decode: string -> Option<Value>)
    requires PlainTicker(ticker)
    requires forall i :: 0 <= i < |LinesOf(store)| ==> !StartsWith(LinesOf(store)[i], ticker)
    requires RequestShares(source, answers) == Success(None)
    requires encode(None) == "None" && decode("None").None?
    requires first <= second <= first + Expiry
    ensures var flags := Flags(false, false, true);
            var r1 := GetFiiData(flags, source, ticker, store, first, answers, encode, decode);
            r1.Success?
            && GetFiiData(flags, source, ticker, r1.value.store, second, answers, encode, decode)
               == Failure(Crash(CacheFailed(BadPayload), r1.value.store))
  {
    FirstRequestWrites(source, ticker, store, first, answers, encode, decode);
    LetterWordStorable("None");
    assert ReplaceChar("None", '\'', '"') == "None";
    ReadAfterWrite(store, ticker, ticker, first, "None", second, decode);
  }

  /** Written as JSON, a failed fetch is cached as `null`, which `json.loads` reads as
      `None`; that answer is falsy, so the next request within the day fetches again
      and the handler keeps working. */
  lemma {:induction false} FailedFetchRefetchesWithJson(source: Source, ticker: string, store: Store,
                                                        first: nat, second: nat, answers: Answers,
                                                        encode: Option<Record> -> string,
                                                        decode: string -> Option<Value>)
    requires PlainTicker(ticker)
    requires forall i :: 0 <= i < |LinesOf(store)| ==> !StartsWith(LinesOf(store)[i], ticker)
    requires RequestShares(source, answers) == Success(None)
    requires encode(None) == "null" && decode("null") == Some(Null)
    requires first <= second <= first + Expiry
    ensures var flags := Flags(false, false, true);
            var r1 := GetFiiData(flags, source, ticker, store, first, answers, encode, decode);
            r1.Success?
            && GetFiiData(flags, source, ticker, r1.value.store, second, answers, encode, decode)
               == Success(Reply(Fresh(None), WriteToCache(r1.value.store, ticker, second, "null")))
  {
    var flags := Flags(false, false, true);
    FirstRequestWrites(source, ticker, store, first, answers, encode, decode);
    var after := WriteToCache(store, ticker, first, "null");
    LetterWordStorable("null");
    assert ReplaceChar("null", '\'', '"') == "null";
    ReadAfterWrite(store, ticker, ticker, first, "null", second, decode);
    FalsyHitFetches(flags, source, ticker, after, second, answers, encode, decode, Hit(Null, first), after);
  }

  /** A `source` argument naming a provider in any case gets that provider's answer
      alone; any other argument, or none, gets the merge of all three, where a falsy
      fundamentus answer passes the fundsexplorer answer through whole. */
  lemma DispatchRules(arg: Option<string>, answers: Answers)
    ensures arg.Some? && Lower(arg.value) == "fundamentus" ==>
              RequestShares(SourceOf(arg), answers) == Success(answers.fundamentus)
    ensures arg.Some? && Lower(arg.value) == "fundsexplorer" ==>
              RequestShares(SourceOf(arg), answers) == Success(answers.fundsexplorer)
    ensures arg.Some? && Lower(arg.value) == "investidor10" ==>
              RequestShares(SourceOf(arg), answers) == Success(answers.investidor10)
    ensures (arg.None? || Lower(arg.value) !in ["fundamentus", "fundsexplorer", "investidor10"]) ==>
              RequestShares(SourceOf(arg), answers)
              == GetDataFromAll(answers.fundamentus, answers.fundsexplorer, answers.investidor10)
    ensures !RecordTruthy(answers.fundamentus) && (arg.None? || Lower(arg.value) == "all") ==>
              RequestShares(SourceOf(arg), answers) == Success(answers.fundsexplorer)
  {
    LowerKeepsLowercase("all");
  }
}

=== FILE: investidor10.dfy ===
/** The three helpers nested in `convert_investidor10_data` (index.py:277-311): unit
    scaling of amounts such as `'1,5 Mil'`, overlapping substring counting, and
    case-insensitive counting of whitespace-separated tokens. */
module Investidor10 {
  import opened Base
  import opened PyStr
  import opened Values
  import opened Numbers
  import opened Extract

  /** The argument of the `replace` at index.py:281, which Python treats as a literal
      string, not as the regular expression it looks like. */
  const UnitPattern: string := "k|K|Mil|m|M|Milhões"

  /** `multiply_by_unit(data)` as written: `None` for a missing or empty text;
      otherwise the number read after deleting the literal `UnitPattern`, scaled by
      `AsWrittenScale`. */
  function MultiplyByUnit(data: Option<string>): (r: Value)
    ensures r == Null <==> data.None? || data.value == []
    ensures r != Null ==> r.Num?
  {
    if data.None? || data.value == [] then Null
    else
      var d := data.value;
      Num(AsWrittenScale(Amount(Remove(d, UnitPattern)), d))
  }

  /** The number `text_to_number` reads from a string with its default flags. */
  function Amount(text: string): real {
    TextToNumber(Str(text), true, false).n
  }

  /** The scaling at index.py:283-288: times 1000 when `k`, `K` or `Mil` occurs in
      `d`, else times 1000000 when `m`, `M` or `Milhões` occurs, else unchanged. */
  function AsWrittenScale(value: real, d: string): real {
    if Contains(d, "k") || Contains(d, "K") || Contains(d, "Mil") then value * 1000.0
    else if Contains(d, "m") || Contains(d, "M") || Contains(d, "Milhões") then value * 1000000.0
    else value
  }

  /** A text with `Milhões` also contains `Mil`, and the thousands test comes first, so
      millions are scaled by a thousand. */
  lemma {:induction false} MilhoesScaledByThousand(value: real, d: string)
    requires Contains(d, "Milhões")
    ensures AsWrittenScale(value, d) == value * 1000.0
  {
    var i := Find(d, "Milhões", 0);
    assert d[i..i + 3] == d[i..i + 7][..3];
    assert MatchAt(d, "Mil", i);
    ContainsAt(d, "Mil", i);
  }

  /** The letters that open a unit word. */
  predicate UnitLetter(c: char) {
    c == 'k' || c == 'K' || c == 'm' || c == 'M'
  }

  /** Because the deletion at index.py:281 is literal, a unit letter survives into
      `float`, which rejects it, so any amount written with a unit reads as 0 unless
      the text happens to contain `UnitPattern` itself. */
  lemma {:induction false} UnitAmountReadsZero(d: string, c: char)
    requires c in d && UnitLetter(c)
    requires !Contains(d, UnitPattern)
    ensures MultiplyByUnit(Some(d)) == Num(0.0)
  {
    RemoveAbsent(d, UnitPattern);
    LetterAmountZero(d, c);
    AsWrittenScaleZero(d);
  }

  /** A unit letter is no numeral, so the text reads as 0. */
  lemma LetterAmountZero(d: string, c: char)
    requires c in d && UnitLetter(c)
    ensures Amount(d) == 0.0
  {
    ForeignCharReadsZero(d, true, false, c);
  }

  lemma AsWrittenScaleZero(d: string)
    ensures AsWrittenScale(0.0, d) == 0.0
  {
  }

  /** The units the code means to recognise, longest first so that `Milhões` is not
      taken for `Mil` or `M`. */
  const Units: seq<string> := ["Milhões", "Mil", "k", "K", "m", "M"]

  /** The unit words for a million and for a thousand. */
  const MillionUnits: seq<string> := ["Milhões", "m", "M"]
  const ThousandUnits: seq<string> := ["Mil", "k", "K"]

  /** The corrected scaling: `Milhões` is checked before the thousands words that it
      contains. */
  function ScaleOf(value: real, d: string): real {
    if Contains(d, "Milhões") then value * 1000000.0
    else if Contains(d, "k") || Contains(d, "K") || Contains(d, "Mil") then value * 1000.0
    else if Contains(d, "m") || Contains(d, "M") then value * 1000000.0
    else value
  }

  /** The evidently intended `multiply_by_unit`: delete every unit word, read the
      number that remains, and scale it by the unit. */
  function MultiplyByUnitIntended(data: Option<string>): (r: Value)
    ensures r == Null <==> data.None? || data.value == []
    ensures r != Null ==> r.Num?
  {
    MultiplyByUnitWith(Amount, data)
  }

  /** The corrected helper with `read` for the number reader. */
  function MultiplyByUnitWith(read: string -> real, data: Option<string>): (r: Value)
    ensures r == Null <==> data.None? || data.value == []
    ensures r != Null ==> r.Num?
  {
    if data.None? || data.value == [] then Null
    else
      var d := data.value;
      Num(ScaleOf(read(StripUnits(d)), d))
  }

  /** The amount with every unit word deleted, longest word first. */
  function StripUnits(d: string): string {
    RemoveEach(d, Units)
  }

  /** No character of `n` opens a unit word. */
  predicate NoUnitLetter(n: string) {
    forall i :: 0 <= i < |n| ==> !UnitLetter(n[i])
  }

  /** `RemoveEach` over the unit words leaves a unit-free prefix alone. */
  lemma {:induction false} RemoveUnitsAfterPrefix(a: string, b: string, ps: seq<string>)
    requires NoUnitLetter(a)
    requires forall k :: 0 <= k < |ps| ==> ps[k] != [] && UnitLetter(ps[k][0])
    ensures RemoveEach(a + b, ps) == a + RemoveEach(b, ps)
    decreases |ps|
  {
    if ps != [] {
      assert ps[0][0] !in a;
      RemoveAfterPrefix(a, b, ps[0]);
      RemoveUnitsAfterPrefix(a, Remove(b, ps[0]), ps[1..]);
    }
  }

  lemma UnitsWords()
    ensures forall k :: 0 <= k < |Units| ==> Units[k] != [] && UnitLetter(Units[k][0])
  {
  }

  /** A unit word is deleted by its own pattern and untouched by the longer ones
      before it. */
  lemma UnitRemovesItself(u: string)
    requires u in Units
    ensures RemoveEach(u, Units) == []
  {
    if u == "Milhões" {
      MilhoesRemovesItself();
    } else if u == "Mil" {
      MilRemovesItself();
    } else {
      LetterRemovesItself(u);
    }
  }

  lemma MilhoesRemovesItself()
    ensures RemoveEach("Milhões", Units) == []
  {
    assert Remove("Milhões", Units[0]) == [];
    EmptyStaysEmpty(Units[1..]);
  }

  lemma MilRemovesItself()
    ensures RemoveEach("Mil", Units) == []
  {
    assert Remove("Mil", Units[0]) == "Mil";
    assert Remove("Mil", Units[1]) == [];
    EmptyStaysEmpty(Units[2..]);
  }

  lemma LetterRemovesItself(u: string)
    requires u in Units[2..]
    ensures RemoveEach(u, Units) == []
  {
    assert |u| == 1;
    assert Remove(u, Units[0]) == u && Remove(u, Units[1]) == u;
    assert RemoveEach(u, Units) == RemoveEach(u, Units[2..]);
    LetterWordsSingle();
    SingleRemovesItself(u, Units[2..]);
  }

  lemma LetterWordsSingle()
    ensures forall k :: 0 <= k < |Units[2..]| ==> |Units[2..][k]| == 1
  {
  }

  lemma {:induction false} EmptyStaysEmpty(ps: seq<string>)
    ensures RemoveEach([], ps) == []
    decreases |ps|
  {
    if ps != [] {
      EmptyStaysEmpty(ps[1..]);
    }
  }

  /** A one-character string among one-character patterns is deleted exactly once. */
  lemma {:induction false} SingleRemovesItself(u: string, ps: seq<string>)
    requires u in ps && |u| == 1
    requires forall k :: 0 <= k < |ps| ==> |ps[k]| == 1
    ensures RemoveEach(u, ps) == []
    decreases |ps|
  {
    if ps[0] == u {
      assert Remove(u, ps[0]) == [];
      EmptyStaysEmpty(ps[1..]);
    } else {
      assert u[..1] == u && u[1..] == [];
      assert Remove(u, ps[0]) == u;
      SingleRemovesItself(u, ps[1..]);
    }
  }

  /** Which unit words occur inside each unit word. */
  lemma UnitsContainment(u: string)
    requires u in Units
    ensures Contains(u, "Milhões") <==> u == "Milhões"
    ensures (Contains(u, "k") || Contains(u, "K") || Contains(u, "Mil")) <==> u in ["Milhões", "Mil", "k", "K"]
    ensures (Contains(u, "m") || Contains(u, "M")) <==> u in ["Milhões", "Mil", "m", "M"]
  {
    MilhoesOnlyInItself(u);
    MilInMilhoes(u);
    ContainsChar(u, 'k');
    ContainsChar(u, 'K');
    ContainsChar(u, 'm');
    ContainsChar(u, 'M');
  }

  lemma MilhoesOnlyInItself(u: string)
    requires u in Units
    ensures Contains(u, "Milhões") <==> u == "Milhões"
  {
    if u == "Milhões" {
      ContainsAt(u, "Milhões", 0);
    }
  }

  lemma MilInMilhoes(u: string)
    requires u in Units
    ensures Contains(u, "Mil") <==> u == "Milhões" || u == "Mil"
  {
    if u == "Mil" || u == "Milhões" {
      assert MatchAt(u, "Mil", 0);
      ContainsAt(u, "Mil", 0);
    } else if Contains(u, "Mil") {
      ContainsHead(u, "Mil");
    }
  }

  /** After a unit-free prefix, only the unit word decides the scale. */
  lemma {:induction false} ScaleAfterPrefix(value: real, n: string, u: string)
    requires NoUnitLetter(n)
    ensures ScaleOf(value, n + u) == ScaleOf(value, u)
  {
    assert forall c :: c in n ==> !UnitLetter(c);
    ContainsAfterPrefix(n, u, "Milhões");
    ContainsAfterPrefix(n, u, "Mil");
    ContainsAfterPrefix(n, u, "k");
    ContainsAfterPrefix(n, u, "K");
    ContainsAfterPrefix(n, u, "m");
    ContainsAfterPrefix(n, u, "M");
  }

  lemma ScaleOfMillionUnit(value: real, u: string)
    requires u in MillionUnits
    ensures u in Units && ScaleOf(value, u) == value * 1000000.0
  {
    MillionUnitIsUnit(u);
    UnitsContainment(u);
  }

  lemma ScaleOfThousandUnit(value: real, u: string)
    requires u in ThousandUnits
    ensures u in Units && ScaleOf(value, u) == value * 1000.0
  {
    ThousandUnitIsUnit(u);
    UnitsContainment(u);
  }

  lemma MillionUnitIsUnit(u: string)
    requires u in MillionUnits
    ensures u in Units
  {
  }

  lemma ThousandUnitIsUnit(u: string)
    requires u in ThousandUnits
    ensures u in Units
  {
  }

  /** Whatever the number reader, a unit-free amount followed by a unit word is
      read as `k`, the amount scaled by what the unit word alone says. */
  lemma {:induction false} IntendedScalesByUnit(read: string -> real, n: string, u: string, k: real)
    requires NoUnitLetter(n)
    requires u in Units && k == ScaleOf(read(n), u)
    ensures MultiplyByUnitWith(read, Some(n + u)) == Num(k)
  {
    StripsToAmount(n, u);
    ScaleAfterPrefix(read(n), n, u);
  }

  /** The corrected helper reads a unit-free amount followed by `Milhões`, `m` or `M`
      as the amount in millions, whatever reads the amount. */
  lemma {:induction false} IntendedScalesMillions(read: string -> real, n: string, u: string)
    requires NoUnitLetter(n)
    requires u in MillionUnits
    ensures MultiplyByUnitWith(read, Some(n + u)) == Num(read(n) * 1000000.0)
  {
    ScaleOfMillionUnit(read(n), u);
    IntendedScalesByUnit(read, n, u, read(n) * 1000000.0);
  }

  /** ... and followed by `Mil`, `k` or `K` as the amount in thousands. */
  lemma {:induction false} IntendedScalesThousands(read: string -> real, n: string, u: string)
    requires NoUnitLetter(n)
    requires u in ThousandUnits
    ensures MultiplyByUnitWith(read, Some(n + u)) == Num(read(n) * 1000.0)
  {
    ScaleOfThousandUnit(read(n), u);
    IntendedScalesByUnit(read, n, u, read(n) * 1000.0);
  }

  /** Deleting the unit words from an amount and its unit leaves the amount. */
  lemma {:induction false} StripsToAmount(n: string, u: string)
    requires NoUnitLetter(n)
    requires u in Units
    ensures StripUnits(n + u) == n
  {
    UnitsWords();
    RemoveUnitsAfterPrefix(n, u, Units);
    UnitRemovesItself(u);
    assert n + [] == n;
  }

  /** The same input through the code as written: every such amount reads as 0. */
  lemma {:induction false} AsWrittenZeroesUnitAmounts(n: string, u: string)
    requires NoUnitLetter(n)
    requires u in Units
    ensures MultiplyByUnit(Some(n + u)) == Num(0.0)
  {
    assert u[0] in n + u by {
      assert (n + u)[|n|] == u[0];
    }
    assert !Contains(n + u, UnitPattern) by {
      ContainsAfterPrefix(n, u, UnitPattern);
      assert |u| < |UnitPattern|;
    }
    UnitAmountReadsZero(n + u, u[0]);
  }

  /** Every index where `pattern` occurs in `d`, overlapping occurrences included; an
      empty pattern occurs at every index up to and including `|d|`. */
  function MatchPositions(d: string, pattern: string): set<int> {
    set i | 0 <= i <= |d| && MatchAt(d, pattern, i)
  }

  /** The occurrences that start before `k`. */
  function MatchesBelow(d: string, pattern: string, k: int): set<int> {
    set i | 0 <= i < k && MatchAt(d, pattern, i)
  }

  /** `count_repetitions(data, pattern)`: `None` for a missing or empty text, else the
      number of positions where `pattern` occurs, found by repeated
      `data.find(pattern, index + 1)`. */
  method CountRepetitions(data: Option<string>, pattern: string) returns (r: Option<nat>)
    ensures data.None? || data.value == [] ==> r == None
    ensures data.Some? && data.value != [] ==> r == Some(|MatchPositions(data.value, pattern)|)
  {
    if data.None? || data.value == [] {
      return None;
    }
    var d := data.value;
    var count := 0;
    var index := -1;
    while true
      invariant -1 <= index <= |d|
      invariant count == |MatchesBelow(d, pattern, index + 1)|
      decreases |d| - index
    {
      var next := Find(d, pattern, index + 1);
      if next == -1 {
        assert MatchesBelow(d, pattern, index + 1) == MatchPositions(d, pattern);
        break;
      }
      assert MatchesBelow(d, pattern, next + 1) == MatchesBelow(d, pattern, index + 1) + {next};
      count := count + 1;
      index := next;
    }
    return Some(count);
  }

  /** Overlapping occurrences are counted: `'aa'` occurs twice in `'aaa'`. */
  lemma OverlapsCounted()
    ensures MatchPositions("aaa", "aa") == {0, 1}
  {
    assert MatchAt("aaa", "aa", 0) && MatchAt("aaa", "aa", 1);
  }

  /** `count_pattern_on_text(text, pattern)`: `None` when either is missing or empty,
      else how many whitespace-separated tokens of the lower-cased text equal the
      lower-cased pattern. */
  function CountPatternOnText(text: Option<string>, pattern: string): (r: Option<nat>)
    ensures r.None? <==> text.None? || text.value == [] || pattern == []
  {
    if text.None? || text.value == [] || pattern == [] then None
    else Some(multiset(Words(Lower(text.value)))[Lower(pattern)])
  }

  lemma LowerIdempotent(s: string)
    ensures Lower(Lower(s)) == Lower(s)
  {
  }

  /** Counting ignores ASCII case on both sides. */
  lemma CountIgnoresCase(text: Option<string>, pattern: string)
    ensures CountPatternOnText(text, Lower(pattern)) == CountPatternOnText(text, pattern)
    ensures text.Some? ==> CountPatternOnText(Some(Lower(text.value)), pattern) == CountPatternOnText(text, pattern)
  {
    LowerIdempotent(pattern);
    if text.Some? {
      LowerIdempotent(text.value);
    }
  }

  /** Lower-casing works character by character, so it distributes over `+`, keeps
      whitespace and keeps words free of whitespace. */
  lemma LowerAppend(a: string, b: string)
    ensures Lower(a + b) == Lower(a) + Lower(b)
  {
  }

  lemma LowerKeepsSpacing(w: string, c: char)
    requires NoSpace(w) && IsSpace(c)
    ensures NoSpace(Lower(w)) && Lower([c]) == [c]
  {
  }

  /** A single word counts once when it equals the pattern up to case, else not at all. */
  lemma CountSingleWord(w: string, pattern: string)
    requires w != [] && NoSpace(w) && pattern != []
    ensures CountPatternOnText(Some(w), pattern) == Some(if Lower(w) == Lower(pattern) then 1 else 0)
  {
    LowerKeepsSpacing(w, ' ');
    WordsSingle(Lower(w));
  }

  /** Whitespace in front of the text adds nothing to the count. */
  lemma CountLeadingSpace(c: char, s: string, pattern: string)
    requires IsSpace(c) && s != [] && pattern != []
    ensures CountPatternOnText(Some([c] + s), pattern) == CountPatternOnText(Some(s), pattern)
  {
    LowerAppend([c], s);
    LowerKeepsSpacing([], c);
    WordsLeadingSpace(c, Lower(s));
  }

  /** A word followed by whitespace adds one to the count of the rest exactly when it
      equals the pattern up to case: the count is the number of whitespace-separated
      tokens that equal the pattern, ignoring case. */
  lemma {:induction false} CountAfterWord(w: string, c: char, s: string, pattern: string)
    requires w != [] && NoSpace(w) && IsSpace(c) && pattern != []
    ensures CountPatternOnText(Some(w + [c] + s), pattern).Some?
    ensures CountPatternOnText(Some(w + [c] + s), pattern).value
         == (if Lower(w) == Lower(pattern) then 1 else 0)
            + (if s == [] then 0 else CountPatternOnText(Some(s), pattern).value)
  {
    LowerAppend(w + [c], s);
    LowerAppend(w, [c]);
    LowerKeepsSpacing(w, c);
    WordsAfterWord(Lower(w), c, Lower(s));
    var ws := Words(Lower(w + [c] + s));
    assert ws == [Lower(w)] + Words(Lower(s));
    assert multiset(ws) == multiset{Lower(w)} + multiset(Words(Lower(s)));
    if s == [] {
      assert Words(Lower(s)) == [];
    }
  }

  /** A pattern holding whitespace can never equal a token, so it counts 0. */
  lemma SpacedPatternCountsZero(text: string, pattern: string, i: int)
    requires text != []
    requires 0 <= i < |pattern| && IsSpace(pattern[i])
    ensures CountPatternOnText(Some(text), pattern) == Some(0)
  {
    var ws := Words(Lower(text));
    var p := Lower(pattern);
    assert IsSpace(p[i]);
    assert p !in ws;
  }
}

=== FILE: merge.dfy ===
/** `get_data_from_all_by` (index.py:363-391): all three providers are fetched, then
    the fundamentus record is completed key by key from fundsexplorer and, failing
    that, from investidor10. */
module Merge {
  import opened Base
  import opened Values

  /** `key in data_investidor10` raises `TypeError` when investidor10 gave `None`
      (index.py:382). */
  datatype MergeError = NoFallbackRecord

  /** The key is worth looking up in the next provider: fundamentus has it but falsy. */
  predicate Falsy(r: Record, k: Field) {
    k in r && !Truthy(r[k])
  }

  /** The provider has a truthy value under the key. */
  predicate Offers(r: Record, k: Field) {
    k in r && Truthy(r[k])
  }

  /** Some key falsy in fundamentus and not offered by fundsexplorer has to be looked
      up in investidor10. */
  predicate NeedsInvestidor10(keys: seq<Field>, fu: Record, fe: Record) {
    exists k :: k in keys && Falsy(fu, k) && !Offers(fe, k)
  }

  /** Some key is falsy in fundamentus and not offered by fundsexplorer. */
  predicate FallsThrough(fu: Record, fe: Record) {
    exists k :: Falsy(fu, k) && !Offers(fe, k)
  }

  /** The loop at index.py:376-389 over the keys `keys` of the fundamentus record. */
  function MergeFrom(keys: seq<Field>, fu: Record, fe: Record, i10: Option<Record>): (r: Result<Record, MergeError>)
    ensures r.Failure? <==> i10.None? && NeedsInvestidor10(keys, fu, fe)
    ensures r.Success? ==> forall k :: k in r.value ==> k in keys && k in fu
    ensures r.Success? ==> forall k :: k in keys && Offers(fu, k) ==> k in r.value && r.value[k] == fu[k]
    ensures r.Success? ==> forall k :: k in keys && Falsy(fu, k) && Offers(fe, k) ==>
                             k in r.value && r.value[k] == fe[k]
    ensures r.Success? ==> forall k :: k in keys && Falsy(fu, k) && !Offers(fe, k) ==>
                             (k in r.value <==> Offers(i10.value, k))
                             && (k in r.value ==> r.value[k] == i10.value[k])
    decreases |keys|
  {
    if keys == [] then Success(map[])
    else
      var k := keys[0];
      match MergeFrom(keys[1..], fu, fe, i10)
      case Failure(e) => Failure(e)
      case Success(rest) =>
        if k !in fu then Success(rest)
        else if Truthy(fu[k]) then Success(rest[k := fu[k]])
        else if k in fe && Truthy(fe[k]) then Success(rest[k := fe[k]])
        else if i10.None? then
          assert k in keys && Falsy(fu, k) && !Offers(fe, k);
          Failure(NoFallbackRecord)
        else if k in i10.value && Truthy(i10.value[k]) then Success(rest[k := i10.value[k]])
        else Success(rest)
  }

  /** The per-key merge rules: no key outside fundamentus appears; a truthy
      fundamentus value is kept; a falsy one is replaced by a truthy fundsexplorer
      value, else by a truthy investidor10 value, else the key is dropped. */
  predicate MergedByRules(m: Record, fu: Record, fe: Record, i10: Option<Record>) {
    && (forall k :: k in m ==> k in fu)
    && (forall k :: Offers(fu, k) ==> k in m && m[k] == fu[k])
    && (forall k :: Falsy(fu, k) && Offers(fe, k) ==> k in m && m[k] == fe[k])
    && (forall k :: Falsy(fu, k) && !Offers(fe, k) && i10.Some? && Offers(i10.value, k) ==>
                     k in m && m[k] == i10.value[k])
    && (forall k :: Falsy(fu, k) && !Offers(fe, k) && !(i10.Some? && Offers(i10.value, k)) ==> k !in m)
  }

  /** `get_data_from_all_by` after the three fetches: a falsy fundamentus answer
      yields the fundsexplorer answer as it is, `None` included; a falsy
      fundsexplorer answer yields the investidor10 answer; otherwise the key-by-key
      merge of `MergedByRules`, which fails only when a key must be looked up in a
      missing investidor10 record. */
  function GetDataFromAll(fu: Option<Record>, fe: Option<Record>, i10: Option<Record>): (r: Result<Option<Record>, MergeError>)
    ensures !RecordTruthy(fu) ==> r == Success(fe)
    ensures RecordTruthy(fu) && !RecordTruthy(fe) ==> r == Success(i10)
    ensures r.Failure? ==> RecordTruthy(fu) && RecordTruthy(fe) && i10.None?
    ensures RecordTruthy(fu) && RecordTruthy(fe) && r.Success? ==> r.value.Some?
    ensures RecordTruthy(fu) && RecordTruthy(fe) && r.Success? ==> MergedByRules(r.value.value, fu.value, fe.value, i10)
  {
    if !RecordTruthy(fu) then Success(fe)
    else if !RecordTruthy(fe) then Success(i10)
    else
      match MergeRecords(fu.value, fe.value, i10)
      case Failure(e) => Failure(e)
      case Success(m) => Success(Some(m))
  }

  /** With two truthy records, the merge fails exactly when some key falls through
      to a missing investidor10 record. */
  lemma MergeFailsExactly(fu: Record, fe: Record, i10: Option<Record>)
    requires RecordTruthy(Some(fu)) && RecordTruthy(Some(fe))
    ensures GetDataFromAll(Some(fu), Some(fe), i10).Failure? <==> i10.None? && FallsThrough(fu, fe)
  {
  }

  /** The loop over the 28 keys of a fundamentus record (index.py:376-389). */
  function MergeRecords(fu: Record, fe: Record, i10: Option<Record>): (r: Result<Record, MergeError>)
    ensures r.Failure? <==> i10.None? && FallsThrough(fu, fe)
    ensures r.Success? ==> MergedByRules(r.value, fu, fe, i10)
  {
    FieldsListed();
    MergeOverAll(Fields, fu, fe, i10);
    MergeFrom(Fields, fu, fe, i10)
  }

  /** Over a key list naming every field, the loop follows `MergedByRules` and fails
      exactly when some key falls through to a missing investidor10 record. */
  lemma MergeOverAll(keys: seq<Field>, fu: Record, fe: Record, i10: Option<Record>)
    requires forall k: Field :: k in keys
    ensures var r := MergeFrom(keys, fu, fe, i10);
            && (r.Failure? <==> i10.None? && FallsThrough(fu, fe))
            && (r.Success? ==> MergedByRules(r.value, fu, fe, i10))
  {
  }

  /** Every value the merge keeps is truthy. */
  lemma MergeKeepsOnlyTruthy(m: Record, fu: Record, fe: Record, i10: Option<Record>)
    requires MergedByRules(m, fu, fe, i10)
    ensures forall k :: k in m ==> Truthy(m[k])
  {
    forall k | k in m
      ensures Truthy(m[k])
    {
      assert Offers(fu, k) || Falsy(fu, k);
    }
  }

  /** The rules leave no choice: two results that follow them are equal. */
  lemma MergeRulesDetermine(m1: Record, m2: Record, fu: Record, fe: Record, i10: Option<Record>)
    requires MergedByRules(m1, fu, fe, i10) && MergedByRules(m2, fu, fe, i10)
    ensures m1 == m2
  {
    forall k
      ensures k in m1 <==> k in m2
    {
      if k in fu {
        assert Offers(fu, k) || Falsy(fu, k);
      }
    }
    forall k | k in m1
      ensures m1[k] == m2[k]
    {
      assert Offers(fu, k) || Falsy(fu, k);
    }
  }

  /** A fundamentus record with every value truthy is returned as it is, whatever the
      other providers said. */
  lemma TruthyFundamentusWins(fu: Record, fe: Record, i10: Option<Record>)
    requires RecordTruthy(Some(fu)) && RecordTruthy(Some(fe))
    requires forall k :: k in fu ==> Truthy(fu[k])
    ensures GetDataFromAll(Some(fu), Some(fe), i10) == Success(Some(fu))
  {
    var r := GetDataFromAll(Some(fu), Some(fe), i10);
    assert r.Success?;
    var m := r.value.value;
    assert forall k :: k in fu ==> Offers(fu, k);
    assert MergedByRules(fu, fu, fe, i10);
    MergeRulesDetermine(m, fu, fu, fe, i10);
  }

  /** A missing investidor10 answer only matters when some key actually falls through
      to it; then the merge raises. */
  lemma MissingInvestidor10Raises(fu: Record, fe: Record, k: Field)
    requires RecordTruthy(Some(fu)) && RecordTruthy(Some(fe))
    requires Falsy(fu, k) && !Offers(fe, k)
    ensures GetDataFromAll(Some(fu), Some(fe), None) == Failure(NoFallbackRecord)
  {
    var r := GetDataFromAll(Some(fu), Some(fe), None);
    assert FallsThrough(fu, fe) by {
      assert Falsy(fu, k) && !Offers(fe, k);
    }
    MergeFailsExactly(fu, fe, None);
    assert r.Failure?;
    assert r.error == NoFallbackRecord;
  }
}

=== FILE: numbers.dfy ===
/** The locale number normaliser `text_to_number` (index.py:54-78) and the decimal
    digit strings it and the cache timestamps are built from. */
module Numbers {
  import opened Base
  import opened PyStr
  import opened Values

  predicate IsDigit(c: char) {
    '0' <= c <= '9'
  }

  predicate AllDigits(s: string) {
    forall i :: 0 <= i < |s| ==> IsDigit(s[i])
  }

  /** The characters that can appear in a string `ParseFloat` accepts. */
  predicate NumeralChar(c: char) {
    IsDigit(c) || c == '.' || c == '-' || c == '+'
  }

  function DigitValue(c: char): nat
    requires IsDigit(c)
  {
    c as int - '0' as int
  }

  /** The number a string of decimal digits denotes (0 for the empty string). */
  function DigitsValue(s: string): nat
    requires AllDigits(s)
  {
    if s == [] then 0 else DigitValue(s[0]) * Pow10(|s| - 1) + DigitsValue(s[1..])
  }

  function Pow10(n: nat): (p: nat)
    ensures p > 0
  {
    if n == 0 then 1 else 10 * Pow10(n - 1)
  }

  /** Appending a digit multiplies the value by ten and adds the digit. */
  lemma {:induction false} DigitsValueSnoc(s: string, c: char)
    requires AllDigits(s) && IsDigit(c)
    ensures AllDigits(s + [c])
    ensures DigitsValue(s + [c]) == 10 * DigitsValue(s) + DigitValue(c)
  {
    var t := s + [c];
    if s != [] {
      assert t[1..] == s[1..] + [c];
      DigitsValueSnoc(s[1..], c);
      var d0, p := DigitValue(s[0]), Pow10(|s| - 1);
      assert Pow10(|t| - 1) == 10 * p;
      calc {
        DigitsValue(t);
        d0 * (10 * p) + DigitsValue(t[1..]);
        d0 * (10 * p) + 10 * DigitsValue(s[1..]) + DigitValue(c);
        { TimesTen(d0, p); }
        10 * (d0 * p + DigitsValue(s[1..])) + DigitValue(c);
      }
    } else {
      assert t == [c];
    }
  }

  lemma TimesTen(a: int, b: int)
    ensures a * (10 * b) == 10 * (a * b)
  {
  }

  function DigitChar(d: nat): (c: char)
    requires d < 10
    ensures IsDigit(c) && DigitValue(c) == d
  {
    ('0' as int + d) as char
  }

  /** The shortest decimal spelling of `n`. */
  function NatText(n: nat): (s: string)
    ensures s != [] && AllDigits(s)
  {
    if n < 10 then [DigitChar(n)] else NatText(n / 10) + [DigitChar(n % 10)]
  }

  /** A non-empty run of decimal digits read as a number. */
  function ParseNat(s: string): Option<nat> {
    if s != [] && AllDigits(s) then Some(DigitsValue(s)) else None
  }

  /** Reading back a number's decimal spelling gives the number. */
  lemma {:induction false} ParseNatText(n: nat)
    ensures ParseNat(NatText(n)) == Some(n)
  {
    if n >= 10 {
      ParseNatText(n / 10);
      DigitsValueSnoc(NatText(n / 10), DigitChar(n % 10));
      assert DigitsValue(NatText(n)) == 10 * (n / 10) + n % 10;
    } else {
      assert DigitsValue(NatText(n)) == DigitValue(DigitChar(n)) * Pow10(0) + DigitsValue([]);
    }
  }

  /** `float(s)` on the numerals this model admits: an optional sign, then digits with
      at most one decimal point and at least one digit; anything else is rejected. */
  function ParseFloat(s: string): (r: Option<real>)
    ensures r.Some? ==> s != [] && forall i :: 0 <= i < |s| ==> NumeralChar(s[i])
  {
    if s != [] && (s[0] == '-' || s[0] == '+') then
      match ParseUnsigned(s[1..])
      case None => None
      case Some(x) =>
        assert forall i :: 1 <= i < |s| ==> s[i] == s[1..][i - 1];
        Some(if s[0] == '-' then -x else x)
    else
      ParseUnsigned(s)
  }

  /** Digits with at most one decimal point and at least one digit, read exactly. */
  function ParseUnsigned(body: string): (r: Option<real>)
    ensures r.Some? ==> body != [] && forall i :: 0 <= i < |body| ==> IsDigit(body[i]) || body[i] == '.'
  {
    var k := LeadCount(body, IsDigit);
    var whole := body[..k];
    assert AllDigits(whole);
    if k == |body| then
      if k == 0 then None else Some(DigitsValue(whole) as real)
    else if body[k] != '.' then None
    else
      var frac := body[k + 1..];
      if !AllDigits(frac) || (k == 0 && frac == []) then None
      else
        assert forall i :: k + 1 <= i < |body| ==> body[i] == frac[i - k - 1];
        Some(DecimalValue(whole, frac))
  }

  /** The number written `whole.frac`. */
  function DecimalValue(whole: string, frac: string): real
    requires AllDigits(whole) && AllDigits(frac)
  {
    DigitsValue(whole) as real + DigitsValue(frac) as real / Pow10(|frac|) as real
  }

  /** A decimal spelling of a natural number parses to that number. */
  lemma {:induction false} ParseFloatNatText(n: nat)
    ensures ParseFloat(NatText(n)) == Some(n as real)
  {
    var s := NatText(n);
    ParseNatText(n);
    assert LeadCount(s, IsDigit) == |s|;
    assert s[..|s|] == s;
    assert s[0] != '-' && s[0] != '+' by {
      assert IsDigit(s[0]);
    }
  }

  /** `s` is a numeral with a decimal mark: an optional `-`, digits up to the mark
      `sep` at index `k`, then digits. */
  predicate MarkedNumeral(s: string, negative: bool, k: int, sep: char) {
    var o := if negative then 1 else 0;
    && o < k < |s| && (negative ==> s[0] == '-')
    && AllDigits(s[o..k]) && s[k] == sep && AllDigits(s[k + 1..])
  }

  /** The value such a numeral writes, sign included. */
  function MarkedValue(s: string, negative: bool, k: int, sep: char): real
    requires MarkedNumeral(s, negative, k, sep)
  {
    var x := DecimalValue(s[if negative then 1 else 0..k], s[k + 1..]);
    if negative then -x else x
  }

  /** Digits, a point and more digits read as the whole part plus the fraction. */
  lemma ParseUnsignedPoint(body: string, k: int)
    requires MarkedNumeral(body, false, k, '.')
    ensures ParseUnsigned(body) == Some(DecimalValue(body[..k], body[k + 1..]))
  {
    var n := LeadCount(body, IsDigit);
    assert body[0..k] == body[..k];
    assert n == k;
  }

  /** `float` of a numeral with a decimal point is the number it writes: `'1.5'` is
      1.5 and `'-0.25'` is -0.25. */
  lemma ParseFloatPoint(s: string, negative: bool, k: int)
    requires MarkedNumeral(s, negative, k, '.')
    ensures ParseFloat(s) == Some(MarkedValue(s, negative, k, '.'))
  {
    if negative {
      var body := s[1..];
      assert body[0..k - 1] == s[1..k] && body[k - 1] == s[k] && body[k..] == s[k + 1..];
      ParseUnsignedPoint(body, k - 1);
    } else {
      assert IsDigit(s[0..k][0]);
      ParseUnsignedPoint(s, k);
    }
  }

  /** The unsigned numerals `float` accepts: digits; a point followed by digits; or
      digits, a point and possibly more digits. */
  predicate UnsignedNumeral(b: string) {
    || (b != [] && AllDigits(b))
    || (|b| > 1 && b[0] == '.' && AllDigits(b[1..]))
    || (exists k | 0 < k < |b| :: MarkedNumeral(b, false, k, '.'))
  }

  /** `float` of a run of digits is the number they write, leading zeros included. */
  lemma ParseFloatWhole(b: string)
    requires b != [] && AllDigits(b)
    ensures ParseFloat(b) == Some(DigitsValue(b) as real)
  {
    var n := LeadCount(b, IsDigit);
    assert n == |b|;
    assert b[..n] == b;
  }

  /** A point with digits after it and none before reads as the fraction alone:
      `'.5'` is 0.5. */
  lemma ParseFloatFraction(frac: string)
    requires frac != [] && AllDigits(frac)
    ensures ParseFloat("." + frac) == Some(DecimalValue([], frac))
  {
    var b := "." + frac;
    assert LeadCount(b, IsDigit) == 0;
    assert b[..0] == [] && b[1..] == frac;
  }

  /** `float` accepts a text exactly when it is an unsigned numeral, after at most one
      leading sign. */
  lemma ParseFloatAccepts(s: string)
    ensures ParseFloat(s).Some? <==>
              s != [] && UnsignedNumeral(if s[0] == '-' || s[0] == '+' then s[1..] else s)
  {
    if s != [] {
      var b := if s[0] == '-' || s[0] == '+' then s[1..] else s;
      UnsignedAccepts(b);
    }
  }

  lemma UnsignedAccepts(b: string)
    ensures ParseUnsigned(b).Some? <==> UnsignedNumeral(b)
  {
    var k := LeadCount(b, IsDigit);
    assert b[..k] == b[0..k];
    if ParseUnsigned(b).Some? && k < |b| {
      if k > 0 {
        assert MarkedNumeral(b, false, k, '.');
      }
    }
    if UnsignedNumeral(b) {
      if b != [] && AllDigits(b) {
        ParseFloatWhole(b);
      } else if |b| > 1 && b[0] == '.' && AllDigits(b[1..]) {
        assert b == "." + b[1..];
        ParseFloatFraction(b[1..]);
      } else {
        var m :| MarkedNumeral(b, false, m, '.');
        ParseUnsignedPoint(b, m);
      }
    }
  }

  /** A leading `-` negates what `float` reads, and a leading `+` changes nothing; a
      second sign is rejected. */
  lemma ParseFloatSigned(t: string)
    requires t == [] || (t[0] != '-' && t[0] != '+')
    ensures ParseFloat("-" + t) == (match ParseFloat(t) case None => None case Some(x) => Some(-x))
    ensures ParseFloat("+" + t) == ParseFloat(t)
  {
    assert ("-" + t)[1..] == t && ("+" + t)[1..] == t;
  }

  /** Every character of a marked numeral is a digit, the mark, or the leading `-`. */
  lemma MarkedChars(s: string, negative: bool, k: int, sep: char)
    requires MarkedNumeral(s, negative, k, sep)
    ensures forall i :: 0 <= i < |s| ==>
              (i == k && s[i] == sep) || (negative && i == 0 && s[i] == '-') || (i != k && IsDigit(s[i]))
  {
    var o := if negative then 1 else 0;
    forall i | 0 <= i < |s|
      ensures (i == k && s[i] == sep) || (negative && i == 0 && s[i] == '-') || (i != k && IsDigit(s[i]))
    {
      if o <= i < k {
        assert s[o..k][i - o] == s[i];
      } else if k < i {
        assert s[k + 1..][i - k - 1] == s[i];
      }
    }
  }

  /** A character that is neither a digit, `-`, nor the mark does not occur. */
  lemma MarkedLacks(s: string, negative: bool, k: int, sep: char, c: char)
    requires MarkedNumeral(s, negative, k, sep)
    requires !IsDigit(c) && c != '-' && c != sep
    ensures c !in s
  {
    MarkedChars(s, negative, k, sep);
  }

  /** Neither end of a marked numeral is whitespace. */
  lemma MarkedEnds(s: string, negative: bool, k: int, sep: char)
    requires MarkedNumeral(s, negative, k, sep) && !IsSpace(sep)
    ensures !IsSpace(s[0]) && !IsSpace(s[|s| - 1])
  {
    MarkedChars(s, negative, k, sep);
  }

  /** The separator swap turns a decimal comma into a decimal point and keeps the
      digits. */
  lemma SwapMarked(s: string, negative: bool, k: int)
    requires MarkedNumeral(s, negative, k, ',')
    ensures var u := SwapSeparators(s, true);
            && MarkedNumeral(u, negative, k, '.')
            && MarkedValue(u, negative, k, '.') == MarkedValue(s, negative, k, ',')
  {
    SwapIsReplace(s, negative, k);
    ReplaceMarked(s, negative, k);
  }

  /** A marked numeral has no `.` to drop, so the swap only turns `,` into `.`. */
  lemma SwapIsReplace(s: string, negative: bool, k: int)
    requires MarkedNumeral(s, negative, k, ',')
    ensures SwapSeparators(s, true) == ReplaceChar(s, ',', '.')
  {
    MarkedLacks(s, negative, k, ',', '.');
    ContainsChar(s, '.');
    RemoveAbsent(s, ".");
  }

  /** Turning the comma into a point keeps the digits on both sides of it. */
  lemma ReplaceMarked(s: string, negative: bool, k: int)
    requires MarkedNumeral(s, negative, k, ',')
    ensures var u := ReplaceChar(s, ',', '.');
            && MarkedNumeral(u, negative, k, '.')
            && MarkedValue(u, negative, k, '.') == MarkedValue(s, negative, k, ',')
  {
    var o := if negative then 1 else 0;
    MarkedChars(s, negative, k, ',');
    var u := ReplaceChar(s, ',', '.');
    assert |u| == |s| && u[k] == '.';
    assert forall i :: 0 <= i < |s| && i != k ==> u[i] == s[i];
    assert u[o..k] == s[o..k];
    assert u[k + 1..] == s[k + 1..];
    assert MarkedNumeral(u, negative, k, '.');
  }

  /** A numeral with a decimal point has no percent sign and reads, through the plain
      branch, as the number it writes. */
  lemma ReadPlainMarked(u: string, negative: bool, k: int)
    requires MarkedNumeral(u, negative, k, '.')
    ensures !Contains(u, "%")
    ensures ReadPlain(u) == MarkedValue(u, negative, k, '.')
  {
    MarkedEnds(u, negative, k, '.');
    StripKept(u);
    MarkedLacks(u, negative, k, '.', '%');
    MarkedLacks(u, negative, k, '.', 'R');
    ContainsChar(u, '%');
    if Contains(u, "R$") {
      ContainsHead(u, "R$");
    }
    ParseFloatPoint(u, negative, k);
  }

  /** A Brazilian numeral with a decimal comma, such as `'12,5'` or `'-0,75'`, reads as
      the number it writes. */
  lemma CommaDecimalReads(s: string, negative: bool, k: int)
    requires MarkedNumeral(s, negative, k, ',')
    ensures TextToNumber(Str(s), true, false) == Num(MarkedValue(s, negative, k, ','))
  {
    var u := SwapSeparators(s, true);
    MarkedEnds(s, negative, k, ',');
    StripKept(s);
    SwapMarked(s, negative, k);
    ReadPlainMarked(u, negative, k);
    TextToRealSteps(s, true, false, s, u);
    var x := TextToReal(s, true, false);
    assert x == ReadPlain(u);
    assert Truthy(Str(s));
    assert TextToNumber(Str(s), true, false) == Num(x);
  }

  /** A run of digits reads as the whole number it writes: `'0042'` is 42. */
  lemma DigitsRead(s: string)
    requires s != [] && AllDigits(s)
    ensures TextToNumber(Str(s), true, false) == Num(DigitsValue(s) as real)
  {
    assert !IsSpace(s[0]) && !IsSpace(s[|s| - 1]);
    StripKept(s);
    SwapDigits(s);
    ReadPlainDigits(s);
    TextToRealSteps(s, true, false, s, s);
    assert TextToReal(s, true, false) == ReadPlain(s);
    assert Truthy(Str(s));
  }

  /** The separator swap leaves a run of digits alone. */
  lemma SwapDigits(s: string)
    requires AllDigits(s)
    ensures SwapSeparators(s, true) == s
  {
    assert '.' !in s;
    ContainsChar(s, '.');
    RemoveAbsent(s, ".");
    var u := ReplaceChar(s, ',', '.');
    assert forall i :: 0 <= i < |s| ==> u[i] == s[i];
  }

  /** A run of digits has no percent sign and reads, through the plain branch, as the
      number it writes. */
  lemma ReadPlainDigits(s: string)
    requires s != [] && AllDigits(s)
    ensures !Contains(s, "%")
    ensures ReadPlain(s) == DigitsValue(s) as real
  {
    assert '%' !in s && 'R' !in s;
    ContainsChar(s, '%');
    if Contains(s, "R$") {
      ContainsHead(s, "R$");
    }
    assert !IsSpace(s[0]) && !IsSpace(s[|s| - 1]);
    StripKept(s);
    ParseFloatWhole(s);
  }

  /** What `text_to_number` does to a string from `text.strip()` onwards (index.py:62-76);
      every exception `float` raises becomes 0. */
  function TextToReal(text: string, swapSeparators: bool, percentAsFraction: bool): real {
    var t := Strip(text);
    if Strip(t) == [] then 0.0
    else
      var swapped := SwapSeparators(t, swapSeparators);
      if Contains(swapped, "%") then ReadPercent(swapped, percentAsFraction) else ReadPlain(swapped)
  }

  /** index.py:67-68: drop the `.` thousands separators, then turn `,` into `.`. */
  function SwapSeparators(t: string, swapSeparators: bool): string {
    if swapSeparators then ReplaceChar(Remove(t, "."), ',', '.') else t
  }

  /** `float(s)`, with the exception turned into 0 by the handler at index.py:77-78. */
  function FloatOrZero(s: string): real {
    match ParseFloat(s)
    case None => 0.0
    case Some(x) => x
  }

  /** index.py:70-71: the percent branch, which returns before any `R$` is removed. */
  function ReadPercent(swapped: string, percentAsFraction: bool): real {
    var x := FloatOrZero(Strip(Remove(swapped, "%")));
    if percentAsFraction then x / 100.0 else x
  }

  /** index.py:73-76: drop a currency marker and read the rest. */
  function ReadPlain(swapped: string): real {
    var noCurrency := if Contains(swapped, "R$") then Remove(swapped, "R$") else swapped;
    FloatOrZero(Strip(noCurrency))
  }

  /** `text_to_number(text, should_convert_thousand_decimal_separators, convert_percent_to_decimal)`:
      a falsy input gives 0, any other non-string comes back unchanged, and a string
      always yields a number. */
  function TextToNumber(v: Value, swapSeparators: bool, percentAsFraction: bool): (r: Value)
    ensures !Truthy(v) ==> r == Num(0.0)
    ensures Truthy(v) && !v.Str? ==> r == v
    ensures v.Str? ==> r.Num?
    ensures v.Str? && (forall i :: 0 <= i < |v.s| ==> IsSpace(v.s[i])) ==> r == Num(0.0)
  {
    if !Truthy(v) then Num(0.0)
    else if !v.Str? then v
    else Num(TextToReal(v.s, swapSeparators, percentAsFraction))
  }

  /** `text_to_number` with its default flags, applied to a text helper's answer. */
  function NumberOf(o: Option<string>): (r: Value)
    ensures r.Num?
    ensures o.None? ==> r == Num(0.0)
  {
    TextToNumber(OfText(o), true, false)
  }

  /** A character `float` rejects makes `FloatOrZero` give 0 as long as it survives
      stripping. */
  lemma FloatOrZeroForeign(s: string, c: char)
    requires c in s && !NumeralChar(c) && !IsSpace(c)
    ensures FloatOrZero(Strip(s)) == 0.0
  {
    StripKeeps(s, c);
  }

  /** The separator swap keeps every character other than `.` and `,`. */
  lemma SwapKeeps(t: string, swapSeparators: bool, c: char)
    requires c in t && c != '.' && c != ','
    ensures c in SwapSeparators(t, swapSeparators)
  {
    if swapSeparators {
      RemoveKeeps(t, ".", c);
      ReplaceCharKeeps(Remove(t, "."), ',', '.', c);
    }
  }

  /** A foreign character survives the percent branch and makes it read 0. */
  lemma ReadPercentForeign(swapped: string, percentAsFraction: bool, c: char)
    requires c in swapped && !NumeralChar(c) && !IsSpace(c) && c != '%'
    ensures ReadPercent(swapped, percentAsFraction) == 0.0
  {
    RemoveKeeps(swapped, "%", c);
    FloatOrZeroForeign(Remove(swapped, "%"), c);
  }

  /** A foreign character other than `R` and `$` survives the currency removal and
      makes the plain branch read 0. */
  lemma ReadPlainForeign(swapped: string, c: char)
    requires c in swapped && !NumeralChar(c) && !IsSpace(c) && c != 'R' && c != '$'
    ensures ReadPlain(swapped) == 0.0
  {
    assert c !in "R$";
    DropMarkerForeign(swapped, "R$", c);
  }

  /** Removing a marker the foreign character is not part of leaves it in place. */
  lemma DropMarkerForeign(s: string, marker: string, c: char)
    requires c in s && c !in marker && !NumeralChar(c) && !IsSpace(c)
    ensures FloatOrZero(Strip(if Contains(s, marker) then Remove(s, marker) else s)) == 0.0
  {
    if Contains(s, marker) {
      RemoveKeeps(s, marker, c);
      FloatOrZeroForeign(Remove(s, marker), c);
    } else {
      FloatOrZeroForeign(s, c);
    }
  }

  /** A character outside numerals, whitespace, separators and the `%`/`R$` markers
      makes the whole text read as 0. */
  lemma {:induction false} ForeignCharReadsZero(s: string, swapSeparators: bool, percentAsFraction: bool, c: char)
    requires c in s && !NumeralChar(c) && !IsSpace(c)
    requires c != ',' && c != '%' && c != 'R' && c != '$'
    ensures TextToReal(s, swapSeparators, percentAsFraction) == 0.0
  {
    var t := Strip(s);
    StripKeeps(s, c);
    var swapped := SwapSeparators(t, swapSeparators);
    SwapKeeps(t, swapSeparators, c);
    ReadPercentForeign(swapped, percentAsFraction, c);
    ReadPlainForeign(swapped, c);
  }

  /** `'%'` reaches the percent test exactly when the input has one. */
  lemma {:induction false} PercentSurvivesSwap(s: string, swapSeparators: bool)
    ensures Contains(SwapSeparators(Strip(s), swapSeparators), "%") <==> '%' in s
  {
    var t := Strip(s);
    var swapped := SwapSeparators(t, swapSeparators);
    ContainsChar(swapped, '%');
    if '%' in s {
      StripKeeps(s, '%');
      SwapKeeps(t, swapSeparators, '%');
    }
    if '%' in swapped && swapSeparators {
      ReplaceCharKeeps(Remove(t, "."), ',', '.', '%');
    }
  }

  /** `convert_percent_to_decimal` only matters when the text has a `%`, and then it
      divides the reading by exactly 100. */
  lemma {:induction false} PercentFlagScales(s: string, swapSeparators: bool)
    ensures '%' !in s ==> TextToReal(s, swapSeparators, true) == TextToReal(s, swapSeparators, false)
    ensures '%' in s ==> TextToReal(s, swapSeparators, true) * 100.0 == TextToReal(s, swapSeparators, false)
  {
    PercentSurvivesSwap(s, swapSeparators);
  }

  /** The percent branch returns before the currency marker is removed, so a text
      holding both `%` and `R` always reads as 0. */
  lemma {:induction false} CurrencyPercentReadsZero(s: string, swapSeparators: bool, percentAsFraction: bool)
    requires '%' in s && 'R' in s
    ensures TextToReal(s, swapSeparators, percentAsFraction) == 0.0
  {
    var t := Strip(s);
    StripKeeps(s, 'R');
    PercentSurvivesSwap(s, swapSeparators);
    var swapped := SwapSeparators(t, swapSeparators);
    SwapKeeps(t, swapSeparators, 'R');
    ReadPercentForeign(swapped, percentAsFraction, 'R');
  }

  lemma ParseExample1234()
    ensures ParseFloat("1234.56") == Some(1234.56)
  {
    LeadExample1234();
    SlicesExample1234();
    DigitsExample1234();
    assert Pow10(2) == 100;
    assert ParseUnsigned("1234.56") == Some(1234.56);
  }

  lemma LeadExample1234()
    ensures LeadCount("1234.56", IsDigit) == 4
  {
  }

  lemma SlicesExample1234()
    ensures "1234.56"[..4] == "1234" && "1234.56"[4] == '.' && "1234.56"[5..] == "56"
  {
  }

  lemma DigitsExample1234()
    ensures AllDigits("1234") && DigitsValue("1234") == 1234
    ensures AllDigits("56") && DigitsValue("56") == 56
  {
  }

  lemma ParseExample125()
    ensures ParseFloat("12.5") == Some(12.5)
  {
    assert ParseUnsigned("12.5") == Some(12.5) by {
      assert LeadCount("12.5", IsDigit) == 2;
      assert "12.5"[..2] == "12" && "12.5"[3..] == "5";
      assert DigitsValue("12") == 12;
      assert DigitsValue("5") == 5;
      assert Pow10(1) == 10;
    }
  }

  lemma StripExample1234()
    ensures Strip("1.234,56") == "1.234,56"
  {
  }

  lemma RemoveExample1234()
    ensures Remove("1.234,56", ".") == "1234,56"
  {
    assert "1.234,56" == "1" + ".234,56";
    RemoveAfterPrefix("1", ".234,56", ".");
    RemoveLeadingDot();
    assert "1" + "234,56" == "1234,56";
  }

  lemma RemoveLeadingDot()
    ensures Remove(".234,56", ".") == "234,56"
  {
    assert ".234,56"[1..] == "234,56";
    assert Remove(".234,56", ".") == Remove("234,56", ".");
    ContainsChar("234,56", '.');
    RemoveAbsent("234,56", ".");
  }

  lemma ReplaceExample1234()
    ensures ReplaceChar("1234,56", ',', '.') == "1234.56"
  {
  }

  lemma SwapExample1234()
    ensures SwapSeparators("1.234,56", true) == "1234.56"
  {
    RemoveExample1234();
    ReplaceExample1234();
  }

  /** Unfolds `TextToReal` once its intermediate strings are known. */
  lemma TextToRealSteps(s: string, swapSeparators: bool, percentAsFraction: bool, t: string, swapped: string)
    requires Strip(s) == t && Strip(t) == t && t != []
    requires SwapSeparators(t, swapSeparators) == swapped
    ensures Contains(swapped, "%") ==> TextToReal(s, swapSeparators, percentAsFraction) == ReadPercent(swapped, percentAsFraction)
    ensures !Contains(swapped, "%") ==> TextToReal(s, swapSeparators, percentAsFraction) == ReadPlain(swapped)
  {
  }

  lemma ReadPlainExample1234()
    ensures ReadPlain("1234.56") == 1234.56
  {
    NoCurrencyExample1234();
    StripExample1234Plain();
    ParseExample1234();
  }

  lemma NoCurrencyExample1234()
    ensures !Contains("1234.56", "R$")
  {
    if Contains("1234.56", "R$") {
      ContainsHead("1234.56", "R$");
    }
  }

  lemma StripExample1234Plain()
    ensures Strip("1234.56") == "1234.56"
  {
  }

  lemma NoPercentExample1234()
    ensures !Contains("1234.56", "%")
  {
    ContainsChar("1234.56", '%');
    assert '%' !in "1234.56";
  }

  lemma UnfoldExample1234()
    ensures TextToReal("1.234,56", true, false) == ReadPlain("1234.56")
  {
    StripExample1234();
    SwapExample1234();
    NoPercentExample1234();
    TextToRealSteps("1.234,56", true, false, "1.234,56", "1234.56");
  }

  /** Brazilian thousands and decimal separators: `'1.234,56'` reads as 1234.56. */
  lemma ThousandsExample()
    ensures TextToNumber(Str("1.234,56"), true, false) == Num(1234.56)
  {
    UnfoldExample1234();
    ReadPlainExample1234();
  }

  lemma StripExample125()
    ensures Strip("12,5%") == "12,5%"
  {
  }

  lemma SwapExample125()
    ensures SwapSeparators("12,5%", true) == "12.5%"
  {
    assert Remove("12,5%", ".") == "12,5%";
    assert ReplaceChar("12,5%", ',', '.') == "12.5%";
  }

  lemma RemovePercentExample125()
    ensures Remove("12.5%", "%") == "12.5"
  {
    assert "12.5%" == "12.5" + "%";
    RemoveAfterPrefix("12.5", "%", "%");
    assert Remove("%", "%") == [];
  }

  lemma StripExample125Plain()
    ensures Strip("12.5") == "12.5"
  {
  }

  lemma ReadPercentExample125()
    ensures ReadPercent("12.5%", true) == 0.125
  {
    RemovePercentExample125();
    StripExample125Plain();
    ParseExample125();
    assert FloatOrZero("12.5") == 12.5;
  }

  /** A percentage read as a fraction: `'12,5%'` gives 0.125. */
  lemma PercentExample()
    ensures TextToNumber(Str("12,5%"), true, true) == Num(0.125)
  {
    StripExample125();
    assert Strip(Strip("12,5%")) == "12,5%";
    SwapExample125();
    ContainsChar("12.5%", '%');
    TextToRealSteps("12,5%", true, true, "12,5%", "12.5%");
    ReadPercentExample125();
  }

  /** A missing value and the text `'0'` are indistinguishable after normalisation. */
  lemma AbsentReadsAsZero(swapSeparators: bool, percentAsFraction: bool)
    ensures TextToNumber(Null, swapSeparators, percentAsFraction)
         == TextToNumber(Str("0"), swapSeparators, percentAsFraction)
         == Num(0.0)
  {
    ZeroSteps(swapSeparators);
    TextToRealSteps("0", swapSeparators, percentAsFraction, "0", "0");
    ZeroParses();
  }

  lemma ZeroSteps(swapSeparators: bool)
    ensures Strip("0") == "0" && SwapSeparators("0", swapSeparators) == "0"
    ensures !Contains("0", "%") && !Contains("0", "R$")
  {
    assert Remove("0", ".") == "0";
    ContainsChar("0", '%');
    if Contains("0", "R$") {
      ContainsHead("0", "R$");
    }
  }

  lemma ZeroParses()
    ensures ReadPlain("0") == 0.0
  {
    ParseFloatNatText(0);
    assert NatText(0) == "0";
    ZeroSteps(false);
  }
}

=== FILE: providers.dfy ===
/** The three field converters (index.py:135-186, 209-239, 266-342) and the adapters
    around them (index.py:188-207, 241-264, 344-361). A converter that raises makes
    its adapter return `None`; the HTTP fetch is a parameter, `None` when it failed. */
module Providers {
  import opened Base
  import opened PyStr
  import opened Values
  import opened Numbers
  import opened Extract
  import opened Investidor10

  /** What a converter may put under a key. */
  datatype Kind =
    | Never        // always `None`
    | Text         // a captured text or `None`
    | Number       // always a number: `text_to_number` never yields `None`
    | MaybeNumber  // a number, or `None` when nothing was captured
    | Url          // a non-empty string

  predicate Fits(v: Value, k: Kind) {
    match k
    case Never => v == Null
    case Text => v.Null? || v.Str?
    case Number => v.Num?
    case MaybeNumber => v.Null? || v.Num?
    case Url => v.Str? && v.s != []
  }

  // ----- fundamentus -----

  /** The literal fragments deleted from every fundamentus capture (index.py:136-149). */
  const FundamentusPatterns: seq<string> := [
    "</span>",
    "<span class=\"txt\">",
    "<span class=\"oscil\">",
    "</td>",
    "<td class=\"data\">",
    "<td class=\"data w1\">",
    "<td class=\"data w2\">",
    "<td class=\"data w3\">",
    "<td class=\"data destaque w3\">",
    "<a href=\"resultado.php?segmento=",
    "<font color=\"#306EFF\">",
    "<font color=\"#F75D59\">"
  ]

  const VacancyAnchor: string := "Vacância Média</span>"

  const FnetLinkPrefix: string :=
    "https://fnet.bmfbovespa.com.br/fnet/publico/abrirGerenciadorDocumentosCVM?cnpjFundo="

  /** A fundamentus label cell: the text between `start` and the next `</span>`. */
  function FundamentusText(doc: string, start: string): Option<string> {
    GetSubstring(doc, start, "</span>", FundamentusPatterns, false)
  }

  /** The `generate_link` lambda at index.py:155. */
  function FnetLink(cnpj: string): (link: string)
    ensures link != []
  {
    FnetLinkPrefix + cnpj
  }

  /** The fund's CNPJ, as captured from the documents link (index.py:162). */
  function CnpjText(doc: string): Option<string> {
    GetSubstring(doc, "abrirGerenciadorDocumentosCVM?cnpjFundo=", "\">Pesquisar Documentos", [], false)
  }

  /** How an f-string renders an optional text: `None` prints as `'None'`. */
  function Formatted(o: Option<string>): string {
    match o
    case None => "None"
    case Some(s) => s
  }

  /** index.py:152-153: dashes and surrounding whitespace removed, then a number, or
      `None` when nothing is left. */
  function VacancyValue(text: string): (v: Value)
    ensures v.Null? || v.Num?
  {
    var t := Strip(Remove(text, "-"));
    if t == [] then Null else TextToNumber(Str(t), true, false)
  }

  /** The label in front of each value read from a fundamentus page
      (index.py:157-186); empty for the keys not read after a label. */
  function FundamentusLabel(f: Field): string {
    match f
    case Name => "Nome</span>"
    case Segment => "Mandato</span>"
    case Management => "Gestão</span>"
    case Price => "Cotação</span>"
    case Liquidity => "Vol $ méd (2m)</span>"
    case TotalIssuedShares => "Nro. Cotas</span>"
    case NetEquityValue => "Patrim Líquido</span>"
    case EquityPrice => "VP/Cota</span>"
    case Variation12M => "12 meses</span>"
    case Variation30D => "Mês</span>"
    case Min52Weeks => "Min 52 sem</span>"
    case Max52Weeks => "Max 52 sem</span>"
    case PVP => "P/VP</span>"
    case DY => "Div. Yield</span>"
    case LatestDividend => "Dividendo/cota</span>"
    case Ffoy => "FFO Yield</span>"
    case TotalRealState => "Qtd imóveis</span>"
    case AssetsValue => ">Ativos</span>"
    case MarketValue => "Valor de mercado</span>"
    case _ => ""
  }

  /** The text captured for each key of a fundamentus page: the cash value sits in
      a chart's data list, every other key after its label. */
  function FundamentusCapture(doc: string, f: Field): Option<string> {
    if f == CashValue then GetSubstring(doc, "Caixa'", "]", [", data : ["], false)
    else FundamentusText(doc, FundamentusLabel(f))
  }

  /** How each key's capture becomes its value (index.py:157-186): texts as they are,
      figures through `text_to_number`, and the link and vacancy computed beforehand. */
  function FundamentusValue(f: Field, capture: Option<string>, vacancy: Value, link: string): Value {
    match f
    case Name | Segment | Management | CashValue => OfText(capture)
    case Link => Str(link)
    case Vacancy => vacancy
    case Type | Actuation | LatestsDividends | InitialDate | TargetPublic | Term => Null
    case _ => NumberOf(capture)
  }

  /** The value each key gets from a fundamentus page. */
  function FundamentusField(doc: string, f: Field, vacancy: Value, link: string): Value {
    FundamentusValue(f, FundamentusCapture(doc, f), vacancy, link)
  }

  /** Which keys fundamentus fills, and with what. */
  function FundamentusKind(f: Field): Kind {
    match f
    case Name | Segment | Management | CashValue => Text
    case Type | Actuation | LatestsDividends | InitialDate | TargetPublic | Term => Never
    case Link => Url
    case Vacancy => MaybeNumber
    case _ => Number
  }

  /** `convert_fundamentus_data(data)`: `None` exactly when the vacancy label is
      missing, because `.replace` is then called on `None` (index.py:151-152);
      otherwise a record with all 28 keys, each of the kind fundamentus provides. */
  function ConvertFundamentus(doc: string): (r: Option<Record>)
    ensures r.None? <==> FundamentusText(doc, VacancyAnchor).None?
    ensures r.Some? ==> Complete(r.value)
    ensures r.Some? ==> forall f :: Fits(r.value[f], FundamentusKind(f))
  {
    match FundamentusText(doc, VacancyAnchor)
    case None => None
    case Some(v) =>
      var vacancy := VacancyValue(v);
      var link := FnetLink(Formatted(CnpjText(doc)));
      FundamentusFieldsFit(doc, vacancy, link);
      Some(RecordOf(f => FundamentusField(doc, f, vacancy, link)))
  }

  lemma FundamentusFieldsFit(doc: string, vacancy: Value, link: string)
    requires vacancy.Null? || vacancy.Num?
    requires link != []
    ensures forall f :: Fits(FundamentusField(doc, f, vacancy, link), FundamentusKind(f))
  {
    forall f
      ensures Fits(FundamentusField(doc, f, vacancy, link), FundamentusKind(f))
    {
      FundamentusValueFits(f, FundamentusCapture(doc, f), vacancy, link);
    }
  }

  /** Whatever was captured, each key gets a value of its kind. */
  lemma FundamentusValueFits(f: Field, capture: Option<string>, vacancy: Value, link: string)
    requires vacancy.Null? || vacancy.Num?
    requires link != []
    ensures Fits(FundamentusValue(f, capture, vacancy, link), FundamentusKind(f))
  {
  }

  /** A vacancy made only of dashes and whitespace (fundamentus shows `-` for "no
      data") becomes `None`; anything else becomes a number. */
  lemma VacancyNullIffDashes(text: string)
    ensures VacancyValue(text) == Null <==> forall i :: 0 <= i < |text| ==> text[i] == '-' || IsSpace(text[i])
  {
    var noDash := Remove(text, "-");
    if forall i :: 0 <= i < |text| ==> text[i] == '-' || IsSpace(text[i]) {
      forall k | 0 <= k < |noDash|
        ensures IsSpace(noDash[k])
      {
        assert noDash[k] in text;
      }
    } else {
      var i :| 0 <= i < |text| && text[i] != '-' && !IsSpace(text[i]);
      RemoveKeeps(text, "-", text[i]);
      StripKeeps(noDash, text[i]);
    }
  }

  /** Without the vacancy label the whole conversion fails. */
  lemma MissingVacancyAnchorFails(doc: string)
    requires forall k :: !MatchAt(doc, VacancyAnchor, k)
    ensures ConvertFundamentus(doc) == None
  {
    AbsentStartGivesNone(doc, VacancyAnchor, "</span>", FundamentusPatterns, false);
  }

  /** Where the page layout puts each labelled value: with the key's label first found
      at `i` and the first `</span>` after it at `j`, a figure is the number read from
      the cleaned-up text between them, and a text key other than the cash value (see
      `FundamentusCashAt`) that text itself. */
  lemma FundamentusLabelledAt(doc: string, f: Field, anchor: string, i: int, j: int)
    requires FundamentusText(doc, VacancyAnchor).Some?
    requires f != CashValue && anchor == FundamentusLabel(f)
    requires FirstMatchFrom(doc, anchor, 0, i)
    requires FirstMatchFrom(doc, "</span>", i + |anchor|, j)
    requires j > i + |anchor|
    ensures FundamentusKind(f) == Number ==>
              ConvertFundamentus(doc).value[f] == NumberOf(Some(Cleanup(doc[i + |anchor|..j], FundamentusPatterns, false)))
    ensures FundamentusKind(f) == Text ==>
              ConvertFundamentus(doc).value[f] == Str(Cleanup(doc[i + |anchor|..j], FundamentusPatterns, false))
  {
    var text := Cleanup(doc[i + |anchor|..j], FundamentusPatterns, false);
    SpanBetween(doc, anchor, i, j);
    LabelledValue(doc, f, anchor, text);
  }

  /** The value under a labelled key, once its label's capture is known. */
  lemma LabelledValue(doc: string, f: Field, anchor: string, text: string)
    requires FundamentusText(doc, VacancyAnchor).Some?
    requires anchor == FundamentusLabel(f) && f != CashValue
    requires FundamentusText(doc, anchor) == Some(text)
    ensures FundamentusKind(f) == Number ==> ConvertFundamentus(doc).value[f] == NumberOf(Some(text))
    ensures FundamentusKind(f) == Text ==> ConvertFundamentus(doc).value[f] == Str(text)
  {
    var vacancy := VacancyValue(FundamentusText(doc, VacancyAnchor).value);
    var link := FnetLink(Formatted(CnpjText(doc)));
    LabelledCapture(doc, f);
    FundamentusAt(doc, f);
    if FundamentusKind(f) == Number {
      FundamentusNumberValue(f, Some(text), vacancy, link);
    } else if FundamentusKind(f) == Text {
      FundamentusTextValue(f, Some(text), vacancy, link);
    }
  }

  lemma LabelledCapture(doc: string, f: Field)
    requires f != CashValue
    ensures FundamentusCapture(doc, f) == FundamentusText(doc, FundamentusLabel(f))
  {
  }

  lemma SpanBetween(doc: string, anchor: string, i: int, j: int)
    requires FirstMatchFrom(doc, anchor, 0, i)
    requires FirstMatchFrom(doc, "</span>", i + |anchor|, j)
    requires j > i + |anchor|
    ensures FundamentusText(doc, anchor) == Some(Cleanup(doc[i + |anchor|..j], FundamentusPatterns, false))
  {
    CaptureBetweenAnchors(doc, anchor, "</span>", FundamentusPatterns, false, i, j);
  }

  /** A figure holds the number read from its capture. */
  lemma FundamentusNumberValue(f: Field, capture: Option<string>, vacancy: Value, link: string)
    requires FundamentusKind(f) == Number
    ensures FundamentusValue(f, capture, vacancy, link) == NumberOf(capture)
  {
  }

  /** A text key holds its capture as a string, or `None`. */
  lemma FundamentusTextValue(f: Field, capture: Option<string>, vacancy: Value, link: string)
    requires FundamentusKind(f) == Text
    ensures FundamentusValue(f, capture, vacancy, link) == OfText(capture)
  {
  }

  /** The cash value is the text between the first `Caixa'` and the next `]`, with the
      chart's `, data : [` removed. */
  lemma FundamentusCashAt(doc: string, i: int, j: int)
    requires FundamentusText(doc, VacancyAnchor).Some?
    requires FirstMatchFrom(doc, "Caixa'", 0, i)
    requires FirstMatchFrom(doc, "]", i + 6, j)
    requires j > i + 6
    ensures ConvertFundamentus(doc).value[CashValue] == Str(Cleanup(doc[i + 6..j], [", data : ["], false))
  {
    CaptureBetweenAnchors(doc, "Caixa'", "]", [", data : ["], false, i, j);
    CashHeld(doc, CashValue);
  }

  lemma CashHeld(doc: string, f: Field)
    requires FundamentusText(doc, VacancyAnchor).Some? && f == CashValue
    ensures ConvertFundamentus(doc).value[f] == OfText(GetSubstring(doc, "Caixa'", "]", [", data : ["], false))
  {
    CashIsText(f);
    FundamentusTextAt(doc, f);
  }

  lemma CashIsText(f: Field)
    requires f == CashValue
    ensures FundamentusKind(f) == Text
  {
  }

  /** A text key holds its capture. */
  lemma FundamentusTextAt(doc: string, f: Field)
    requires FundamentusText(doc, VacancyAnchor).Some? && FundamentusKind(f) == Text
    ensures ConvertFundamentus(doc).value[f] == OfText(FundamentusCapture(doc, f))
  {
    FundamentusAt(doc, f);
    FundamentusTextValue(f, FundamentusCapture(doc, f), VacancyValue(FundamentusText(doc, VacancyAnchor).value),
                         FnetLink(Formatted(CnpjText(doc))));
  }

  /** The record holds, under each key, that key's field value. */
  lemma FundamentusAt(doc: string, f: Field)
    requires FundamentusText(doc, VacancyAnchor).Some?
    ensures ConvertFundamentus(doc).value[f]
         == FundamentusField(doc, f, VacancyValue(FundamentusText(doc, VacancyAnchor).value),
                             FnetLink(Formatted(CnpjText(doc))))
  {
  }

  /** The link is built even when the CNPJ is not found, pointing at `cnpjFundo=None`. */
  lemma MissingCnpjStillLinks(doc: string)
    requires forall k :: !MatchAt(doc, "abrirGerenciadorDocumentosCVM?cnpjFundo=", k)
    requires FundamentusText(doc, VacancyAnchor).Some?
    ensures ConvertFundamentus(doc).value[Link] == Str(FnetLink("None"))
  {
    AbsentStartGivesNone(doc, "abrirGerenciadorDocumentosCVM?cnpjFundo=", "\">Pesquisar Documentos", [], false);
    LinkOfMissingCnpj(doc);
  }

  lemma LinkOfMissingCnpj(doc: string)
    requires CnpjText(doc) == None
    requires FundamentusText(doc, VacancyAnchor).Some?
    ensures ConvertFundamentus(doc).value[Link] == Str(FnetLink("None"))
  {
    FundamentusAt(doc, Link);
  }

  /** `get_data_from_fundamentus_by` after the fetch: no page, no record; otherwise
      the converter's answer, `None` exactly when it raised. */
  function FundamentusAdapter(page: Option<string>): (r: Option<Record>)
    ensures page.None? ==> r.None?
    ensures page.Some? ==> (r.None? <==> FundamentusText(page.value, VacancyAnchor).None?)
    ensures r.Some? ==> Complete(r.value) && forall f :: Fits(r.value[f], FundamentusKind(f))
  {
    match page
    case None => None
    case Some(doc) => ConvertFundamentus(doc)
  }

  // ----- fundsexplorer -----

  /** The `pagePostTerms.meta` object of the page's data layer. */
  type Meta = map<string, Value>

  /** The meta key each record key is copied from (index.py:210-239); `None` for the
      three keys fundsexplorer never fills. */
  function FundsexplorerKey(f: Field): Option<string> {
    match f
    case Name => Some("name")
    case Type => Some("setor_atuacao")
    case Segment => Some("segmento_ambima")
    case Actuation => Some("segmento_atuacao")
    case Link => None
    case Price => Some("valor")
    case Liquidity => Some("liquidezmediadiaria")
    case TotalIssuedShares => Some("numero_cotas")
    case NetEquityValue => Some("patrimonio")
    case EquityPrice => Some("valorpatrimonialcota")
    case Variation12M => Some("valorizacao_12_meses")
    case Variation30D => Some("valorizacao_mes")
    case Min52Weeks => Some("min_52_semanas")
    case Max52Weeks => Some("max_52_semanas")
    case PVP => Some("pvp")
    case DY => Some("dy")
    case LatestsDividends => Some("dividendos_12_meses")
    case LatestDividend => Some("lastdividend")
    case Ffoy => None
    case Vacancy => Some("vacancia")
    case TotalRealState => Some("assets_number")
    case Management => Some("gestao")
    case CashValue => Some("valor_caixa")
    case AssetsValue => None
    case MarketValue => Some("valormercado")
    case InitialDate => Some("firstdate")
    case TargetPublic => Some("publicoalvo")
    case Term => Some("prazoduracao")
  }

  /** Every meta key the converter subscripts is present. */
  predicate HasSourceKeys(meta: Meta) {
    forall f :: FundsexplorerKey(f).Some? ==> FundsexplorerKey(f).value in meta
  }

  function FundsexplorerField(meta: Meta, f: Field): Value
    requires HasSourceKeys(meta)
  {
    match FundsexplorerKey(f)
    case None => Null
    case Some(k) => meta[k]
  }

  /** `convert_fundsexplorer_data(data)`: `None` exactly when a subscripted key is
      missing (the `KeyError` is caught at index.py:262-264); otherwise every key
      holds the meta value it is copied from, or `None` for the unfilled three. */
  function ConvertFundsexplorer(meta: Meta): (r: Option<Record>)
    ensures r.Some? <==> HasSourceKeys(meta)
    ensures r.Some? ==> Complete(r.value)
    ensures r.Some? ==> forall f :: FundsexplorerKey(f).Some? ==> r.value[f] == meta[FundsexplorerKey(f).value]
    ensures r.Some? ==> forall f :: FundsexplorerKey(f).None? ==> r.value[f] == Null
  {
    if !HasSourceKeys(meta) then None
    else
      Some(RecordOf(f => FundsexplorerField(meta, f)))
  }

  /** Distinct record keys are copied from distinct meta keys. */
  lemma FundsexplorerKeysDistinct()
    ensures forall f, g :: f != g && FundsexplorerKey(f).Some? ==> FundsexplorerKey(f) != FundsexplorerKey(g)
  {
  }

  /** Meta entries the converter does not read have no influence. */
  lemma ExtraMetaIgnored(meta: Meta, k: string, v: Value)
    requires forall f :: FundsexplorerKey(f) != Some(k)
    ensures ConvertFundsexplorer(meta[k := v]) == ConvertFundsexplorer(meta)
  {
    var m' := meta[k := v];
    assert HasSourceKeys(m') <==> HasSourceKeys(meta) by {
      forall f | FundsexplorerKey(f).Some?
        ensures FundsexplorerKey(f).value in m' <==> FundsexplorerKey(f).value in meta
      {
        assert FundsexplorerKey(f).value != k;
      }
    }
    if HasSourceKeys(meta) {
      var a := ConvertFundsexplorer(m').value;
      var b := ConvertFundsexplorer(meta).value;
      forall f
        ensures a[f] == b[f]
      {
        if FundsexplorerKey(f).Some? {
          assert FundsexplorerKey(f).value != k;
        }
      }
      assert a == b;
    }
  }

  /** The characters `strip(';= ')` removes at index.py:257. */
  const LayerTrim: set<char> := {';', '=', ' '}

  /** The data layer cut out of a fundsexplorer page (index.py:254). */
  function DataLayer(doc: string): Option<string> {
    GetSubstring(doc, "var dataLayer_content", "dataLayer.push", [], false)
  }

  /** `get_data_from_fundsexplorer_by` after the fetch: cut the data layer out of the
      page, trim it, and hand it to `decodeMeta`, which stands for
      `json.loads(...)['pagePostTerms']['meta']` and gives `None` where that raises.
      A missing page, a missing layer or an undecodable layer gives `None`; a decoded
      meta object gives what the converter makes of it. */
  function FundsexplorerAdapter(page: Option<string>, decodeMeta: string -> Option<Meta>): (r: Option<Record>)
    ensures page.None? ==> r.None?
    ensures page.Some? && DataLayer(page.value).None? ==> r.None?
    ensures page.Some? && DataLayer(page.value).Some? ==>
              (decodeMeta(StripChars(DataLayer(page.value).value, LayerTrim)).None? ==> r.None?)
    ensures page.Some? && DataLayer(page.value).Some? ==>
              (decodeMeta(StripChars(DataLayer(page.value).value, LayerTrim)).Some? ==>
                 r == ConvertFundsexplorer(decodeMeta(StripChars(DataLayer(page.value).value, LayerTrim)).value))
    ensures r.Some? ==> Complete(r.value)
  {
    match page
    case None => None
    case Some(doc) =>
      match DataLayer(doc)
      case None => None
      case Some(layer) =>
        match decodeMeta(StripChars(layer, LayerTrim))
        case None => None
        case Some(meta) => ConvertFundsexplorer(meta)
  }

  /** The layer handed to `json.loads` is the cleaned text between the first
      `var dataLayer_content` and the next `dataLayer.push`, trimmed of `;`, `=` and
      spaces; a page whose layer decodes to `meta` gets the converter's record of it. */
  lemma FundsexplorerLayerAt(doc: string, decodeMeta: string -> Option<Meta>, i: int, j: int, meta: Meta)
    requires FirstMatchFrom(doc, "var dataLayer_content", 0, i)
    requires FirstMatchFrom(doc, "dataLayer.push", i + 21, j)
    requires j > i + 21
    requires decodeMeta(StripChars(Cleanup(doc[i + 21..j], [], false), LayerTrim)) == Some(meta)
    ensures FundsexplorerAdapter(Some(doc), decodeMeta) == ConvertFundsexplorer(meta)
  {
    CaptureBetweenAnchors(doc, "var dataLayer_content", "dataLayer.push", [], false, i, j);
  }

  /** A page without the data layer gives no record, whatever the decoder. */
  lemma MissingLayerGivesNone(doc: string, decodeMeta: string -> Option<Meta>)
    requires forall k :: !MatchAt(doc, "var dataLayer_content", k)
    ensures FundsexplorerAdapter(Some(doc), decodeMeta) == None
  {
    AbsentStartGivesNone(doc, "var dataLayer_content", "dataLayer.push", [], false);
  }

  // ----- investidor10 -----

  /** The literal fragments deleted from investidor10 captures (index.py:267-275). */
  const Investidor10Patterns: seq<string> := [
    "</div>",
    "<div>",
    "<div class=\"value\">",
    "<div class=\"_card-body\">",
    "</span>",
    "<span>",
    "<span class=\"value\">"
  ]

  const Cell: string := "<div class='cell'>"

  const YieldAnchor: string := "YIELD 6 MESES"

  /** The label of the dividend amount inside the six-month yield block. */
  const AmountAnchor: string := "content--info--item--value amount\">"

  /** The property list in which the property cards are counted. */
  const ListAnchor: string := "Lista de Imóveis"

  const ListEnd: string := "<button data-id=\"read-more-action"

  /** The dividend block whose absence makes the converter raise at index.py:330. */
  function YieldBlock(doc: string): Option<string> {
    GetSubstring(doc, YieldAnchor, "<div class=\"content--info--item\">", Investidor10Patterns, false)
  }

  /** The number of property cards in the property list, `None` when the list is missing. */
  function RealStateCount(doc: string): (v: Value)
    ensures v.Null? || v.Num?
  {
    var list := GetSubstring(doc, ListAnchor, ListEnd, [], false);
    match CountPatternOnText(list, CardWord)
    case None => Null
    case Some(n) => Num(n as real)
  }

  /** The label in front of each value read from an investidor10 page
      (index.py:313-342); empty for the keys not read after a label. */
  function Investidor10Label(f: Field): string {
    match f
    case Name => "Razão Social"
    case Type => "TIPO DE FUNDO"
    case Segment => "SEGMENTO"
    case Price => "Cotação</span>"
    case Liquidity => "title=\"Liquidez Diária\">Liquidez Diária</span>"
    case TotalIssuedShares => "COTAS EMITIDAS"
    case NetEquityValue => "VALOR PATRIMONIAL"
    case EquityPrice => "VAL. PATRIMONIAL P/ COTA"
    case Variation12M => "title=\"Variação (12M)\">VARIAÇÃO (12M)</span>"
    case PVP => "title=\"P/VP\">P/VP</span>"
    case DY => "DY (12M)</span>"
    case LatestDividend => "ÚLTIMO RENDIMENTO"
    case Vacancy => "VACÂNCIA"
    case Management => "TIPO DE GESTÃO"
    case TargetPublic => "PÚBLICO-ALVO"
    case Term => "PRAZO DE DURAÇÃO"
    case _ => ""
  }

  /** Where the text after a key's label ends: at the next `</span>` for the header
      figures, at the next table cell for the rest. */
  function Investidor10End(f: Field): string {
    match f
    case Price | Liquidity | Variation12M | PVP | DY | LatestDividend => "</span>"
    case _ => Cell
  }

  /** The text between a key's label and its end. */
  function Investidor10Text(doc: string, f: Field): Option<string> {
    GetSubstring(doc, Investidor10Label(f), Investidor10End(f), Investidor10Patterns, false)
  }

  /** How each key's capture becomes its value (index.py:313-342): texts as they
      are, figures through `text_to_number` or, for the two amounts with a unit, the
      corrected `multiply_by_unit`; the property count and the dividend are computed
      beforehand. */
  function Investidor10Value(f: Field, capture: Option<string>, count: Value, latests: Value): Value {
    if f == TotalRealState then count
    else if f == LatestsDividends then latests
    else
      match Investidor10Kind(f)
      case Text => OfText(capture)
      case Number => NumberOf(capture)
      case MaybeNumber => MultiplyByUnitIntended(capture)
      case Never => Null
  }

  /** The value each key gets from an investidor10 page. */
  function Investidor10Field(doc: string, f: Field, count: Value, latests: Value): Value {
    Investidor10Value(f, Investidor10Text(doc, f), count, latests)
  }

  /** Which keys investidor10 fills, and with what. */
  function Investidor10Kind(f: Field): Kind {
    match f
    case Name | Type | Segment | Management | TargetPublic | Term => Text
    case Actuation | Link | Variation30D | Min52Weeks | Max52Weeks | Ffoy
       | CashValue | AssetsValue | MarketValue | InitialDate => Never
    case Liquidity | NetEquityValue | TotalRealState => MaybeNumber
    case _ => Number
  }

  /** `convert_investidor10_data(data)`: `None` exactly when the six-month yield
      block is missing, because the nested `get_substring` then calls `find` on
      `None`; otherwise a record with all 28 keys of the kinds investidor10 provides. */
  function ConvertInvestidor10(doc: string): (r: Option<Record>)
    ensures r.None? <==> YieldBlock(doc).None?
    ensures r.Some? ==> Complete(r.value)
    ensures r.Some? ==> forall f :: Fits(r.value[f], Investidor10Kind(f))
  {
    match YieldBlock(doc)
    case None => None
    case Some(block) =>
      var latests := NumberOf(GetSubstring(block, AmountAnchor, "</span>", [], false));
      var count := RealStateCount(doc);
      Investidor10FieldsFit(doc, count, latests);
      Some(RecordOf(f => Investidor10Field(doc, f, count, latests)))
  }

  lemma Investidor10FieldsFit(doc: string, count: Value, latests: Value)
    requires count.Null? || count.Num?
    requires latests.Num?
    ensures forall f :: Fits(Investidor10Field(doc, f, count, latests), Investidor10Kind(f))
  {
    forall f
      ensures Fits(Investidor10Field(doc, f, count, latests), Investidor10Kind(f))
    {
      Investidor10ValueFits(f, Investidor10Text(doc, f), count, latests);
    }
  }

  /** Whatever was captured, each key gets a value of its kind. */
  lemma Investidor10ValueFits(f: Field, capture: Option<string>, count: Value, latests: Value)
    requires count.Null? || count.Num?
    requires latests.Num?
    ensures Fits(Investidor10Value(f, capture, count, latests), Investidor10Kind(f))
  {
  }

  /** The record holds, under each key, that key's field value. */
  lemma Investidor10At(doc: string, f: Field)
    requires YieldBlock(doc).Some?
    ensures var block := YieldBlock(doc).value;
            ConvertInvestidor10(doc).value[f]
            == Investidor10Value(f, Investidor10Text(doc, f), RealStateCount(doc),
                                 NumberOf(GetSubstring(block, AmountAnchor, "</span>", [], false)))
  {
  }

  /** A text key holds its capture as a string, or `None`. */
  lemma TextKeyValue(f: Field, capture: Option<string>, count: Value, latests: Value)
    requires Investidor10Kind(f) == Text
    ensures Investidor10Value(f, capture, count, latests) == OfText(capture)
  {
    assert f != TotalRealState && f != LatestsDividends;
  }

  /** A figure read after a label holds the number read from its capture. */
  lemma NumberKeyValue(f: Field, capture: Option<string>, count: Value, latests: Value)
    requires Investidor10Kind(f) == Number && f != LatestsDividends
    ensures Investidor10Value(f, capture, count, latests) == NumberOf(capture)
  {
    assert f != TotalRealState;
  }

  /** An amount with a unit holds the amount scaled by that unit. */
  lemma AmountKeyValue(f: Field, capture: Option<string>, count: Value, latests: Value)
    requires Investidor10Kind(f) == MaybeNumber && f != TotalRealState
    ensures Investidor10Value(f, capture, count, latests) == MultiplyByUnitIntended(capture)
  {
    assert f != LatestsDividends;
  }

  /** Where the page layout puts each labelled value: with the key's label first found
      at `i` and its end (`</span>` for the header figures, the next table cell for the
      rest) first found after it at `j`, a text key holds the cleaned-up text between
      them, a figure the number read from it, and the two amounts with a unit the
      amount scaled by that unit. */
  lemma Investidor10LabelledAt(doc: string, f: Field, anchor: string, end: string, i: int, j: int)
    requires YieldBlock(doc).Some?
    requires anchor == Investidor10Label(f) && anchor != [] && end == Investidor10End(f)
    requires FirstMatchFrom(doc, anchor, 0, i)
    requires FirstMatchFrom(doc, end, i + |anchor|, j)
    requires j > i + |anchor|
    ensures Investidor10Kind(f) == Text ==>
              ConvertInvestidor10(doc).value[f] == Str(Cleanup(doc[i + |anchor|..j], Investidor10Patterns, false))
    ensures Investidor10Kind(f) == Number ==>
              ConvertInvestidor10(doc).value[f]
              == NumberOf(Some(Cleanup(doc[i + |anchor|..j], Investidor10Patterns, false)))
    ensures Investidor10Kind(f) == MaybeNumber ==>
              ConvertInvestidor10(doc).value[f]
              == MultiplyByUnitIntended(Some(Cleanup(doc[i + |anchor|..j], Investidor10Patterns, false)))
  {
    var text := Cleanup(doc[i + |anchor|..j], Investidor10Patterns, false);
    LabelCapture(doc, f, anchor, end, i, j);
    Investidor10LabelledValue(doc, f, text);
  }

  lemma LabelCapture(doc: string, f: Field, anchor: string, end: string, i: int, j: int)
    requires anchor == Investidor10Label(f) && end == Investidor10End(f)
    requires FirstMatchFrom(doc, anchor, 0, i)
    requires FirstMatchFrom(doc, end, i + |anchor|, j)
    requires j > i + |anchor|
    ensures Investidor10Text(doc, f) == Some(Cleanup(doc[i + |anchor|..j], Investidor10Patterns, false))
  {
    CaptureBetweenAnchors(doc, anchor, end, Investidor10Patterns, false, i, j);
  }

  /** The value under a labelled key, once its capture is known. */
  lemma Investidor10LabelledValue(doc: string, f: Field, text: string)
    requires YieldBlock(doc).Some? && Investidor10Label(f) != []
    requires Investidor10Text(doc, f) == Some(text)
    ensures Investidor10Kind(f) == Text ==> ConvertInvestidor10(doc).value[f] == Str(text)
    ensures Investidor10Kind(f) == Number ==> ConvertInvestidor10(doc).value[f] == NumberOf(Some(text))
    ensures Investidor10Kind(f) == MaybeNumber ==>
              ConvertInvestidor10(doc).value[f] == MultiplyByUnitIntended(Some(text))
  {
    Investidor10At(doc, f);
    LabelledKeyValue(f, Investidor10Text(doc, f), text, RealStateCount(doc),
                     NumberOf(GetSubstring(YieldBlock(doc).value, AmountAnchor, "</span>", [], false)),
                     ConvertInvestidor10(doc).value[f]);
  }

  /** A labelled key's value depends only on its kind and its capture. */
  lemma LabelledKeyValue(f: Field, capture: Option<string>, text: string, count: Value, latests: Value, v: Value)
    requires Investidor10Label(f) != [] && capture == Some(text)
    requires v == Investidor10Value(f, capture, count, latests)
    ensures Investidor10Kind(f) == Text ==> v == Str(text)
    ensures Investidor10Kind(f) == Number ==> v == NumberOf(Some(text))
    ensures Investidor10Kind(f) == MaybeNumber ==> v == MultiplyByUnitIntended(Some(text))
  {
    if Investidor10Kind(f) == Text {
      TextKeyValue(f, capture, count, latests);
    } else if Investidor10Kind(f) == Number {
      NumberKeyValue(f, capture, count, latests);
    } else if Investidor10Kind(f) == MaybeNumber {
      AmountKeyValue(f, capture, count, latests);
    }
  }

  /** The latest dividends are the number read from the text between the amount label
      first found at `i` inside the six-month yield block and the next `</span>` at
      `j`. */
  lemma Investidor10LatestsAt(doc: string, block: string, i: int, j: int)
    requires YieldBlock(doc) == Some(block)
    requires FirstMatchFrom(block, AmountAnchor, 0, i)
    requires FirstMatchFrom(block, "</span>", i + |AmountAnchor|, j)
    requires j > i + |AmountAnchor|
    ensures ConvertInvestidor10(doc).value[LatestsDividends]
            == NumberOf(Some(Cleanup(block[i + |AmountAnchor|..j], [], false)))
  {
    CaptureBetweenAnchors(block, AmountAnchor, "</span>", [], false, i, j);
    LatestsHeld(doc, block);
  }

  lemma LatestsHeld(doc: string, block: string)
    requires YieldBlock(doc) == Some(block)
    ensures ConvertInvestidor10(doc).value[LatestsDividends]
            == NumberOf(GetSubstring(block, AmountAnchor, "</span>", [], false))
  {
    ComputedHeld(doc, LatestsDividends);
  }

  lemma CountHeld(doc: string)
    requires YieldBlock(doc).Some?
    ensures ConvertInvestidor10(doc).value[TotalRealState] == RealStateCount(doc)
  {
    ComputedHeld(doc, TotalRealState);
  }

  /** The two keys computed beforehand hold what was computed. */
  lemma ComputedHeld(doc: string, f: Field)
    requires YieldBlock(doc).Some?
    ensures f == TotalRealState ==> ConvertInvestidor10(doc).value[f] == RealStateCount(doc)
    ensures f == LatestsDividends ==>
              ConvertInvestidor10(doc).value[f]
              == NumberOf(GetSubstring(YieldBlock(doc).value, AmountAnchor, "</span>", [], false))
  {
    Investidor10At(doc, f);
  }

  /** The word counted in the property list. */
  const CardWord: string := "card-propertie"

  /** The property count is the number of `card-propertie` words, in any case, in the
      text between the first property-list label at `i` and the next read-more button
      at `j`; `None` when that text cleans up to nothing. */
  lemma Investidor10CountAt(doc: string, i: int, j: int)
    requires YieldBlock(doc).Some?
    requires FirstMatchFrom(doc, ListAnchor, 0, i)
    requires FirstMatchFrom(doc, ListEnd, i + |ListAnchor|, j)
    requires j > i + |ListAnchor|
    ensures var text := Cleanup(doc[i + |ListAnchor|..j], [], false);
            && (text == [] ==> ConvertInvestidor10(doc).value[TotalRealState] == Null)
            && (text != [] ==>
                  ConvertInvestidor10(doc).value[TotalRealState]
                  == Num(multiset(Words(Lower(text)))[Lower(CardWord)] as real))
  {
    CaptureBetweenAnchors(doc, ListAnchor, ListEnd, [], false, i, j);
    CountHeld(doc);
  }

  /** A page without the property list has no property count. */
  lemma MissingListCountsNull(doc: string)
    requires YieldBlock(doc).Some?
    requires forall k :: !MatchAt(doc, ListAnchor, k)
    ensures ConvertInvestidor10(doc).value[TotalRealState] == Null
  {
    AbsentStartGivesNone(doc, ListAnchor, ListEnd, [], false);
    CountHeld(doc);
  }

  /** Without the yield label the whole conversion fails. */
  lemma MissingYieldAnchorFails(doc: string)
    requires forall k :: !MatchAt(doc, YieldAnchor, k)
    ensures ConvertInvestidor10(doc) == None
  {
    AbsentStartGivesNone(doc, YieldAnchor, "<div class=\"content--info--item\">", Investidor10Patterns, false);
  }

  /** `get_data_from_investidor10_by` after the fetch: no page, no record; otherwise
      the converter's answer, `None` exactly when it raised. */
  function Investidor10Adapter(page: Option<string>): (r: Option<Record>)
    ensures page.None? ==> r.None?
    ensures page.Some? ==> (r.None? <==> YieldBlock(page.value).None?)
    ensures r.Some? ==> Complete(r.value) && forall f :: Fits(r.value[f], Investidor10Kind(f))
  {
    match page
    case None => None
    case Some(doc) => ConvertInvestidor10(doc)
  }

  /** Every adapter answers `None` when its fetch failed, and a complete record
      otherwise or `None`. */
  lemma AdaptersAnswer(page: Option<string>, decodeMeta: string -> Option<Meta>)
    ensures page.None? ==>
              FundamentusAdapter(page) == None && Investidor10Adapter(page) == None
              && FundsexplorerAdapter(page, decodeMeta) == None
    ensures FundamentusAdapter(page).Some? ==> Complete(FundamentusAdapter(page).value)
    ensures Investidor10Adapter(page).Some? ==> Complete(Investidor10Adapter(page).value)
  {
  }
}

=== FILE: pystr.dfy ===
/** The Python `str` operations the scraper relies on, each defined the way CPython
    behaves on the inputs that occur: searching, literal replacement, stripping,
    splitting, slicing with negative bounds and ASCII lower-casing. */
module PyStr {

  /** The characters for which Python's `str.isspace()` holds; `strip()` and
      `split()` without arguments remove or split on exactly these. */
  predicate IsSpace(c: char) {
    || '\t' <= c <= '\r'
    || '\U{1C}' <= c <= ' '
    || c == '\U{85}' || c == '\U{A0}' || c == '\U{1680}'
    || '\U{2000}' <= c <= '\U{200A}'
    || c == '\U{2028}' || c == '\U{2029}' || c == '\U{202F}' || c == '\U{205F}'
    || c == '\U{3000}'
  }

  predicate NotSpace(c: char) {
    !IsSpace(c)
  }

  /** No character of `w` is whitespace. */
  predicate NoSpace(w: string) {
    forall i :: 0 <= i < |w| ==> !IsSpace(w[i])
  }

  /** `sub` occurs in `s` starting at index `i`. */
  predicate MatchAt(s: string, sub: string, i: int) {
    0 <= i && i + |sub| <= |s| && s[i..i + |sub|] == sub
  }

  /** Python's `s.find(sub, start)` for a non-negative `start`: the first index at or
      after `start` where `sub` occurs, or -1 when there is none (also when `start`
      lies beyond the end of `s`, even for an empty `sub`). */
  function Find(s: string, sub: string, start: nat): (r: int)
    ensures r == -1 || (start <= r && MatchAt(s, sub, r))
    ensures forall i :: start <= i && (r == -1 || i < r) ==> !MatchAt(s, sub, i)
    decreases |s| - start
  {
    if start + |sub| > |s| then -1
    else if s[start..start + |sub|] == sub then start
    else Find(s, sub, start + 1)
  }

  /** Python's `sub in s`. */
  predicate Contains(s: string, sub: string) {
    Find(s, sub, 0) != -1
  }

  lemma ContainsAt(s: string, sub: string, i: int)
    requires MatchAt(s, sub, i)
    ensures Contains(s, sub)
  {
  }

  /** For a one-character needle, Python's `in` is plain membership. */
  lemma ContainsChar(s: string, c: char)
    ensures Contains(s, [c]) <==> c in s
  {
    if c in s {
      var i :| 0 <= i < |s| && s[i] == c;
      assert MatchAt(s, [c], i);
    }
    if Contains(s, [c]) {
      var r := Find(s, [c], 0);
      assert s[r..r + 1][0] == s[r];
    }
  }

  /** A string that contains `sub` contains its first character. */
  lemma ContainsHead(s: string, sub: string)
    requires sub != [] && Contains(s, sub)
    ensures sub[0] in s
  {
    var r := Find(s, sub, 0);
    assert s[r..r + |sub|][0] == s[r];
  }

  /** Python's `s.replace(pat, '')`: deletes the non-overlapping occurrences of
      `pat`, scanning left to right; an empty `pat` leaves `s` as it is. */
  function Remove(s: string, pat: string): (r: string)
    ensures |r| <= |s|
    ensures forall c :: c in r ==> c in s
    ensures |pat| == 1 ==> pat[0] !in r
    decreases |s|
  {
    if pat == [] || |s| < |pat| then s
    else if s[..|pat|] == pat then Remove(s[|pat|..], pat)
    else [s[0]] + Remove(s[1..], pat)
  }

  /** Deleting a pattern never deletes a character the pattern does not contain. */
  lemma {:induction false} RemoveKeeps(s: string, pat: string, c: char)
    requires c in s && c !in pat
    ensures c in Remove(s, pat)
    decreases |s|
  {
    if pat == [] || |s| < |pat| {
    } else if s[..|pat|] == pat {
      var k :| 0 <= k < |s| && s[k] == c;
      assert s[|pat|..][k - |pat|] == c;
      RemoveKeeps(s[|pat|..], pat, c);
    } else if s[0] != c {
      assert c in s[1..];
      RemoveKeeps(s[1..], pat, c);
    }
  }

  /** Python's `s.replace(a, b)` for one-character strings `a` and `b`. */
  function ReplaceChar(s: string, a: char, b: char): (r: string)
    ensures |r| == |s|
    ensures forall i :: 0 <= i < |s| ==> r[i] == (if s[i] == a then b else s[i])
  {
    if s == [] then [] else [if s[0] == a then b else s[0]] + ReplaceChar(s[1..], a, b)
  }

  /** Number of leading characters of `s` that `drop` accepts. */
  function LeadCount(s: string, drop: char -> bool): (n: nat)
    ensures n <= |s|
    ensures forall i :: 0 <= i < n ==> drop(s[i])
    ensures n < |s| ==> !drop(s[n])
  {
    if s == [] || !drop(s[0]) then 0 else 1 + LeadCount(s[1..], drop)
  }

  /** Number of trailing characters of `s` that `drop` accepts. */
  function TrailCount(s: string, drop: char -> bool): (n: nat)
    ensures n <= |s|
    ensures forall i :: |s| - n <= i < |s| ==> drop(s[i])
    ensures n < |s| ==> !drop(s[|s| - 1 - n])
  {
    if s == [] || !drop(s[|s| - 1]) then 0 else 1 + TrailCount(s[..|s| - 1], drop)
  }

  /** `r` is `s` with `n` leading and `m` trailing characters cut off, all of them
      characters that `drop` accepts. */
  predicate TrimmedBy(s: string, drop: char -> bool, r: string, n: int, m: int) {
    && 0 <= n && 0 <= m && n + m <= |s|
    && r == s[n..|s| - m]
    && (forall i :: 0 <= i < n ==> drop(s[i]))
    && (forall i :: |s| - m <= i < |s| ==> drop(s[i]))
  }

  /** Python's `s.strip(chars)` with the character class given as a predicate. */
  function Trim(s: string, drop: char -> bool): (r: string)
    ensures exists n: int, m: int :: TrimmedBy(s, drop, r, n, m)
    ensures r == [] || (!drop(r[0]) && !drop(r[|r| - 1]))
    ensures r == [] <==> forall i :: 0 <= i < |s| ==> drop(s[i])
    ensures forall c :: c in r ==> c in s
    ensures forall i :: 0 <= i < |s| && !drop(s[i]) ==> s[i] in r
  {
    var n := LeadCount(s, drop);
    var m := TrailCount(s[n..], drop);
    TrimEnds(s, drop, n, m);
    TrimKeeps(s, drop, n, m);
    TrimSlice(s, drop, n, m);
    s[n..][..|s| - n - m]
  }

  /** The trimmed string is a contiguous middle slice of `s`. */
  lemma TrimSlice(s: string, drop: char -> bool, n: nat, m: nat)
    requires n == LeadCount(s, drop) && m == TrailCount(s[n..], drop)
    ensures TrimmedBy(s, drop, s[n..][..|s| - n - m], n, m)
  {
    SuffixPrefix(s, n, m);
    TrailOfSuffix(s, drop, n, m);
  }

  /** Cutting `n` characters from the front and then `m` from the back is one slice. */
  lemma SuffixPrefix(s: string, n: nat, m: nat)
    requires n + m <= |s|
    ensures s[n..][..|s| - n - m] == s[n..|s| - m]
  {
  }

  /** The characters a trailing count on the suffix `s[n..]` covers are the last `m` of `s`. */
  lemma TrailOfSuffix(s: string, drop: char -> bool, n: nat, m: nat)
    requires n <= |s| && m == TrailCount(s[n..], drop)
    ensures forall i :: |s| - m <= i < |s| ==> drop(s[i])
  {
    var t := s[n..];
    forall i | |s| - m <= i < |s|
      ensures drop(s[i])
    {
      assert s[i] == t[i - n];
    }
  }

  /** Only one slice has undropped ends, or is empty when every character is
      dropped, so these properties determine `Trim`. */
  lemma {:induction false} TrimUnique(s: string, drop: char -> bool, r: string, n: int, m: int)
    requires TrimmedBy(s, drop, r, n, m)
    requires r == [] || (!drop(r[0]) && !drop(r[|r| - 1]))
    requires r == [] <==> forall i :: 0 <= i < |s| ==> drop(s[i])
    ensures r == Trim(s, drop)
  {
    var t := Trim(s, drop);
    var n', m' :| TrimmedBy(s, drop, t, n', m');
    TrimmedByUnique(s, drop, r, n, m, t, n', m');
  }

  /** Two trimmings of `s` whose ends are kept characters, and which are empty
      exactly when every character is dropped, are the same string. */
  lemma TrimmedByUnique(s: string, drop: char -> bool, r: string, n: int, m: int,
                        t: string, n': int, m': int)
    requires TrimmedBy(s, drop, r, n, m) && TrimmedBy(s, drop, t, n', m')
    requires r == [] || (!drop(r[0]) && !drop(r[|r| - 1]))
    requires t == [] || (!drop(t[0]) && !drop(t[|t| - 1]))
    requires r == [] <==> forall i :: 0 <= i < |s| ==> drop(s[i])
    requires t == [] <==> forall i :: 0 <= i < |s| ==> drop(s[i])
    ensures r == t
  {
    if r != [] {
      assert |r| == |s| - m - n && |t| == |s| - m' - n';
      assert r[0] == s[n] && r[|r| - 1] == s[|s| - m - 1];
      assert t[0] == s[n'] && t[|t| - 1] == s[|s| - m' - 1];
      assert n == n' && m == m';
    }
  }

  /** The ends of the trimmed string are kept characters, and it is empty exactly
      when every character is dropped. */
  lemma TrimEnds(s: string, drop: char -> bool, n: nat, m: nat)
    requires n == LeadCount(s, drop) && m == TrailCount(s[n..], drop)
    ensures var r := s[n..][..|s| - n - m];
            && (r == [] || (!drop(r[0]) && !drop(r[|r| - 1])))
            && (r == [] <==> forall i :: 0 <= i < |s| ==> drop(s[i]))
  {
    var t := s[n..];
    if n < |s| {
      assert t[0] == s[n];
      assert m < |t|;
    }
  }

  /** Trimming keeps every character that `drop` rejects and adds none. */
  lemma TrimKeeps(s: string, drop: char -> bool, n: nat, m: nat)
    requires n == LeadCount(s, drop) && m == TrailCount(s[n..], drop)
    ensures var r := s[n..][..|s| - n - m];
            && (forall c :: c in r ==> c in s)
            && (forall i :: 0 <= i < |s| && !drop(s[i]) ==> s[i] in r)
  {
    var t := s[n..];
    var r := t[..|t| - m];
    forall i | 0 <= i < |s| && !drop(s[i])
      ensures s[i] in r
    {
      assert t[i - n] == s[i];
      assert r[i - n] == s[i];
    }
  }

  /** Python's `s.strip()`. */
  function Strip(s: string): string {
    Trim(s, IsSpace)
  }

  /** Stripping removes whitespace only. */
  lemma StripKeeps(s: string, c: char)
    requires c in s && !IsSpace(c)
    ensures c in Strip(s)
  {
    var i :| 0 <= i < |s| && s[i] == c;
  }

  /** Replacing `a` by `b` keeps every other character and introduces only `b`. */
  lemma ReplaceCharKeeps(s: string, a: char, b: char, c: char)
    ensures c in s && c != a ==> c in ReplaceChar(s, a, b)
    ensures c in ReplaceChar(s, a, b) ==> c in s || c == b
  {
    var r := ReplaceChar(s, a, b);
    if c in s && c != a {
      var i :| 0 <= i < |s| && s[i] == c;
      assert r[i] == c;
    }
    if c in r {
      var i :| 0 <= i < |r| && r[i] == c;
      assert s[i] == c || c == b;
    }
  }

  /** Python's `s.strip(chars)`. */
  function StripChars(s: string, chars: set<char>): string {
    Trim(s, c => c in chars)
  }

  /** Python's `s.split()`: the maximal runs of non-whitespace characters, in order. */
  function Words(s: string): (ws: seq<string>)
    ensures forall k :: 0 <= k < |ws| ==> ws[k] != [] && NoSpace(ws[k])
    decreases |s|
  {
    var n := LeadCount(s, IsSpace);
    if n == |s| then []
    else
      var t := s[n..];
      var m := LeadCount(t, NotSpace);
      assert m > 0 by {
        assert t[0] == s[n];
      }
      var w := t[..m];
      assert NoSpace(w) by {
        forall i | 0 <= i < |w|
          ensures !IsSpace(w[i])
        {
          assert w[i] == t[i] && NotSpace(t[i]);
        }
      }
      [w] + Words(t[m..])
  }

  /** Splitting ignores leading whitespace. */
  lemma WordsLeadingSpace(c: char, s: string)
    requires IsSpace(c)
    ensures Words([c] + s) == Words(s)
  {
    var cs := [c] + s;
    assert cs[1..] == s;
    var n := LeadCount(s, IsSpace);
    assert LeadCount(cs, IsSpace) == 1 + n;
    if n < |s| {
      assert cs[1 + n..] == s[n..];
    }
  }

  /** A text without whitespace is one word, and the empty text has none. */
  lemma WordsSingle(w: string)
    requires NoSpace(w)
    ensures Words(w) == (if w == [] then [] else [w])
  {
    if w != [] {
      assert LeadCount(w, IsSpace) == 0;
      var m := LeadCount(w, NotSpace);
      assert m == |w|;
      assert w[..m] == w && w[m..] == [];
    }
  }

  /** A word ended by whitespace is the first word, and splitting goes on after it. */
  lemma WordsAfterWord(w: string, c: char, s: string)
    requires w != [] && NoSpace(w) && IsSpace(c)
    ensures Words(w + [c] + s) == [w] + Words(s)
  {
    var t := w + [c] + s;
    assert t[0] == w[0];
    assert LeadCount(t, IsSpace) == 0;
    assert t[0..] == t;
    var m := LeadCount(t, NotSpace);
    assert m == |w| by {
      assert t[|w|] == c;
      assert forall i :: 0 <= i < |w| ==> t[i] == w[i];
    }
    assert t[..m] == w;
    assert t[m..] == [c] + s;
    WordsLeadingSpace(c, s);
  }

  function LowerChar(c: char): char {
    if 'A' <= c <= 'Z' then (c as int + 32) as char else c
  }

  /** Python's `s.lower()`, restricted to the ASCII letters. */
  function Lower(s: string): (r: string)
    ensures |r| == |s|
    ensures forall i :: 0 <= i < |s| && !('A' <= s[i] <= 'Z') ==> r[i] == s[i]
    ensures forall i :: 0 <= i < |s| && 'A' <= s[i] <= 'Z' ==> r[i] as int == s[i] as int + 32
    ensures forall i :: 0 <= i < |r| ==> !('A' <= r[i] <= 'Z')
  {
    seq(|s|, i requires 0 <= i < |s| => LowerChar(s[i]))
  }

  /** Python's `sep.join(parts)`. */
  function Join(parts: seq<string>, sep: string): string {
    if parts == [] then []
    else if |parts| == 1 then parts[0]
    else parts[0] + sep + Join(parts[1..], sep)
  }

  /** Python's `s.split(sep)` for a non-empty separator: the pieces between the
      non-overlapping occurrences of `sep`, found left to right. */
  function SplitOn(s: string, sep: string): (parts: seq<string>)
    requires sep != []
    ensures |parts| >= 1
    ensures Join(parts, sep) == s
    ensures forall k :: 0 <= k < |parts| ==> !Contains(parts[k], sep)
    ensures forall k :: 0 <= k < |parts| - 1 ==> LeftmostCut(parts[k], sep)
    ensures |parts| > 1 ==> Find(s, sep, 0) == |parts[0]|
    decreases |s|
  {
    var i := Find(s, sep, 0);
    if i == -1 then [s]
    else
      var rest := SplitOn(s[i + |sep|..], sep);
      SplitCons(s, sep, i, rest);
      [s[..i]] + rest
  }

  /** One step of `SplitOn`: the part before the first occurrence, then the parts of
      what follows it. */
  lemma SplitCons(s: string, sep: string, i: int, rest: seq<string>)
    requires sep != [] && i != -1 && Find(s, sep, 0) == i
    requires |rest| >= 1 && Join(rest, sep) == s[i + |sep|..]
    requires forall k :: 0 <= k < |rest| ==> !Contains(rest[k], sep)
    requires forall k :: 0 <= k < |rest| - 1 ==> LeftmostCut(rest[k], sep)
    ensures var parts := [s[..i]] + rest;
            && Join(parts, sep) == s
            && (forall k :: 0 <= k < |parts| ==> !Contains(parts[k], sep))
            && (forall k :: 0 <= k < |parts| - 1 ==> LeftmostCut(parts[k], sep))
  {
    assert MatchAt(s, sep, i);
    JoinAtMatch(s, sep, i, rest);
    HeadHasNoSeparator(s, sep, i);
    FirstCutIsLeftmost(s, sep, i);
    ConsParts(s[..i], rest, sep);
  }

  /** Joining the part before a match with the parts of what follows it gives back
      the whole string. */
  lemma JoinAtMatch(s: string, sep: string, i: int, rest: seq<string>)
    requires MatchAt(s, sep, i)
    requires |rest| >= 1 && Join(rest, sep) == s[i + |sep|..]
    ensures Join([s[..i]] + rest, sep) == s
  {
    var parts := [s[..i]] + rest;
    assert parts[1..] == rest;
    assert s == s[..i] + sep + s[i + |sep|..];
  }

  /** Prepending a part keeps the split invariants when the new part has them too. */
  lemma ConsParts(head: string, rest: seq<string>, sep: string)
    requires !Contains(head, sep) && LeftmostCut(head, sep)
    requires forall k :: 0 <= k < |rest| ==> !Contains(rest[k], sep)
    requires forall k :: 0 <= k < |rest| - 1 ==> LeftmostCut(rest[k], sep)
    ensures var parts := [head] + rest;
            && (forall k :: 0 <= k < |parts| ==> !Contains(parts[k], sep))
            && (forall k :: 0 <= k < |parts| - 1 ==> LeftmostCut(parts[k], sep))
  {
    var parts := [head] + rest;
    assert forall k :: 1 <= k < |parts| ==> parts[k] == rest[k - 1];
  }

  lemma HeadHasNoSeparator(s: string, sep: string, i: int)
    requires sep != [] && i != -1 && Find(s, sep, 0) == i
    ensures !Contains(s[..i], sep)
  {
    var head := s[..i];
    var j := Find(head, sep, 0);
    if j != -1 {
      assert head[j..j + |sep|] == s[j..j + |sep|];
      assert MatchAt(s, sep, j);
    }
  }

  /** Overlapping occurrences are cut at the leftmost one: `'#@#@#'.split('#@#')`
      is `['', '@#']`. */
  lemma SplitOverlapping()
    ensures SplitOn("#@#@#", "#@#") == ["", "@#"]
  {
    assert MatchAt("#@#@#", "#@#", 0);
    assert Find("#@#@#", "#@#", 0) == 0;
    var rest: string := "@#";
    assert "#@#@#"[3..] == rest;
    assert !MatchAt(rest, "#@#", 0);
    assert Find(rest, "#@#", 0) == -1;
  }

  /** A part followed by the separator holds no earlier occurrence of it: no
      occurrence starts inside `part` and runs into the separator after it. */
  predicate LeftmostCut(part: string, sep: string) {
    sep != [] && !Contains(part + sep[..|sep| - 1], sep)
  }

  /** Cutting at the first occurrence leaves no occurrence straddling the cut. */
  lemma FirstCutIsLeftmost(s: string, sep: string, i: int)
    requires sep != [] && i != -1 && Find(s, sep, 0) == i
    ensures LeftmostCut(s[..i], sep)
  {
    assert MatchAt(s, sep, i);
    var t := s[..i] + sep[..|sep| - 1];
    assert t == s[..i + |sep| - 1];
    forall k | 0 <= k && k + |sep| <= |t|
      ensures !MatchAt(t, sep, k)
    {
      PrefixSlice(s, i + |sep| - 1, k, k + |sep|);
      assert !MatchAt(s, sep, k);
    }
  }

  lemma PrefixSlice(s: string, k: int, a: int, b: int)
    requires 0 <= a <= b <= k <= |s|
    ensures s[..k][a..b] == s[a..b]
  {
  }

  /** Python's normalisation of a slice bound `i` for a sequence of length `n`:
      a negative bound counts from the end, and the result is clamped to `0..n`. */
  function SliceBound(i: int, n: nat): (k: nat)
    ensures k <= n
  {
    if i < 0 then (if i + n < 0 then 0 else i + n) else if i > n then n else i
  }

  /** Python's `s[a:b]`: each bound counts from the end when negative, is clamped to
      the text, and crossed bounds give the empty text. `SliceCases` covers the
      remaining combinations of bounds. */
  function Slice(s: string, a: int, b: int): (r: string)
    ensures 0 <= a <= b <= |s| ==> r == s[a..b]
    ensures -|s| <= a < 0 && 0 <= b <= |s| && a + |s| <= b ==> r == s[a + |s|..b]
    ensures 0 <= a <= |s| && -|s| <= b < 0 && a <= b + |s| ==> r == s[a..b + |s|]
    ensures (b <= a && (0 <= b || a < 0)) || b <= -|s| ==> r == []
  {
    var lo := SliceBound(a, |s|);
    var hi := SliceBound(b, |s|);
    if hi <= lo then [] else s[lo..hi]
  }

  /** The rest of Python's slicing rules: together with `Slice`'s own contract these
      cover every combination of a bound before the text, inside it counted from
      either end, or past it. */
  lemma SliceCases(s: string, a: int, b: int)
    ensures -|s| <= a <= b < 0 ==> Slice(s, a, b) == s[a + |s|..b + |s|]
    ensures 0 <= a <= |s| < b ==> Slice(s, a, b) == s[a..]
    ensures -|s| <= a < 0 && |s| < b ==> Slice(s, a, b) == s[a + |s|..]
    ensures a < -|s| && 0 <= b <= |s| ==> Slice(s, a, b) == s[..b]
    ensures a < -|s| && -|s| <= b < 0 ==> Slice(s, a, b) == s[..b + |s|]
    ensures a < -|s| && |s| < b ==> Slice(s, a, b) == s
    ensures |s| < a ==> Slice(s, a, b) == []
    ensures 0 <= a && -|s| <= b < 0 && b + |s| < a ==> Slice(s, a, b) == []
    ensures -|s| <= a < 0 && 0 <= b < a + |s| ==> Slice(s, a, b) == []
  {
  }

  /** Python's `s[a:]`. */
  function SliceFrom(s: string, a: int): (r: string)
    ensures 0 <= a <= |s| ==> r == s[a..]
    ensures -|s| <= a < 0 ==> r == s[a + |s|..]
    ensures a < -|s| ==> r == s
    ensures a > |s| ==> r == []
  {
    s[SliceBound(a, |s|)..]
  }

  /** Deletion keeps a part that holds no occurrence running into the match after
      it, drops that match, and goes on after it. */
  lemma {:induction false} RemoveLeftmost(pre: string, pat: string, post: string)
    requires LeftmostCut(pre, pat)
    ensures Remove(pre + pat + post, pat) == pre + Remove(post, pat)
    decreases |pre|
  {
    var s := pre + pat + post;
    if pre == [] {
      assert s == pat + post;
      assert s[..|pat|] == pat && s[|pat|..] == post;
    } else {
      var rest := pre[1..] + pat + post;
      LeftmostCutTail(pre, pat);
      RemoveLeftmost(pre[1..], pat, post);
      NoMatchAtFront(pre, pat, post);
      RemoveKeepsFirst(s, pat);
      ConsTail(pre, pat, post);
      ConsAppend(pre, Remove(post, pat));
    }
  }

  /** A first character that starts no match is kept. */
  lemma RemoveKeepsFirst(s: string, pat: string)
    requires pat != [] && |pat| <= |s| && s[..|pat|] != pat
    ensures Remove(s, pat) == [s[0]] + Remove(s[1..], pat)
  {
  }

  /** Putting the first character back in front. */
  lemma ConsAppend(pre: string, r: string)
    requires pre != []
    ensures [pre[0]] + (pre[1..] + r) == pre + r
  {
    assert pre == [pre[0]] + pre[1..];
  }

  /** The first character and the rest of `pre + pat + post`. */
  lemma ConsTail(pre: string, pat: string, post: string)
    requires pre != []
    ensures (pre + pat + post)[0] == pre[0]
    ensures (pre + pat + post)[1..] == pre[1..] + pat + post
  {
  }

  /** Dropping the first character of a leftmost cut leaves a leftmost cut. */
  lemma LeftmostCutTail(pre: string, sep: string)
    requires pre != [] && LeftmostCut(pre, sep)
    ensures LeftmostCut(pre[1..], sep)
  {
    var x := sep[..|sep| - 1];
    var u := pre + x;
    if Contains(pre[1..] + x, sep) {
      var j := Find(pre[1..] + x, sep, 0);
      assert u[1..] == pre[1..] + x;
      MatchInSuffix(u, sep, 1, j);
      ContainsAt(u, sep, j + 1);
    }
  }

  /** A non-empty leftmost cut does not start with the separator. */
  lemma NoMatchAtFront(pre: string, pat: string, post: string)
    requires pre != [] && LeftmostCut(pre, pat)
    ensures var s := pre + pat + post; |pat| <= |s| && s[..|pat|] != pat
  {
    var s := pre + pat + post;
    var u := pre + pat[..|pat| - 1];
    assert u[..|pat|] == s[..|pat|] && u[0..|pat|] == u[..|pat|];
    assert !MatchAt(u, pat, 0) by {
      if MatchAt(u, pat, 0) {
        ContainsAt(u, pat, 0);
      }
    }
  }

  /** Joining with nothing puts a part in front of the join of the rest. */
  lemma JoinEmptyCons(head: string, rest: seq<string>)
    requires |rest| >= 1
    ensures Join([head] + rest, "") == head + Join(rest, "")
  {
    var parts := [head] + rest;
    assert parts[0] == head && parts[1..] == rest && |parts| > 1;
    assert Join(parts, "") == parts[0] + "" + Join(parts[1..], "");
    assert head + "" == head;
  }

  /** `s.replace(pat, '')` is `''.join(s.split(pat))`: every occurrence found left to
      right is deleted and the text between occurrences is kept. */
  lemma {:induction false} RemoveJoinsSplit(s: string, pat: string)
    requires pat != []
    ensures Remove(s, pat) == Join(SplitOn(s, pat), "")
    decreases |s|
  {
    var i := Find(s, pat, 0);
    if i == -1 {
      RemoveAbsent(s, pat);
    } else {
      var rest := s[i + |pat|..];
      assert MatchAt(s, pat, i);
      assert s == s[..i] + pat + rest;
      FirstCutIsLeftmost(s, pat, i);
      RemoveLeftmost(s[..i], pat, rest);
      RemoveJoinsSplit(rest, pat);
      assert SplitOn(s, pat) == [s[..i]] + SplitOn(rest, pat);
      JoinEmptyCons(s[..i], SplitOn(rest, pat));
    }
  }

  /** A slice holds only characters of the sliced text. */
  lemma SliceChars(s: string, a: int, b: int)
    ensures forall c :: c in Slice(s, a, b) ==> c in s
  {
  }

  /** A match inside a suffix is a match in the whole string, shifted. */
  lemma MatchInSuffix(t: string, sub: string, k: nat, m: int)
    requires k <= |t| && 0 <= m
    ensures MatchAt(t[k..], sub, m) <==> MatchAt(t, sub, m + k)
  {
    if 0 <= m && m + |sub| <= |t| - k {
      assert t[k..][m..m + |sub|] == t[m + k..m + k + |sub|];
    }
  }

  /** Deleting a pattern that does not occur changes nothing. */
  lemma {:induction false} RemoveAbsent(s: string, pat: string)
    requires !Contains(s, pat)
    ensures Remove(s, pat) == s
    decreases |s|
  {
    if pat != [] && |s| >= |pat| {
      if Contains(s[1..], pat) {
        var j := Find(s[1..], pat, 0);
        assert s[1..][j..j + |pat|] == s[j + 1..j + 1 + |pat|];
        ContainsAt(s, pat, j + 1);
      }
      RemoveAbsent(s[1..], pat);
    }
  }

  /** Deleting a pattern from `a + b` leaves `a` alone when `a` lacks the pattern's
      first character. */
  lemma {:induction false} RemoveAfterPrefix(a: string, b: string, pat: string)
    requires pat != [] && pat[0] !in a
    ensures Remove(a + b, pat) == a + Remove(b, pat)
    decreases |a|
  {
    if a == [] {
      assert a + b == b;
    } else {
      var s := a + b;
      assert s[1..] == a[1..] + b;
      RemoveAfterPrefix(a[1..], b, pat);
      if |s| >= |pat| {
        assert s[..|pat|] != pat by {
          assert s[..|pat|][0] == a[0];
        }
        assert Remove(s, pat) == [a[0]] + Remove(a[1..] + b, pat);
      } else {
        assert Remove(b, pat) == b;
      }
      assert a == [a[0]] + a[1..];
    }
  }

  /** No match of a pattern starts inside a prefix lacking its first character. */
  lemma NoMatchInPrefix(a: string, b: string, pat: string)
    requires pat != [] && pat[0] !in a
    ensures forall k :: 0 <= k < |a| ==> !MatchAt(a + b, pat, k)
  {
    var s := a + b;
    forall k | 0 <= k < |a|
      ensures !MatchAt(s, pat, k)
    {
      if k + |pat| <= |s| {
        assert s[k..k + |pat|][0] == a[k];
      }
    }
  }

  /** A match in `a + b` of a pattern whose first character is absent from `a` lies in `b`. */
  lemma {:induction false} ContainsAfterPrefix(a: string, b: string, pat: string)
    requires pat != [] && pat[0] !in a
    ensures Contains(a + b, pat) <==> Contains(b, pat)
  {
    assert (a + b)[|a|..] == b;
    NoMatchInPrefix(a, b, pat);
    if Contains(a + b, pat) {
      var i := Find(a + b, pat, 0);
      MatchInSuffix(a + b, pat, |a|, i - |a|);
      ContainsAt(b, pat, i - |a|);
    }
    if Contains(b, pat) {
      var j := Find(b, pat, 0);
      MatchInSuffix(a + b, pat, |a|, j);
      ContainsAt(a + b, pat, j + |a|);
    }
  }

  /** The first occurrence of `sep` in `a + sep + b` is the one after `a` when `a`
      lacks the first character of `sep`. */
  lemma {:induction false} FindAfterPrefix(a: string, sep: string, b: string)
    requires sep != [] && sep[0] !in a
    ensures Find(a + sep + b, sep, 0) == |a|
  {
    var s := a + sep + b;
    assert s == a + (sep + b);
    assert s[|a|..|a| + |sep|] == sep;
    NoMatchInPrefix(a, sep + b, sep);
    assert MatchAt(s, sep, |a|);
    var r := Find(s, sep, 0);
    assert r != -1;
    assert !(r < |a|);
  }

  /** Splitting `a + sep + b` where `a` lacks the first character of `sep` yields `a`
      followed by the pieces of `b`. */
  lemma {:induction false} SplitAfterPrefix(a: string, sep: string, b: string)
    requires sep != [] && sep[0] !in a
    ensures SplitOn(a + sep + b, sep) == [a] + SplitOn(b, sep)
  {
    var s := a + sep + b;
    FindAfterPrefix(a, sep, b);
    assert s[..|a|] == a;
    assert s[|a| + |sep|..] == b;
  }

  /** A string without `sep` splits into itself. */
  lemma SplitAbsent(s: string, sep: string)
    requires sep != [] && !Contains(s, sep)
    ensures SplitOn(s, sep) == [s]
  {
  }

  /** A string whose ends are not whitespace is its own strip. */
  lemma StripKept(s: string)
    requires s != [] && !IsSpace(s[0]) && !IsSpace(s[|s| - 1])
    ensures Strip(s) == s
  {
    assert TrimmedBy(s, IsSpace, s, 0, 0) by {
      assert s[0..|s| - 0] == s;
    }
    TrimUnique(s, IsSpace, s, 0, 0);
  }

  /** Stripping a string whose ends are not whitespace, followed by a newline, gives
      the string back. */
  lemma StripLine(s: string)
    requires s != [] && !IsSpace(s[0]) && !IsSpace(s[|s| - 1])
    ensures Strip(s + "\n") == s
  {
    var t := s + "\n";
    assert LeadCount(t, IsSpace) == 0;
    assert t[..|t| - 1] == s;
    assert TrailCount(t, IsSpace) == 1;
  }
}

=== FILE: values.dfy ===
/** The scraped record: the 28 keys every converter emits, the values a key can hold,
    and Python's truthiness, which decides every fallback in the program. */
module Values {
  import opened Base

  /** The keys of the record built at index.py:157-186, 210-239 and 313-342. */
  datatype Field =
    | Name | Type | Segment | Actuation | Link | Price | Liquidity
    | TotalIssuedShares | NetEquityValue | EquityPrice | Variation12M | Variation30D
    | Min52Weeks | Max52Weeks | PVP | DY | LatestsDividends | LatestDividend | Ffoy
    | Vacancy | TotalRealState | Management | CashValue | AssetsValue | MarketValue
    | InitialDate | TargetPublic | Term

  /** The keys in the order all three converters insert them. */
  const Fields: seq<Field> := [
    Name, Type, Segment, Actuation, Link, Price, Liquidity,
    TotalIssuedShares, NetEquityValue, EquityPrice, Variation12M, Variation30D,
    Min52Weeks, Max52Weeks, PVP, DY, LatestsDividends, LatestDividend, Ffoy,
    Vacancy, TotalRealState, Management, CashValue, AssetsValue, MarketValue,
    InitialDate, TargetPublic, Term
  ]

  /** A record value: Python's `None`, a boolean, a number (int or float), a string,
      or a JSON array or object of which only the size matters here. */
  datatype Value = Null | Bool(b: bool) | Num(n: real) | Str(s: string) | Compound(size: nat)

  /** Python's truthiness: `None`, `False`, `0`, `''` and empty containers are false. */
  predicate Truthy(v: Value) {
    match v
    case Null => false
    case Bool(b) => b
    case Num(n) => n != 0.0
    case Str(s) => s != []
    case Compound(size) => size > 0
  }

  /** A scraped record, Python's `dict` from key to value. */
  type Record = map<Field, Value>

  /** The record has exactly the 28 keys. */
  predicate Complete(r: Record) {
    forall f: Field :: f in r
  }

  /** Truthiness of an adapter's answer: `None` and `{}` are false. */
  predicate RecordTruthy(r: Option<Record>) {
    r.Some? && |r.value| > 0
  }

  /** A text helper's answer as a record value: `None` stays `None`. */
  function OfText(o: Option<string>): Value {
    match o
    case None => Null
    case Some(s) => Str(s)
  }

  /** Where a field sits in the key order. */
  function Position(f: Field): (i: nat)
    ensures i < |Fields| && Fields[i] == f
  {
    match f
    case Name => 0
    case Type => 1
    case Segment => 2
    case Actuation => 3
    case Link => 4
    case Price => 5
    case Liquidity => 6
    case TotalIssuedShares => 7
    case NetEquityValue => 8
    case EquityPrice => 9
    case Variation12M => 10
    case Variation30D => 11
    case Min52Weeks => 12
    case Max52Weeks => 13
    case PVP => 14
    case DY => 15
    case LatestsDividends => 16
    case LatestDividend => 17
    case Ffoy => 18
    case Vacancy => 19
    case TotalRealState => 20
    case Management => 21
    case CashValue => 22
    case AssetsValue => 23
    case MarketValue => 24
    case InitialDate => 25
    case TargetPublic => 26
    case Term => 27
  }

  /** The key order lists every field. */
  lemma FieldsListed()
    ensures forall f: Field :: f in Fields
  {
    forall f: Field
      ensures f in Fields
    {
      var _ := Position(f);
    }
  }

  /** The record holding `g(f)` under every key `f`, as the converters' dict
      literals build it. */
  function RecordOf(g: Field -> Value): (r: Record)
    ensures Complete(r)
    ensures forall f :: r[f] == g(f)
  {
    map f: Field | true :: g(f)
  }
}
